=== FILE: README.md ===
# AgentX core, modelled in Dafny

AgentX is a personal assistant. It answers a user's message in four
phases: it thinks, acts, observes and answers (`AgentOrchestrator.run`).

- **Think.** It lower-cases the message, picks one of eleven intents with
  an ordered keyword chain, and looks up the tool for that intent.
- **Act.** It runs that tool on the message as typed. A tool that is not
  registered, or that raises, becomes an error.
- **Observe.** It turns every falsy tool result into an error. The request
  succeeds exactly when there are no errors.
- **Answer.** A failed request gets the bulleted error list. Otherwise the
  answer comes from the chart template, from the language model, or from
  one of the per-intent templates.
- **Memory.** The user's turn and the answer are saved to the session's
  memory.

The model covers the orchestrator and the tools it drives:

- the in-memory fallback of the task manager and of the memory store;
- the calculator's expression cleaning;
- the web-search query building, citation extraction and source comparison;
- the Gemini wrapper's message conversion and prompts;
- the keyword detection, inline-data extraction and result reports of both
  chart tools.

Each tool is a module, and the modules follow the repository's files:

- `orchestrator.dfy`: `Orchestrator`;
- `task.dfy`: `TaskModel`;
- `task_store.dfy`: `TaskStore`;
- `memory.dfy`: `Memory`;
- `calculator.dfy`: `Calculator`;
- `web_search.dfy`: `WebSearch`;
- `llm.dfy`: `Llm`;
- `visualizer.dfy`: `Visualizer`;
- `enhanced_visualizer.dfy`: `EnhancedVisualizer`.

Shared helpers live in `Wrappers`, `Seqs`, `Text`, `Values`, `Keywords` and
`Scan`:

- `Values` models Python values and their truthiness.
- `Keywords` models the `if any(word in text …) / elif …` chains that every
  detector uses.
- `Scan` models `re.search` and `re.findall`.

Some things are outside the model, and each becomes a function-typed
parameter:

- the network;
- the Gemini SDK;
- `eval`;
- `json.loads`;
- pandas and the plotting libraries;
- the clock;
- Python's `str()` of non-string values.

A call that may raise returns `Call<T>`, which is either `Returned(value)` or
`Raised(fault)`. A collaborator that was not configured is `None` in
`Orchestrator.Deps`. The literal bullet and the chart emoji in the source
files are stored double-encoded (UTF-8 read back as Windows-1252), and the
model uses the same characters.

Three behaviours of the code are worth stating plainly:

- **Listing an empty task store.** Listing an empty task store yields the
  issue list, because `observe` flags the empty list as an empty result
  (agent/orchestrator.py:251-254). The "You have no tasks at the moment."
  sentence is unreachable (`Orchestrator.EmptyTaskListIsAnError`).
- **A failing language model.** `synthesize_answer` returns the model's
  error as text, so the `except` at agent/orchestrator.py:321-323 never runs
  (`Orchestrator.Synthesize`, whose delegating branch returns
  `Llm.SynthesizeAnswer` unchanged; see `Llm.SynthesisSends`).
- **The task line.** A task line separates the fields with
  `" - Priority: "`.

## Model

| member | source | states |
|---|---|---|
| Orchestrator.DetectIntent | agent/orchestrator.py:95-129 | the intent is the outcome of the first keyword rule that occurs in the lower-cased input, and `general` exactly when no rule fires |
| Orchestrator.QuestionBeatsCalculator | agent/orchestrator.py:122-127 | once the task, document, web and chart rules are silent, a question word or `?` makes the input a question even when it contains arithmetic operators |
| Orchestrator.OperatorIsCalculation | agent/orchestrator.py:126-127 | a bare operator character makes an input a calculation once no earlier rule fires |
| Orchestrator.SelectTools | agent/orchestrator.py:137-153 | at most one tool per intent, and no tool exactly for questions and the general intent |
| Orchestrator.ToolServes | agent/orchestrator.py:137-153 | each tool is selected for exactly the intents the registry table routes to it |
| Orchestrator.Think | agent/orchestrator.py:73-93 | the intent comes from the lower-cased input and the tools from the intent; the input as typed and the logs are untouched |
| Orchestrator.ExecuteTool | agent/orchestrator.py:190-234 | only the document search tool can raise; every other tool reports its own failures in its payload |
| Orchestrator.FixedPayloads | agent/orchestrator.py:196-228 | task intents other than listing get the placeholder payload; an undetected chart request gets a failure dictionary instead of an exception |
| Orchestrator.Visualize | agent/orchestrator.py:215-228 | the visualizer branch never yields a falsy result, and an undetected request gives the fixed failure payload |
| Orchestrator.Try | agent/orchestrator.py:160-166 | an attempt is skipped exactly when the tool is not registered |
| Orchestrator.SameRequest | agent/orchestrator.py:157-188 | what a tool does depends only on the input, the intent and the uploaded data, none of which `act` changes |
| Orchestrator.OneOutcomeEach | agent/orchestrator.py:160-186 | every required tool yields exactly one output or one error, and the outputs belong to the tools that ran, in list order |
| Orchestrator.ActOnRecords | agent/orchestrator.py:171-179 | the loop appends exactly the outputs of the tools that returned, in order |
| Orchestrator.ActOnErrors | agent/orchestrator.py:163-186 | the loop appends exactly one "not available" or "Error executing" message per tool that did not run |
| Orchestrator.ActOnCalls | agent/orchestrator.py:171-175 | one tool call is logged per output, for the same tool |
| Orchestrator.ActOnKeeps | agent/orchestrator.py:157-188 | the loop changes nothing but the outputs, the calls and the errors |
| Orchestrator.ActRecords | agent/orchestrator.py:157-188 | `act` adds the reference outputs, calls and errors and changes nothing else; outputs plus errors number the required tools |
| Orchestrator.EmptyErrors | agent/orchestrator.py:251-254 | one empty-result error per falsy output |
| Orchestrator.ObserveOnErrors | agent/orchestrator.py:251-254 | the loop adds exactly the empty-result errors, one per falsy output, in output order |
| Orchestrator.ObserveOnSuccess | agent/orchestrator.py:251-254 | the loop clears success exactly when some output is falsy |
| Orchestrator.ObserveOnKeeps | agent/orchestrator.py:251-254 | the loop changes nothing but the errors and the success flag |
| Orchestrator.Observe | agent/orchestrator.py:238-256 | the errors grow by one per falsy output, success holds exactly when there is no error, and nothing else changes |
| Orchestrator.ErrorResponse | agent/orchestrator.py:388-390 | the answer opens with the issues preamble, and every error appears after it as a bulleted line |
| Orchestrator.ErrorResponseLaid | agent/orchestrator.py:388-390 | after the preamble come exactly the bulleted errors, in order, one per line with single newlines between them |
| Orchestrator.VisualizationAnswer | agent/orchestrator.py:279-311 | a successful chart is linked by its file path and ends with the interactivity tip when interactive; a failed one reports the tool's error or "Unknown error" |
| Orchestrator.ChartReplyLaid | agent/orchestrator.py:287-309 | a chart reply is the image link, then the sentence "I've created an " + ("interactive " when interactive) + the type with `_` read as space + " for you.", then the insight sections, then the tip exactly when interactive, back to back and nothing else |
| Orchestrator.VisualizationAnswerLaid | agent/orchestrator.py:279-309 | a successful visualization answer places the chart sentence right after the image link and the insight sections right after it, and ends after the tip (or the insights when not interactive) |
| Orchestrator.TaskListAnswer | agent/orchestrator.py:326-334 | the no-tasks text exactly for an empty list; otherwise a count line and one numbered line per task |
| Orchestrator.TaskListAnswerLaid | agent/orchestrator.py:331-334 | after the count line come the numbered lines `i. title [status] - Priority: p`, task by task in list order, back to back and nothing else |
| Orchestrator.DocumentAnswer | agent/orchestrator.py:336-345 | the no-information text for no hits; otherwise the found preamble and each of the first three hits with its source file |
| Orchestrator.WebAnswer | agent/orchestrator.py:347-357 | the answer comes first; the sources section appears exactly when there are results and lists each of the first three |
| Orchestrator.WebAnswerLaid | agent/orchestrator.py:351-357 | with results, "Sources:" follows the answer's blank line and is followed by the lines of the first three sources, in order, back to back and nothing else |
| Orchestrator.CalculationAnswerShape | agent/orchestrator.py:359-364 | a success opens with "The result of `", names the cleaned expression right after it and ends on the bold value; a failure is the fixed apology followed by the error alone |
| Orchestrator.HistoryFor | agent/orchestrator.py:366-384 | the model sees no history without memory, and otherwise as many messages as the session's last six |
| Orchestrator.HistoryForMessages | agent/orchestrator.py:366-384 | with memory, the history is the last six stored messages of the session (all of them when fewer), oldest first, each with its role and content |
| Orchestrator.RememberTurns | agent/orchestrator.py:415-427 | the session ends with the user's turn followed by the answer |
| Orchestrator.RememberKeepsOthers | agent/orchestrator.py:415-427 | every other session is unchanged |
| Orchestrator.FinishRecords | agent/orchestrator.py:409-412 | after act, observe and answer, the state holds the reference outputs, calls and errors; success means no errors; the answer follows success |
| Orchestrator.RunRecords | agent/orchestrator.py:394-431 | a whole run records the detected intent, its tools, the reference outputs and errors, and answers a failure with the error list |
| Orchestrator.EmptyTaskListIsAnError | agent/orchestrator.py:251-254 | listing an empty task store is answered with the empty-result error list, not with the no-tasks text |
| Orchestrator.MissingToolReported | agent/orchestrator.py:163-166 | a request whose tool is not registered fails with exactly the not-available error |
| Orchestrator.QuestionsNeedNoTool | agent/orchestrator.py:366-384 | questions and small talk call no tool, always succeed, and are answered in conversation |
| Orchestrator.VisualizationIgnoresLlm | agent/orchestrator.py:279-311 | the chart answer is the same with or without a language model |
| Orchestrator.NoModelAnswers | agent/orchestrator.py:366-386 | without a model, questions get the apology and task changes or summaries get the completion text |
| Orchestrator.CalculatorAttempt | agent/orchestrator.py:231-232 | the calculator always runs, on the input as typed, and never raises |
| Orchestrator.CalculatorTemplate | agent/orchestrator.py:359-364 | without a model, a calculation's answer is the calculator template over its payload |
| Orchestrator.CalculationAnswered | agent/orchestrator.py:359-364 | a calculation always succeeds, and without a model its answer is the template over what the calculator computed |
| Orchestrator.ChartAnswerLinksChart | agent/orchestrator.py:281-309 | a chart the visualizer produced is linked by the path it was saved to, with the tip when interactive |
| Orchestrator.ChartAnswerReportsFault | agent/orchestrator.py:310-311 | a chart that failed is answered with the visualizer's first fault |
| Orchestrator.Remembered | agent/orchestrator.py:415-427 | remembering a state appends its turn, user message then answer, to its session and changes no other session |
| Orchestrator.RunKeepsRequest | agent/orchestrator.py:394-431 | a run answers the input it was given in its own session, and writes that state's turn to memory |
| Orchestrator.FinishKeepsRequest | agent/orchestrator.py:157-271 | acting, observing and answering never change the input or the session |
| Orchestrator.RunSavesTurns | agent/orchestrator.py:415-427 | a run with memory appends the user's turn and then the answer to its session and leaves other sessions alone |
| TaskModel.ParsePriority | models/task.py:13 | a priority parses exactly when it is high, medium or low, and its name reads back as the input |
| TaskModel.ParseStatus | models/task.py:17 | a status parses exactly when it is pending, in_progress or completed, and its name reads back as the input |
| TaskModel.PriorityRoundTrip | models/task.py:13 | parsing a priority's name gives back the priority |
| TaskModel.StatusRoundTrip | models/task.py:17 | parsing a status's name gives back the status |
| TaskModel.MakeTaskCreate | models/task.py:35-42 | creation data is accepted exactly when the title has 1 to 200 characters and the priority is known; priority defaults to medium and tags to none |
| TaskModel.FromCreate | models/task.py:7-19 | a new task is pending, keeps every field of its creation data, and is valid when that data is |
| TaskStore.FindIndex | tools/task_manager.py:47-53 | the index found holds the id, and no index is found exactly when no task has it |
| TaskStore.CreateTask | tools/task_manager.py:34-41 | the store grows by one pending task that carries the given id, title and tags, and validity is kept |
| TaskStore.GetTask | tools/task_manager.py:47-53 | a task is found exactly when one in the store has the id, and it is that task |
| TaskStore.CreateThenGet | tools/task_manager.py:34-53 | a task created under a fresh id is the one fetched by that id, tags included |
| TaskStore.ListTasksSelects | tools/task_manager.py:69-79 | the listing is the tasks matching every filter given, in store order, cut at the limit |
| TaskStore.ListTasksContract | tools/task_manager.py:69-79 | every listed task is stored and matches; the listing never exceeds the limit, and is short only when it holds every match |
| TaskStore.UpdateTask | tools/task_manager.py:95-113 | an empty update only fetches; an unknown id changes nothing and finds nothing; otherwise only that task changes |
| TaskStore.UpdateOverwritesSuppliedFields | tools/task_manager.py:104-113 | each field the update supplies is overwritten, every other field is kept, and the id stays |
| TaskStore.UpdateKeepsValid | tools/task_manager.py:104-113 | a valid update keeps every title in the store valid |
| TaskStore.DeleteTask | tools/task_manager.py:125-133 | exactly the tasks with the id are removed, and the result says whether there was one |
| TaskStore.DeleteShrinks | tools/task_manager.py:125-133 | deleting an id that is present shortens the store |
| TaskStore.DeleteThenGet | tools/task_manager.py:125-133 | a deleted id is not found again |
| TaskStore.SortByDeadline | tools/task_manager.py:153 | the result is ordered by deadline and is a permutation of the input |
| TaskStore.SortByDeadlineStable | tools/task_manager.py:153 | the sort is stable: tasks with the same deadline keep their stored order |
| TaskStore.UpcomingTasks | tools/task_manager.py:141-154 | the result is sorted by deadline and holds exactly the uncompleted tasks due by the horizon, each as often as it is stored |
| TaskStore.GetStatistics | tools/task_manager.py:166-186 | the totals and per-status and per-priority counts are the true counts, only nonzero counts are keyed, and the three status counts add up to the total |
| TaskStore.StatisticsSum | tools/task_manager.py:166-186 | the status counts and the priority counts each add up to the number of tasks |
| Memory.SaveConversation | tools/memory.py:73-83 | the message is appended to its session, only the last 100 are kept, other sessions are unchanged, and the bound is preserved |
| Memory.GetConversation | tools/memory.py:91-96 | the last `limit` messages when positive, the whole history at 0, and Python's negative slice otherwise |
| Memory.ClearConversation | tools/memory.py:102-107 | the session is gone and every other session is unchanged |
| Memory.ClearThenGet | tools/memory.py:91-107 | a cleared session reads back empty |
| Memory.SaveTwice | tools/memory.py:73-83 | two saves leave the two messages as the session's last two, in order |
| Memory.SaveThenGetLast | tools/memory.py:73-96 | the message just saved is the session's last message |
| Memory.SideStoresNotKept | tools/memory.py:36-186 | without Redis, preferences, user context, action logs and the cache keep nothing, reads give defaults, and the store reports healthy |
| Calculator.StripPrefixLeavesEnd | tools/calculator.py:34-36 | a present prefix is removed from the front, otherwise the text is kept, and what is left is an end piece of the text |
| Calculator.CleanExpression | tools/calculator.py:33-38 | the cleaned expression is no longer than the input and has no space, `?` or `=` at either end |
| Calculator.CleanIsInfix | tools/calculator.py:33-38 | the lower-cased input is: "calculate" if it starts with it, then "what is" if what remains starts with it, then "solve" likewise, then trim characters, the cleaned expression, and trim characters |
| Calculator.CleanCalculate | tools/calculator.py:33-38 | "Calculate 10 / 2" is cleaned to "10 / 2" |
| Calculator.CleanWhatIs | tools/calculator.py:33-38 | "What is 5 * 3?" is cleaned to "5 * 3" |
| Calculator.Execute | tools/calculator.py:26-55 | success exactly when evaluation of the cleaned expression returns; success carries its value and the cleaned text, failure the fault and the original input |
| Calculator.PayloadNeverFalsy | tools/calculator.py:43-55 | both payloads are truthy dictionaries whose success flag and expression match the outcome |
| WebSearch.EnhanceQuery | tools/web_search.py:36-40 | the query comes first, every included and excluded domain is mentioned, and with no domains the query is unchanged |
| WebSearch.EnhanceQueryClauses | tools/web_search.py:36-40 | the focus clause, listing the included domains with ", ", follows the query directly; the exclusion clause ends the query; nothing else is added |
| WebSearch.CitationNumbersSound | tools/web_search.py:101 | every number the scan collects is a bracketed citation in the text |
| WebSearch.CitationNumbersComplete | tools/web_search.py:101 | every bracketed citation in the text is collected |
| WebSearch.ExtractCitations | tools/web_search.py:96-111 | a source is listed exactly when its number is cited, once each |
| WebSearch.CitationOfInjective | tools/web_search.py:104-109 | distinct citation numbers give distinct sources |
| WebSearch.NoCitationsIff | tools/web_search.py:96-111 | there are no sources exactly when the text cites nothing |
| WebSearch.Search | tools/web_search.py:23-94 | the query is kept; a result is found exactly when the call returns, and a failure carries its fault |
| WebSearch.SearchPayloadFields | tools/web_search.py:80-94 | the payload is truthy, echoes the query and answer, and has no results on failure |
| WebSearch.GetAnswer | tools/web_search.py:113-116 | the answer on success, and a "Search failed" text otherwise |
| WebSearch.SearchNews | tools/web_search.py:118-125 | the news search asks for the query followed by " news", and gives nothing on failure |
| WebSearch.Assign | tools/web_search.py:131-142 | a source's answer is overwritten in place or appended, and sources stay unique |
| WebSearch.Collect | tools/web_search.py:131-142 | every requested source is answered exactly once, with its own search result |
| WebSearch.CollectInOrder | tools/web_search.py:131-136 | the dictionary's keys come in the order of their first occurrence among the sources searched |
| WebSearch.ComparisonSummary | tools/web_search.py:144-153 | the summary has a line for every source |
| WebSearch.ComparisonSummaryLaid | tools/web_search.py:144-153 | the summary is the sources' lines in order with "; " between neighbours and nothing else |
| WebSearch.CompareSources | tools/web_search.py:127-142 | exactly the first `max_searches` sources are searched, each once, and each appears in the summary |
| WebSearch.CompareSourcesInOrder | tools/web_search.py:127-142 | the comparison lists its sources in first-occurrence order among the first `max_searches` |
| Llm.ResponseMessages | tools/llm.py:113-143 | the system prompt (custom or default), then the context when given, then the last six history messages, then the user's message |
| Llm.TurnsOf | tools/llm.py:53-61 | assistant messages become model turns; a user message becomes a user turn unless it equals the final message (an earlier identical user message is dropped too); others contribute nothing |
| Llm.RunHistory | tools/llm.py:44-61 | the loop's history is the turns of each message in order |
| Llm.ChatJoinsSystemMessages | tools/llm.py:48-52 | the system instruction is every system message joined by newlines |
| Llm.RunLastUser | tools/llm.py:53-54 | the text sent is the content of the final user message |
| Llm.ResponseConversion | tools/llm.py:94-145 | `generate_response` sends the system prompt and context as the instruction, the window's turns as history with user messages equal to the input omitted, and the user's message as text |
| Llm.Prompt | tools/llm.py:77-79 | the bare user message without a system instruction, and otherwise the instruction and the message, labelled |
| Llm.ChatSends | tools/llm.py:21-92 | the history sent is the turns of the messages, the prompt is the latest user message after the system contents joined with newlines (from the first non-empty one on), and the answer is the reply or the error text; it never raises |
| Llm.HistoryTurnsShape | tools/llm.py:44-61 | the history has at most one turn per message, all model or user turns, and never the final user message |
| Llm.ContextPart | tools/llm.py:156-163 | each context line names its tool and keeps at most 500 characters of its result |
| Llm.ContextPartExcerpt | tools/llm.py:156-163 | after the tool name comes the opening of the rendered result: its first 500 characters, or all of it when shorter |
| Llm.SynthesisContext | tools/llm.py:156-163 | the context has a line for every output |
| Llm.SynthesisContextLaid | tools/llm.py:156-163 | the context is the outputs' lines in order, a blank line between neighbours, and nothing else |
| Llm.SynthesisPrompt | tools/llm.py:165-173 | the prompt names the intent and contains the tool outputs |
| Llm.SynthesisSends | tools/llm.py:147-175 | the synthesis sends no history and the user's query under the synthesis instruction, and returns the reply or the error text |
| Visualizer.DetectRequest | tools/visualizer.py:29-56 | no chart exactly when no gate word occurs; otherwise the first matching type, or a line chart when none matches |
| Visualizer.BarWins | tools/visualizer.py:40-42 | a chart request mentioning "bar" is a bar chart |
| Visualizer.DetectedTypeKnown | tools/visualizer.py:40-54 | every detected type is one of the six chart types |
| Visualizer.TopicOf | tools/visualizer.py:95-139 | the generic sample exactly when no topic word occurs; otherwise the first topic in the order sales, temperature/weather, revenue/profit, population, market share, performance/score whose word occurs |
| Visualizer.SalesWins | tools/visualizer.py:103-107 | a request mentioning sales gets the sales sample, whatever other topic words (temperature, weather, revenue, …) it contains |
| Visualizer.SampleDataWellFormed | tools/visualizer.py:95-139 | every topic's sample has one value per label and the fixed axis labels |
| Visualizer.KindOf | tools/visualizer.py:66-79 | any unrecognised type is drawn as a line chart |
| Visualizer.KindOfName | tools/visualizer.py:66-79 | each of the six type names selects its own kind of chart |
| Visualizer.DataUsed | tools/visualizer.py:62-63 | the caller's data when truthy, otherwise the sample of the request's topic |
| Visualizer.Report | tools/visualizer.py:81-93 | the report is truthy, its success flag is the drawing outcome, and it carries the path, type and data or the error |
| Visualizer.Generate | tools/visualizer.py:58-93 | success exactly when drawing succeeds; the type reported is the one asked for |
| EnhancedVisualizer.RequestDetected | tools/visualizer_enhanced.py:39-85 | a request exactly when some type rule fires; the type is the first rule's; the interactive and analysis flags hold exactly when their words occur |
| EnhancedVisualizer.BarWins | tools/visualizer_enhanced.py:51-54 | a request mentioning "bar" is always a bar chart |
| EnhancedVisualizer.AnalyzeIsRequest | tools/visualizer_enhanced.py:45-80 | a request mentioning "analyze" is always a chart request with analysis |
| EnhancedVisualizer.LastIndexOf | tools/visualizer_enhanced.py:92-95 | the last occurrence of the character, or -1 when there is none |
| EnhancedVisualizer.ExtractInlineData | tools/visualizer_enhanced.py:87-124 | inline data, when found, is a dictionary or a list |
| EnhancedVisualizer.JsonFirst | tools/visualizer_enhanced.py:92-102 | a decodable brace group wins over the other formats |
| EnhancedVisualizer.SeriesShape | tools/visualizer_enhanced.py:105-110 | a bracketed number list becomes a series indexed from one, with one value per token |
| EnhancedVisualizer.ListAtSeparator | tools/visualizer_enhanced.py:105 | `\s` in the list pattern matches the information separators too, so `[1,\x1c2]` is a list group |
| EnhancedVisualizer.PairsShape | tools/visualizer_enhanced.py:114-119 | `name: number` pairs become parallel category and value columns, one entry per match in match order, with data only for two or more matches |
| EnhancedVisualizer.PairsAreNumerals | tools/visualizer_enhanced.py:114-117 | every number a pair captures is a numeral |
| EnhancedVisualizer.ExtractTitle | tools/visualizer_enhanced.py:448-460 | a topic word decides the title; otherwise it is the chart type with underscores replaced |
| EnhancedVisualizer.TitleFromTopicOrType | tools/visualizer_enhanced.py:448-460 | a topic title ignores the chart type, a type title has no underscore, and "sales" gives "Sales Data" |
| EnhancedVisualizer.SampleFrameRectangular | tools/visualizer_enhanced.py:168-211 | every sample frame has equally long columns |
| EnhancedVisualizer.SampleAgreesWithBasic | tools/visualizer_enhanced.py:168-211 | the enhanced sample values, and labels for a named topic, are the basic visualizer's |
| EnhancedVisualizer.SourceOf | tools/visualizer_enhanced.py:130-135 | uploaded data first, then inline data, then the sample |
| EnhancedVisualizer.SuccessReport | tools/visualizer_enhanced.py:149-159 | the success dictionary is truthy and carries the path, type, interactivity, insights and summary |
| EnhancedVisualizer.GenerateReports | tools/visualizer_enhanced.py:126-166 | the result is truthy, succeeds exactly when every step succeeds, and otherwise carries the first fault |
| EnhancedVisualizer.GenerateSucceeds | tools/visualizer_enhanced.py:138-159 | a successful report carries the path the chart was saved to, its type, the interactivity flag and the insights computed |
| EnhancedVisualizer.NoAnalysisNoInsights | tools/visualizer_enhanced.py:138-140 | without analysis the insights are None |
| EnhancedVisualizer.CustomDataUsed | tools/visualizer_enhanced.py:130-131 | uploaded data is used as the frame without conversion |

## Left out

- The MongoDB and Redis branches of the task manager and the memory store are not modelled. Only the in-memory fallbacks are, and those are what the orchestrator runs without a database.
- The document search tool is a parameter that may raise. Vector search and summarisation are not part of this model.
- The Gemini SDK, the Perplexity HTTP call, `eval` and `json.loads` are parameters. So are pandas and CSV parsing, the plotting libraries, numpy and scikit-learn analysis, and writing files. Cleaning old chart files is left out.
- Python's `str()` of non-string values and the `:.1f` format are parameters (`render`, `fixed1`).
- Timestamps are a single clock reading per call (`now`). Task deadlines are whole seconds.
- Logging is left out.
- `_extract_task_components` is modelled only as keeping the lower-cased input, which is what the orchestrator stores.
- Orchestrator.PayloadValue: a task list reaches the language model's context as a list of opaque `Task` objects. Their fields (title, status, deadline) are not carried, so `render` gives every task the same text where Python's `str()` would spell out its fields.
- Task deadlines are whole-second instants, so comparing them never fails. In the source, a deadline stored with a UTC offset (an ISO string ending in "Z" or "+00:00") is timezone-aware, and comparing it with the naive `deadline_before` or `utcnow()` horizon raises `TypeError` in `list_tasks` and `get_upcoming_tasks` (tools/task_manager.py:78, 144-150). That failure is not modelled.
- A tool payload of a different shape than its intent expects is read as no output. The tool table rules this out.
- The initial `None` intent is modelled as `general`. It is always replaced in `think` before anything reads it.
- `_extract_citations` returns its sources in set order, which is unspecified. The model uses first-occurrence order, and its contract states only membership and distinctness.
- Lower-casing, title-casing and `\d` are ASCII only. Whitespace (`\s`, `str.strip()`, `str.isspace()`) is Python's full set.
- TaskStore.GetStatistics: the per-status and per-priority counts are maps, which have no order. Python's dictionaries list their keys in the order the first task of each kind is seen (tools/task_manager.py:172-177), and the model does not state that order.
- Floating-point values are exact reals, without binary rounding.
- Orchestrator.VisualizationAnswerLaid: places the insight sections as one piece. The trend, statistics and prediction lines inside them are given by their definitions, with numbers shown through the `render` and `fixed1` parameters, and no lemma states their layout.
- Orchestrator.DocumentAnswer: states that each of the first three hits appears in the answer, not that the answer contains nothing else.
- Visualizer.ExtractData: its contract only names the topic's sample. The properties of the samples are in `Visualizer.SampleDataWellFormed` and `Visualizer.TopicOf`.
- EnhancedVisualizer.ExtractInlineData: states the branch order and the shapes in `JsonFirst`, `SeriesShape` and `PairsShape`, not the exact grammar Python's regular expressions accept beyond the modelled patterns.

=== FILE: calculator.dfy ===
/** The calculator tool: it cleans a request into an expression, hands it to
    the (abstract) expression evaluator and wraps the outcome in a payload. */
module Calculator {
  import opened Wrappers
  import opened Text
  import opened Values

  /** What evaluating an expression does: yields a value or raises (division
      by zero, a syntax error, an unknown name ...). The evaluator itself,
      Python's `eval` over the `math` names, is a parameter of the model. */
  type Evaluator = string -> Call<Value>

  /** The words `execute` strips from the front, in the order it tries them. */
  const Prefixes: seq<string> := ["calculate", "what is", "solve"]

  /** The characters `execute` trims from both ends. */
  const TrimChars: set<char> := {' ', '?', '='}

  /** Strips `p` once if `s` starts with it. */
  function StripPrefix(s: string, p: string): string {
    if StartsWith(s, p) then s[|p|..] else s
  }

  /** Stripping a prefix strips exactly that prefix when it is there and
      nothing otherwise, so what is left is an end piece. */
  lemma StripPrefixLeavesEnd(s: string, p: string)
    ensures StartsWith(s, p) ==> s == p + StripPrefix(s, p)
    ensures !StartsWith(s, p) ==> StripPrefix(s, p) == s
    ensures EndsWith(s, StripPrefix(s, p))
  {
  }

  /** The cleaning step of `execute`: lower-case, strip each prefix at most
      once in turn, then trim spaces, `?` and `=` from both ends. */
  function CleanExpression(expression: string): (r: string)
    ensures |r| <= |expression|
    ensures |r| > 0 ==> r[0] !in TrimChars && r[|r| - 1] !in TrimChars
  {
    CleanLowered(Lower(expression))
  }

  /** The cleaning step after lower-casing. */
  function CleanLowered(lowered: string): (r: string)
    ensures |r| <= |lowered|
    ensures |r| > 0 ==> r[0] !in TrimChars && r[|r| - 1] !in TrimChars
  {
    StripPrefixesLeaveEnd(lowered);
    Strip(StripPrefixes(lowered), TrimChars)
  }

  /** Each of the prefixes, in order, stripped at most once. */
  function StripPrefixes(lowered: string): string {
    StripPrefix(StripPrefix(StripPrefix(lowered, Prefixes[0]), Prefixes[1]), Prefixes[2])
  }

  /** What the three strips leave is an end piece of the input. */
  lemma StripPrefixesLeaveEnd(lowered: string)
    ensures EndsWith(lowered, StripPrefixes(lowered))
  {
    var a := StripPrefix(lowered, Prefixes[0]);
    var b := StripPrefix(a, Prefixes[1]);
    StripPrefixLeavesEnd(lowered, Prefixes[0]);
    StripPrefixLeavesEnd(a, Prefixes[1]);
    StripPrefixLeavesEnd(b, Prefixes[2]);
    EndsWithTransitive(lowered, a, b, StripPrefixes(lowered));
  }

  lemma EndsWithTransitive(s: string, a: string, b: string, c: string)
    requires EndsWith(s, a) && EndsWith(a, b) && EndsWith(b, c)
    ensures EndsWith(s, c)
  {
    assert s[|s| - |c|..] == a[|a| - |c|..];
  }

  /** What trying prefix `p` on `s` strips: `p` itself when `s` starts with
      it, nothing otherwise. */
  function Taken(s: string, p: string): (t: string)
    ensures |t| <= |s|
  {
    if StartsWith(s, p) then p else ""
  }

  /** The cleaned expression is what is left of the lower-cased request once
      the prefixes that were there are cut off in turn ("calculate", then
      "what is" from what remains, then "solve"), followed by a run of trim
      characters, and once a run of trim characters is cut from the back. */
  lemma CleanIsInfix(expression: string) returns (p0: string, p1: string, p2: string, lead: string, back: string)
    ensures var lowered := Lower(expression);
            p0 == Taken(lowered, Prefixes[0])
            && p1 == Taken(lowered[|p0|..], Prefixes[1])
            && p2 == Taken(lowered[|p0| + |p1|..], Prefixes[2])
            && lowered == p0 + p1 + p2 + lead + CleanExpression(expression) + back
    ensures forall k :: 0 <= k < |lead| ==> lead[k] in TrimChars
    ensures forall k :: 0 <= k < |back| ==> back[k] in TrimChars
  {
    p0, p1, p2, lead, back := CleanLoweredIsInfix(Lower(expression));
  }

  lemma CleanLoweredIsInfix(lowered: string) returns (p0: string, p1: string, p2: string, lead: string, back: string)
    ensures p0 == Taken(lowered, Prefixes[0])
    ensures p1 == Taken(lowered[|p0|..], Prefixes[1])
    ensures p2 == Taken(lowered[|p0| + |p1|..], Prefixes[2])
    ensures lowered == p0 + p1 + p2 + lead + CleanLowered(lowered) + back
    ensures forall k :: 0 <= k < |lead| ==> lead[k] in TrimChars
    ensures forall k :: 0 <= k < |back| ==> back[k] in TrimChars
  {
    var a, b, c;
    p0, a := Peel(lowered, Prefixes[0]);
    p1, b := Peel(a, Prefixes[1]);
    p2, c := Peel(b, Prefixes[2]);
    Behind(lowered, p0, p1, b);
    assert StripPrefixes(lowered) == c;
    lead, back := StripInfix(c, TrimChars);
    Regather(lowered, p0, a, p1, b, p2, c, lead, CleanLowered(lowered), back);
  }

  /** Trying prefix `p` on `s` splits `s` into what is stripped and what is kept. */
  lemma Peel(s: string, p: string) returns (taken: string, kept: string)
    ensures taken == Taken(s, p) && kept == StripPrefix(s, p)
    ensures s == taken + kept && s[|taken|..] == kept
  {
    taken, kept := Taken(s, p), StripPrefix(s, p);
  }

  lemma Behind(s: string, x: string, y: string, z: string)
    requires |x| <= |s| && s[|x|..] == y + z
    ensures s[|x| + |y|..] == z
  {
    assert s[|x| + |y|..] == s[|x|..][|y|..];
  }

  lemma Regather(s: string, p0: string, a: string, p1: string, b: string, p2: string, c: string, lead: string, r: string, back: string)
    requires s == p0 + a && a == p1 + b && b == p2 + c && c == lead + r + back
    ensures s == p0 + p1 + p2 + lead + r + back
  {
  }

  /** A prefix whose first letter differs from the text's is not stripped. */
  lemma NotTaken(s: string, p: string)
    requires |s| > 0 && |p| > 0 && s[0] != p[0]
    ensures StripPrefix(s, p) == s
  {
  }

  /** Lower-casing leaves text without upper-case letters as it is. */
  lemma LowerKeeps(s: string)
    requires forall i :: 0 <= i < |s| ==> !IsUpper(s[i])
    ensures Lower(s) == s
  {
  }

  /** One trim character before a piece whose ends are not trim characters
      is all that stripping removes. */
  lemma StripsOne(c: char, x: string, chars: set<char>)
    requires c in chars && |x| > 0 && x[0] !in chars && x[|x| - 1] !in chars
    ensures Strip([c] + x, chars) == x
  {
    assert ([c] + x)[1..] == x;
    assert LeadingCount(x, chars) == 0;
  }

  /** The same with one trim character after the piece too. */
  lemma StripsTwo(c: char, x: string, d: char, chars: set<char>)
    requires c in chars && d in chars && |x| > 0 && x[0] !in chars && x[|x| - 1] !in chars
    ensures Strip([c] + x + [d], chars) == x
  {
    var s := [c] + x + [d];
    assert s[1..] == x + [d];
    assert LeadingCount(x + [d], chars) == 0;
    assert s[..|s| - 1] == [c] + x;
    assert TrailingCount([c] + x, chars) == 0;
  }

  /** Lower-casing a capital followed by text without capitals. */
  lemma LowerCapital(c: char, rest: string)
    requires forall i :: 0 <= i < |rest| ==> !IsUpper(rest[i])
    ensures Lower([c] + rest) == [LowerChar(c)] + rest
  {
    assert ([c] + rest)[1..] == rest;
    LowerKeeps(rest);
  }

  /** The spelling facts about the first example request. */
  lemma CalculateSpelling()
    ensures "Calculate 10 / 2" == ['C'] + "alculate 10 / 2"
    ensures forall i :: 0 <= i < |"alculate 10 / 2"| ==> !IsUpper("alculate 10 / 2"[i])
    ensures ['c'] + "alculate 10 / 2" == "calculate" + ([' '] + "10 / 2")
    ensures Prefixes[0] == "calculate" && Prefixes[1][0] == 'w' && Prefixes[2][0] == 's'
    ensures "10 / 2"[0] !in TrimChars && "10 / 2"[5] !in TrimChars && ' ' in TrimChars
  {
  }

  /** The request "Calculate 10 / 2" is cleaned to the expression "10 / 2". */
  lemma CleanCalculate()
    ensures CleanExpression("Calculate 10 / 2") == "10 / 2"
  {
    var x := "10 / 2";
    CalculateSpelling();
    LowerCapital('C', "alculate 10 / 2");
    var lowered := Prefixes[0] + ([' '] + x);
    assert Lower("Calculate 10 / 2") == lowered;
    var a := StripPrefix(lowered, Prefixes[0]);
    assert lowered[..|Prefixes[0]|] == Prefixes[0];
    assert a == [' '] + x;
    NotTaken(a, Prefixes[1]);
    NotTaken(a, Prefixes[2]);
    StripsOne(' ', x, TrimChars);
  }

  /** The spelling facts about the second example request. */
  lemma WhatIsSpelling()
    ensures "What is 5 * 3?" == ['W'] + "hat is 5 * 3?"
    ensures forall i :: 0 <= i < |"hat is 5 * 3?"| ==> !IsUpper("hat is 5 * 3?"[i])
    ensures ['w'] + "hat is 5 * 3?" == "what is" + ([' '] + "5 * 3" + ['?'])
    ensures Prefixes[0][0] == 'c' && Prefixes[1] == "what is" && Prefixes[2][0] == 's'
    ensures "5 * 3"[0] !in TrimChars && "5 * 3"[4] !in TrimChars && ' ' in TrimChars && '?' in TrimChars
  {
  }

  /** The question "What is 5 * 3?" is cleaned to the expression "5 * 3". */
  lemma CleanWhatIs()
    ensures CleanExpression("What is 5 * 3?") == "5 * 3"
  {
    var x := "5 * 3";
    WhatIsSpelling();
    LowerCapital('W', "hat is 5 * 3?");
    var lowered := Prefixes[1] + ([' '] + x + ['?']);
    assert Lower("What is 5 * 3?") == lowered;
    NotTaken(lowered, Prefixes[0]);
    var b := StripPrefix(lowered, Prefixes[1]);
    assert lowered[..|Prefixes[1]|] == Prefixes[1];
    assert b == [' '] + x + ['?'];
    NotTaken(b, Prefixes[2]);
    StripsTwo(' ', x, '?', TrimChars);
  }

  /** The payload `execute` returns. */
  datatype Payload =
    | Success(result: Value, expression: string)
    | Failure(error: string, expression: string)
  {
    /** The dictionary the tool hands back. */
    function ToValue(): Value {
      match this
      case Success(v, e) => VDict([Entry("success", VBool(true)), Entry("result", v), Entry("expression", VStr(e))])
      case Failure(err, e) => VDict([Entry("success", VBool(false)), Entry("error", VStr(err)), Entry("expression", VStr(e))])
    }
  }

  /** `CalculatorTool.execute`: never raises. On success the payload carries
      the value and the cleaned expression; on failure the evaluator's message
      and the request exactly as given. */
  function Execute(expression: string, eval: Evaluator): (r: Payload)
    ensures eval(CleanExpression(expression)).Returned? <==> r.Success?
    ensures r.Success? ==> r.result == eval(CleanExpression(expression)).value
                           && r.expression == CleanExpression(expression)
    ensures r.Failure? ==> r.error == eval(CleanExpression(expression)).fault && r.expression == expression
  {
    var clean := CleanExpression(expression);
    match eval(clean)
    case Returned(v) => Success(v, clean)
    case Raised(msg) => Failure(msg, expression)
  }

  /** Both payloads are non-empty dictionaries, so neither is falsy; the
      `success` key tells them apart. */
  lemma PayloadNeverFalsy(p: Payload)
    ensures !Falsy(p.ToValue())
    ensures Get(p.ToValue(), "success") == Some(VBool(p.Success?))
    ensures Get(p.ToValue(), "expression") == Some(VStr(p.expression))
  {
    LookupAt(p.ToValue().entries, 2);
  }
}

=== FILE: enhanced_visualizer.dfy ===
/** The Plotly `EnhancedVisualizer` (tools/visualizer_enhanced.py): the
    chart-type chain and request flags, the extraction of data written into
    the request itself, the chart title, the sample data and the order in
    which `generate_visualization` picks its data. Building data frames,
    analysing them and drawing are parameters (`Pandas`). */
module EnhancedVisualizer {
  import opened Wrappers
  import opened Text
  import opened Seqs
  import opened Values
  import opened Keywords
  import opened Scan
  import Visualizer

  // ---------------------------------------------------------------- request

  /** The thirteen chart types a request can carry. */
  datatype ChartType =
    | BarChart | LineChart | PieChart | ScatterPlot | Histogram | Heatmap | AreaChart
    | BubbleChart | Scatter3d | BoxPlot | ViolinPlot | FunnelChart | Gauge
  {
    /** The type's name in the request dictionary. */
    function Name(): string {
      match this
      case BarChart => "bar_chart"
      case LineChart => "line_chart"
      case PieChart => "pie_chart"
      case ScatterPlot => "scatter_plot"
      case Histogram => "histogram"
      case Heatmap => "heatmap"
      case AreaChart => "area_chart"
      case BubbleChart => "bubble_chart"
      case Scatter3d => "3d_scatter"
      case BoxPlot => "box_plot"
      case ViolinPlot => "violin_plot"
      case FunnelChart => "funnel_chart"
      case Gauge => "gauge"
    }
  }

  /** The chart-type chain; its last rule is the catch-all for a generic
      chart request, which draws a bar chart. */
  const TypeRules: seq<Rule<ChartType>> := [
    Rule(["bar chart", "bar graph", "bar"], BarChart),
    Rule(["line graph", "line chart", "line", "trend"], LineChart),
    Rule(["pie chart", "pie"], PieChart),
    Rule(["scatter plot", "scatter"], ScatterPlot),
    Rule(["histogram", "distribution"], Histogram),
    Rule(["heatmap", "heat map"], Heatmap),
    Rule(["area chart", "area"], AreaChart),
    Rule(["bubble chart", "bubble"], BubbleChart),
    Rule(["3d", "three dimensional"], Scatter3d),
    Rule(["box plot", "box chart"], BoxPlot),
    Rule(["violin plot", "violin"], ViolinPlot),
    Rule(["funnel", "conversion"], FunnelChart),
    Rule(["gauge", "meter", "speedometer"], Gauge),
    Rule(["plot", "graph", "chart", "visualize", "analyze", "show"], BarChart)]

  /** The words that ask for an interactive chart, and for an analysis. */
  const InteractiveWords: seq<string> := ["interactive", "plotly"]
  const AnalyzeWords: seq<string> := ["analyze", "insights", "trends"]

  /** The request dictionary: the chart type, whether to draw with Plotly,
      whether to analyse the data, and the data found in the input. */
  datatype Request = Request(chartType: ChartType, interactive: bool, analyze: bool, data: Option<Value>) {
    function ToValue(): (v: Value)
      ensures !Falsy(v)
    {
      VDict([Entry("type", VStr(chartType.Name())), Entry("interactive", VBool(interactive)),
             Entry("analyze", VBool(analyze)), Entry("data", data.GetOr(VNone))])
    }

    /** `request.get('data')` is truthy. */
    predicate HasData() {
      data.Some? && !Falsy(data.value)
    }
  }

  /** `json.loads`: the decoded value, or `None` for a decode error. */
  type Decoder = string -> Option<Value>

  /** `detect_visualization_request`: no request unless a rule of the chain
      fires on the lower-cased input; the type is that of the first rule
      that fires, the two flags depend only on their own words, and the
      data is looked for in the input as typed. */
  function DetectRequest(userInput: string, decode: Decoder): Option<Request> {
    var lowered := Lower(userInput);
    var k := FirstRule(lowered, TypeRules);
    if k == |TypeRules| then None
    else
      Some(Request(TypeRules[k].outcome, ContainsAny(lowered, InteractiveWords),
                   ContainsAny(lowered, AnalyzeWords), ExtractInlineData(userInput, decode)))
  }

  /** What `DetectRequest` finds, stated against the rule chain. */
  lemma RequestDetected(userInput: string, decode: Decoder)
    ensures var r := DetectRequest(userInput, decode);
            r.None? <==> !AnyRuleFires(Lower(userInput), TypeRules)
    ensures var r := DetectRequest(userInput, decode);
            r.Some? ==> r.value.chartType == TypeRules[FirstRule(Lower(userInput), TypeRules)].outcome
    ensures var r := DetectRequest(userInput, decode);
            r.Some? ==> (r.value.interactive <==> ContainsAny(Lower(userInput), InteractiveWords))
    ensures var r := DetectRequest(userInput, decode);
            r.Some? ==> (r.value.analyze <==> ContainsAny(Lower(userInput), AnalyzeWords))
    ensures var r := DetectRequest(userInput, decode);
            r.Some? ==> r.value.data == ExtractInlineData(userInput, decode)
  {
    FallsThrough(Lower(userInput), TypeRules);
  }

  /** Any request that mentions "bar" is a bar chart. */
  lemma BarWins(userInput: string, decode: Decoder)
    requires Contains(Lower(userInput), "bar")
    ensures DetectRequest(userInput, decode).Some?
    ensures DetectRequest(userInput, decode).value.chartType == BarChart
  {
    RequestDetected(userInput, decode);
    FirstRuleAtMost(Lower(userInput), TypeRules, 0, 2);
  }

  /** Asking for an analysis is itself a chart request. */
  lemma AnalyzeIsRequest(userInput: string, decode: Decoder)
    requires Contains(Lower(userInput), "analyze")
    ensures DetectRequest(userInput, decode).Some?
    ensures DetectRequest(userInput, decode).value.analyze
  {
    RequestDetected(userInput, decode);
    FirstRuleAtMost(Lower(userInput), TypeRules, 13, 4);
    assert ContainsAny(Lower(userInput), AnalyzeWords) by {
      assert AnalyzeWords[0] == "analyze";
    }
  }

  // ---------------------------------------------------------------- inline data

  /** The index of the last `c` in `s`, or -1. */
  function LastIndexOf(s: string, c: char): (k: int)
    ensures -1 <= k < |s|
    ensures k >= 0 ==> s[k] == c
    ensures forall j :: k < j < |s| ==> s[j] != c
  {
    if |s| == 0 then -1
    else if s[|s| - 1] == c then |s| - 1
    else LastIndexOf(s[..|s| - 1], c)
  }

  /** `\{.*\}` at the start of `s`: from the brace to the last closing brace
      before the end of the line (`.` stops at a newline). */
  function BraceAt(s: string): (r: Option<Found<string>>)
    ensures r.Some? ==> var t := r.value.capture;
                        r.value.length == |t| && 2 <= |t| <= |s| && t == s[..|t|]
                        && t[0] == '{' && t[|t| - 1] == '}' && '\n' !in t
  {
    if |s| == 0 || s[0] != '{' then None
    else
      var line := s[..IndexOf(s, '\n')];
      var j := LastIndexOf(line[1..], '}');
      if j < 0 then None
      else
        var t := line[..j + 2];
        assert '\n' !in t by {
          forall i | 0 <= i < |t| ensures t[i] != '\n' { assert t[i] == s[i]; }
        }
        Some(Found(t, j + 2))
  }

  /** The JSON attempt: the first brace group, with single quotes made
      double, decoded; only a dictionary or a list is accepted. */
  function JsonData(s: string, decode: Decoder): (r: Option<Value>)
    ensures r.Some? ==> r.value.VDict? || r.value.VList?
  {
    match Leftmost(s, BraceAt)
    case None => None
    case Some(text) =>
      var d := decode(ReplaceChar(text, '\'', '"'));
      if d.Some? && (d.value.VDict? || d.value.VList?) then d else None
  }

  /** The characters of `[\d\s,.-]`. */
  predicate ListChar(c: char) {
    IsDigit(c) || IsSpace(c) || c == ',' || c == '.' || c == '-'
  }

  /** `\[([\d\s,.-]+)\]` at the start of `s`, capturing the inside. No
      backtracking is needed: `]` is not in the class. */
  function ListAt(s: string): (r: Option<Found<string>>)
    ensures r.Some? ==> var g := r.value.capture;
                        |g| > 0 && r.value.length == |g| + 2 <= |s|
                        && s[..|g| + 2] == ['['] + g + [']']
                        && forall i :: 0 <= i < |g| ==> ListChar(g[i])
  {
    if |s| == 0 || s[0] != '[' then None
    else
      var n := Span(s[1..], ListChar);
      if n > 0 && n + 1 < |s| && s[n + 1] == ']' then
        assert s[..n + 2] == ['['] + s[1..n + 1] + [']'];
        Some(Found(s[1..n + 1], n + 2))
      else None
  }

  /** The information separators count as `\s`: a list written with one
      between its items is still a list group. */
  lemma ListAtSeparator()
    ensures ListAt("[1,\U{001C}2]") == Some(Found("1,\U{001C}2", 6))
  {
    var s := "[1,\U{001C}2]";
    var t := s[1..];
    assert t == "1,\U{001C}2]";
    assert ListChar(t[0]) && ListChar(t[1]) && ListChar(t[2]) && ListChar(t[3]) && !ListChar(t[4]);
    assert s[1..5] == "1,\U{001C}2";
  }

  predicate NonEmpty(t: string) { |t| > 0 }

  /** Each string with surrounding whitespace removed. */
  function StripEach(parts: seq<string>): (r: seq<string>)
    ensures |r| == |parts|
    ensures forall k :: 0 <= k < |r| ==> r[k] == Strip(parts[k], Whitespace)
  {
    seq(|parts|, k requires 0 <= k < |parts| => Strip(parts[k], Whitespace))
  }

  /** The comma-separated items of a list group that are not blank, stripped. */
  function Tokens(group: string): (r: seq<string>)
    ensures forall t :: t in r ==> |t| > 0
  {
    Filter(StripEach(Split(group, ',')), NonEmpty)
  }

  /** Digits with at most one decimal point and at least one digit: what
      `float` accepts here once the sign is removed. */
  predicate Numeral(t: string) {
    var d := DigitRun(t);
    (d == |t| && d > 0)
    || (d < |t| && t[d] == '.' && d + 1 + DigitRun(t[d + 1..]) == |t| && d + DigitRun(t[d + 1..]) > 0)
  }

  /** A token `float` converts: an optional minus sign and a numeral. */
  predicate FloatToken(t: string) {
    if |t| > 0 && t[0] == '-' then Numeral(t[1..]) else Numeral(t)
  }

  /** The exact value of a numeral (binary rounding is not modelled). */
  function NumeralValue(t: string): (v: real)
    requires Numeral(t)
    ensures v >= 0.0
  {
    var d := DigitRun(t);
    if d == |t| then DigitsValue(t) as real
    else DigitsValue(t[..d]) as real + DigitsValue(t[d + 1..]) as real / Pow10(|t| - d - 1) as real
  }

  function FloatValue(t: string): real
    requires FloatToken(t)
  {
    if |t| > 0 && t[0] == '-' then -NumeralValue(t[1..]) else NumeralValue(t)
  }

  predicate AllFloat(tokens: seq<string>) {
    forall k :: 0 <= k < |tokens| ==> FloatToken(tokens[k])
  }

  function FloatValues(tokens: seq<string>): (r: seq<real>)
    requires AllFloat(tokens)
    ensures |r| == |tokens|
    ensures forall k :: 0 <= k < |r| ==> r[k] == FloatValue(tokens[k])
  {
    seq(|tokens|, k requires 0 <= k < |tokens| => FloatValue(tokens[k]))
  }

  /** `{"Value": values, "Index": [1, …, n]}`. */
  function SeriesValue(values: seq<real>): (r: Value)
    ensures Get(r, "Value") == Some(VList(Visualizer.Reals(values)))
    ensures Get(r, "Index").Some? && Get(r, "Index").value.VList?
    ensures var ix := Get(r, "Index").value.items;
            |ix| == |values| && forall k :: 0 <= k < |ix| ==> ix[k] == VInt(k + 1)
  {
    var index := seq(|values|, k requires 0 <= k < |values| => VInt(k + 1));
    var r := VDict([Entry("Value", VList(Visualizer.Reals(values))), Entry("Index", VList(index))]);
    assert Lookup(r.entries[1..], "Index") == Some(VList(index));
    r
  }

  /** One `name: number` match. */
  datatype Pair = Pair(name: string, number: string)

  /** `([A-Za-z0-9]+)\s*:\s*(\d+(?:\.\d+)?)` at the start of `s`. The runs
      are greedy and no shorter run could be followed by what comes next,
      so no backtracking is needed. */
  function PairAt(s: string): (r: Option<Found<Pair>>)
    ensures r.Some? ==> var p := r.value.capture;
                        |p.name| > 0 && (forall i :: 0 <= i < |p.name| ==> IsAlnum(p.name[i]))
                        && Numeral(p.number) && |p.name| + |p.number| < r.value.length <= |s|
                        && StartsWith(s, p.name)
  {
    var a := Span(s, IsAlnum);
    if a == 0 then None
    else
      var b := a + Span(s[a..], IsSpace);
      if b >= |s| || s[b] != ':' then None
      else
        var c := b + 1 + Span(s[b + 1..], IsSpace);
        var n := NumberAt(s[c..]);
        if n == 0 then None
        else
          assert s[c..][..n] == s[c..c + n];
          Some(Found(Pair(s[..a], s[c..c + n]), c + n))
  }

  /** The length of `\d+(?:\.\d+)?` at the start of `t`, 0 when it does not
      match there. */
  function NumberAt(t: string): (n: nat)
    ensures n <= |t|
    ensures n > 0 ==> Numeral(t[..n])
  {
    var d := DigitRun(t);
    if d == 0 then 0
    else
      var n := if d + 1 < |t| && t[d] == '.' && DigitRun(t[d + 1..]) > 0 then d + 1 + DigitRun(t[d + 1..]) else d;
      NumberIsNumeral(t, d, n);
      n
  }

  /** The number `NumberAt` measures is a numeral. */
  lemma NumberIsNumeral(t: string, d: nat, n: nat)
    requires d == DigitRun(t) && d > 0 && d <= n <= |t|
    requires n == d || (n > d + 1 && t[d] == '.' && n == d + 1 + DigitRun(t[d + 1..]))
    ensures Numeral(t[..n])
  {
    var u := t[..n];
    DigitRunPrefix(t, n);
    if n > d {
      assert u[d + 1..] == t[d + 1..][..DigitRun(t[d + 1..])];
      DigitRunPrefix(t[d + 1..], DigitRun(t[d + 1..]));
    }
  }

  /** Cutting a string anywhere behind its leading digits keeps them. */
  lemma {:induction false} DigitRunPrefix(t: string, n: nat)
    requires DigitRun(t) <= n <= |t|
    ensures DigitRun(t[..n]) == DigitRun(t)
  {
    if |t| > 0 && IsDigit(t[0]) && n > 0 {
      assert t[..n][1..] == t[1..][..n - 1];
      DigitRunPrefix(t[1..], n - 1);
    }
  }

  predicate NumeralPair(p: Pair) { Numeral(p.number) }

  /** Every pair `findall` returns has a numeral for its number. */
  lemma PairsAreNumerals(s: string)
    ensures forall p :: p in FindAll(s, PairAt) ==> Numeral(p.number)
  {
    FindAllSound(s, PairAt);
    forall p | p in FindAll(s, PairAt) ensures Numeral(p.number) {
      var i :| MatchAt(s, i, PairAt, p);
    }
  }

  /** `{"Category": names, "Value": numbers}`, in match order. */
  function PairsValue(pairs: seq<Pair>): (r: Value)
    requires forall k :: 0 <= k < |pairs| ==> Numeral(pairs[k].number)
    ensures Get(r, "Category").Some? && Get(r, "Category").value.VList?
    ensures Get(r, "Value").Some? && Get(r, "Value").value.VList?
    ensures var cs := Get(r, "Category").value.items;
            var vs := Get(r, "Value").value.items;
            |cs| == |vs| == |pairs|
            && (forall k :: 0 <= k < |cs| ==> cs[k] == VStr(pairs[k].name))
            && (forall k :: 0 <= k < |vs| ==> vs[k] == VReal(NumeralValue(pairs[k].number)))
  {
    var names := seq(|pairs|, k requires 0 <= k < |pairs| => VStr(pairs[k].name));
    var values := seq(|pairs|, k requires 0 <= k < |pairs| => VReal(NumeralValue(pairs[k].number)));
    var r := VDict([Entry("Category", VList(names)), Entry("Value", VList(values))]);
    assert Lookup(r.entries[1..], "Value") == Some(VList(values));
    r
  }

  /** The list branch applies: a bracket group is found whose inside is not blank. */
  predicate ListApplies(s: string) {
    var g := Leftmost(s, ListAt);
    g.Some? && |Strip(g.value, Whitespace)| > 0
  }

  /** `_extract_inline_data`: a decoded brace group when it is a dictionary
      or a list; otherwise a bracketed number list, where an item `float`
      rejects makes the whole extraction fail; otherwise at least two
      `name: number` pairs. */
  function ExtractInlineData(s: string, decode: Decoder): (r: Option<Value>)
    ensures r.Some? ==> r.value.VDict? || r.value.VList?
  {
    var json := JsonData(s, decode);
    if json.Some? then json
    else if ListApplies(s) then
      var tokens := Tokens(Leftmost(s, ListAt).value);
      if AllFloat(tokens) then Some(SeriesValue(FloatValues(tokens))) else None
    else
      var pairs := FindAll(s, PairAt);
      PairsAreNumerals(s);
      if |pairs| >= 2 then Some(PairsValue(pairs)) else None
  }

  /** A decoded dictionary or list takes precedence over everything else. */
  lemma JsonFirst(s: string, decode: Decoder)
    requires JsonData(s, decode).Some?
    ensures ExtractInlineData(s, decode) == JsonData(s, decode)
  {
  }

  /** The list branch: data exactly when every item is a number, and then
      as many values as items with the index running from 1. */
  lemma SeriesShape(s: string, decode: Decoder)
    requires JsonData(s, decode).None? && ListApplies(s)
    ensures var tokens := Tokens(Leftmost(s, ListAt).value);
            var r := ExtractInlineData(s, decode);
            (r.Some? <==> AllFloat(tokens))
            && (r.Some? ==> Get(r.value, "Value") == Some(VList(Visualizer.Reals(FloatValues(tokens))))
                            && Get(r.value, "Index").Some?
                            && |Get(r.value, "Index").value.items| == |tokens|
                            && forall k :: 0 <= k < |tokens| ==> Get(r.value, "Index").value.items[k] == VInt(k + 1))
  {
    var tokens := Tokens(Leftmost(s, ListAt).value);
    if AllFloat(tokens) {
      var values := FloatValues(tokens);
      assert ExtractInlineData(s, decode) == Some(SeriesValue(values));
    } else {
      assert ExtractInlineData(s, decode) == None;
    }
  }

  /** The pair branch: data exactly when there are two or more matches, and
      then one category and one value per match, in match order. */
  lemma PairsShape(s: string, decode: Decoder)
    requires JsonData(s, decode).None? && !ListApplies(s)
    ensures var pairs := FindAll(s, PairAt);
            var r := ExtractInlineData(s, decode);
            (r.Some? <==> |pairs| >= 2)
            && (r.Some? ==> var cs := Get(r.value, "Category").value.items;
                            var vs := Get(r.value, "Value").value.items;
                            |cs| == |vs| == |pairs|
                            && forall k :: 0 <= k < |pairs| ==>
                                 cs[k] == VStr(pairs[k].name)
                                 && Numeral(pairs[k].number) && vs[k] == VReal(NumeralValue(pairs[k].number)))
  {
    var pairs := FindAll(s, PairAt);
    PairsAreNumerals(s);
    if |pairs| >= 2 {
      assert ExtractInlineData(s, decode) == Some(PairsValue(pairs));
    } else {
      assert ExtractInlineData(s, decode) == None;
    }
  }

  // ---------------------------------------------------------------- title

  /** Topic words that name the chart, tried in order. */
  const TitleRules: seq<Rule<string>> := [
    Rule(["sales"], "Sales Data"),
    Rule(["temperature"], "Temperature Over Time"),
    Rule(["revenue"], "Revenue Analysis"),
    Rule(["market share"], "Market Share Distribution")]

  /** The title made from the chart type: underscores become spaces and
      each word is capitalised. */
  function TypeTitle(chartType: string): (r: string)
    ensures |r| == |chartType|
    ensures '_' !in r
  {
    var spaced := ReplaceChar(chartType, '_', ' ');
    var r := Title(spaced);
    assert forall i :: 0 <= i < |r| ==> r[i] != '_' by {
      forall i | 0 <= i < |r| ensures r[i] != '_' {
        assert spaced[i] != '_';
        assert r[i] == if i == 0 || !IsLetter(spaced[i - 1]) then UpperChar(spaced[i]) else LowerChar(spaced[i]);
      }
    }
    r
  }

  /** `_extract_title`. */
  function ExtractTitle(userInput: string, chartType: string): (r: string)
    ensures AnyRuleFires(Lower(userInput), TitleRules) ==>
              r == TitleRules[FirstRule(Lower(userInput), TitleRules)].outcome
    ensures !AnyRuleFires(Lower(userInput), TitleRules) ==> r == TypeTitle(chartType)
  {
    FallsThrough(Lower(userInput), TitleRules);
    Classify(Lower(userInput), TitleRules, TypeTitle(chartType))
  }

  /** A topic word fixes the title whatever the chart type; without one the
      title is made from the type and has no underscore. */
  lemma TitleFromTopicOrType(userInput: string, t1: string, t2: string)
    ensures AnyRuleFires(Lower(userInput), TitleRules) ==> ExtractTitle(userInput, t1) == ExtractTitle(userInput, t2)
    ensures !AnyRuleFires(Lower(userInput), TitleRules) ==> '_' !in ExtractTitle(userInput, t1)
    ensures Contains(Lower(userInput), "sales") ==> ExtractTitle(userInput, t1) == "Sales Data"
  {
    if Contains(Lower(userInput), "sales") {
      FirstRuleAtMost(Lower(userInput), TitleRules, 0, 0);
    }
  }

  // ---------------------------------------------------------------- sample data

  /** A named column of a data frame. */
  datatype Column = Column(name: string, cells: seq<Value>)

  function Strs(xs: seq<string>): (r: seq<Value>)
    ensures |r| == |xs|
  {
    seq(|xs|, k requires 0 <= k < |xs| => VStr(xs[k]))
  }

  /** `_generate_sample_data`: the frame of a topic, with a label column
      first. The topics are tried in the same order as the basic visualizer's. */
  function SampleFrame(t: Visualizer.Topic): seq<Column> {
    match t
    case Sales => [Column("Quarter", Strs(["Q1", "Q2", "Q3", "Q4"])),
                   Column("Sales", Visualizer.Ints([45000, 52000, 48000, 61000])),
                   Column("Target", Visualizer.Ints([50000, 50000, 50000, 55000]))]
    case Temperature => [Column("Day", Strs(["Mon", "Tue", "Wed", "Thu", "Fri", "Sat", "Sun"])),
                         Column("Temperature", Visualizer.Ints([22, 24, 23, 25, 26, 24, 23])),
                         Column("Humidity", Visualizer.Ints([65, 70, 68, 72, 75, 71, 69]))]
    case Revenue => [Column("Month", Strs(["Jan", "Feb", "Mar", "Apr", "May", "Jun"])),
                     Column("Revenue", Visualizer.Ints([85000, 90000, 88000, 95000, 102000, 98000])),
                     Column("Expenses", Visualizer.Ints([60000, 62000, 61000, 65000, 70000, 68000]))]
    case Population => [Column("Year", Strs(["2019", "2020", "2021", "2022", "2023"])),
                        Column("Population", Visualizer.Reals([7.5, 7.6, 7.7, 7.8, 7.9]))]
    case MarketShare => [Column("Company", Strs(["Company A", "Company B", "Company C", "Company D", "Others"])),
                         Column("Share", Visualizer.Ints([30, 25, 20, 15, 10]))]
    case Performance => [Column("Test", Strs(["Test 1", "Test 2", "Test 3", "Test 4", "Test 5"])),
                         Column("Score", Visualizer.Ints([85, 92, 88, 95, 90]))]
    case Generic => [Column("Category", Strs(["A", "B", "C", "D", "E"])),
                     Column("Value", Visualizer.Ints([23, 45, 56, 78, 32]))]
  }

  /** A frame as the dictionary of columns it was built from. */
  function FrameValue(columns: seq<Column>): (v: Value)
    ensures v.VDict? && |v.entries| == |columns|
  {
    VDict(seq(|columns|, k requires 0 <= k < |columns| => Entry(columns[k].name, VList(columns[k].cells))))
  }

  /** Every sample frame has a label column and at least one value column,
      all of the same non-zero length. */
  lemma SampleFrameRectangular(t: Visualizer.Topic)
    ensures var f := SampleFrame(t);
            |f| >= 2 && |f[0].cells| > 0
            && forall k :: 0 <= k < |f| ==> |f[k].cells| == |f[0].cells|
  {
  }

  /** The enhanced sample data extends the basic visualizer's: its first
      value column holds the same values, and apart from the generic topic
      the same labels. */
  lemma SampleAgreesWithBasic(t: Visualizer.Topic)
    ensures SampleFrame(t)[1].cells == Visualizer.TopicData(t).values
    ensures t != Visualizer.Generic ==> SampleFrame(t)[0].cells == Strs(Visualizer.TopicData(t).labels)
  {
  }

  // ---------------------------------------------------------------- generation

  /** Where a chart's data comes from. */
  datatype DataSource = Custom | Inline | Sample

  /** The data source: uploaded data when there is some, then the request's
      data when it is truthy, then the sample data. */
  function SourceOf(request: Request, custom: Option<Value>): (src: DataSource)
    ensures src == Custom <==> custom.Some?
    ensures src == Inline <==> custom.None? && request.HasData()
    ensures src == Sample <==> custom.None? && !request.HasData()
  {
    if custom.Some? then Custom else if request.HasData() then Inline else Sample
  }

  /** How a chart is drawn: with Plotly under a title, or with matplotlib. */
  datatype Backend = Plotly(title: string) | Matplotlib

  /** The pandas, analysis and drawing calls, each of which may raise. */
  datatype Pandas = Pandas(
    toFrame: Value -> Call<Value>,
    analyze: (Value, ChartType) -> Call<Value>,
    draw: (Backend, Value, ChartType) -> Call<string>,
    summary: Value -> Value)

  /** The data frame a chart is drawn from. */
  function FrameOf(userInput: string, request: Request, custom: Option<Value>, pd: Pandas): Call<Value> {
    match SourceOf(request, custom)
    case Custom => Returned(custom.value)
    case Inline => pd.toFrame(request.data.value)
    case Sample => Returned(FrameValue(SampleFrame(Visualizer.TopicOf(userInput))))
  }

  /** The backend: Plotly, titled from the input, for interactive requests. */
  function BackendOf(userInput: string, request: Request): Backend {
    if request.interactive then Plotly(ExtractTitle(userInput, request.chartType.Name())) else Matplotlib
  }

  /** The analysis: asked for only when the request says so. */
  function InsightsOf(frame: Value, request: Request, pd: Pandas): Call<Value> {
    if request.analyze then pd.analyze(frame, request.chartType) else Returned(VNone)
  }

  /** The file the chart is saved to. */
  function DrawOf(userInput: string, request: Request, frame: Value, pd: Pandas): Call<string> {
    pd.draw(BackendOf(userInput, request), frame, request.chartType)
  }

  /** Every step of the generation returns normally. */
  predicate Succeeds(userInput: string, request: Request, custom: Option<Value>, pd: Pandas) {
    var frame := FrameOf(userInput, request, custom, pd);
    frame.Returned?
    && InsightsOf(frame.value, request, pd).Returned?
    && DrawOf(userInput, request, frame.value, pd).Returned?
  }

  /** The first step that raised. */
  function FirstFault(userInput: string, request: Request, custom: Option<Value>, pd: Pandas): string
    requires !Succeeds(userInput, request, custom, pd)
  {
    var frame := FrameOf(userInput, request, custom, pd);
    if frame.Raised? then frame.fault
    else
      var insights := InsightsOf(frame.value, request, pd);
      if insights.Raised? then insights.fault
      else DrawOf(userInput, request, frame.value, pd).fault
  }

  /** The dictionary reporting a drawn chart. */
  function SuccessReport(path: string, typeName: string, interactive: bool, insights: Value, summary: Value): (r: Value)
    ensures !Falsy(r)
    ensures Get(r, "success") == Some(VBool(true))
    ensures Get(r, "filepath") == Some(VStr(path))
    ensures Get(r, "visualization_type") == Some(VStr(typeName))
    ensures Get(r, "interactive") == Some(VBool(interactive))
    ensures Get(r, "insights") == Some(insights)
    ensures Get(r, "data_summary") == Some(summary)
  {
    var r := VDict([Entry("success", VBool(true)), Entry("filepath", VStr(path)),
                    Entry("visualization_type", VStr(typeName)),
                    Entry("interactive", VBool(interactive)),
                    Entry("insights", insights), Entry("data_summary", summary)]);
    var e := r.entries;
    assert "filepath"[0] != "insights"[0];
    LookupAt(e, 1);
    LookupAt(e, 2);
    LookupAt(e, 3);
    LookupAt(e, 4);
    assert forall j :: 0 <= j < 5 ==> |e[j].key| != 12;
    LookupAt(e, 5);
    r
  }

  /** `generate_visualization`: the success dictionary when every step
      returns, otherwise `{"success": False, "error": …}` with the first
      fault. */
  function Generate(userInput: string, request: Request, custom: Option<Value>, pd: Pandas): Value {
    if !Succeeds(userInput, request, custom, pd) then
      VDict([Entry("success", VBool(false)), Entry("error", VStr(FirstFault(userInput, request, custom, pd)))])
    else
      var frame := FrameOf(userInput, request, custom, pd).value;
      SuccessReport(DrawOf(userInput, request, frame, pd).value, request.chartType.Name(), request.interactive,
                    InsightsOf(frame, request, pd).value, pd.summary(frame))
  }

  /** The report `Generate` hands back: truthy, successful exactly when
      every step returned, and otherwise the first fault. */
  lemma GenerateReports(userInput: string, request: Request, custom: Option<Value>, pd: Pandas)
    ensures !Falsy(Generate(userInput, request, custom, pd))
    ensures Get(Generate(userInput, request, custom, pd), "success") == Some(VBool(Succeeds(userInput, request, custom, pd)))
    ensures !Succeeds(userInput, request, custom, pd) ==>
              Generate(userInput, request, custom, pd)
              == VDict([Entry("success", VBool(false)), Entry("error", VStr(FirstFault(userInput, request, custom, pd)))])
  {
  }

  /** A successful report carries the saved path, the type, the flag and
      the insights. */
  lemma GenerateSucceeds(userInput: string, request: Request, custom: Option<Value>, pd: Pandas)
    requires Succeeds(userInput, request, custom, pd)
    ensures var r := Generate(userInput, request, custom, pd);
            var frame := FrameOf(userInput, request, custom, pd).value;
            Get(r, "filepath") == Some(VStr(DrawOf(userInput, request, frame, pd).value))
            && Get(r, "visualization_type") == Some(VStr(request.chartType.Name()))
            && Get(r, "interactive") == Some(VBool(request.interactive))
            && Get(r, "insights") == Some(InsightsOf(frame, request, pd).value)
  {
  }

  /** Without an analysis request a successful chart carries no insights. */
  lemma NoAnalysisNoInsights(userInput: string, request: Request, custom: Option<Value>, pd: Pandas)
    requires !request.analyze && Succeeds(userInput, request, custom, pd)
    ensures Get(Generate(userInput, request, custom, pd), "insights") == Some(VNone)
  {
    GenerateSucceeds(userInput, request, custom, pd);
  }

  /** With uploaded data, a failure can only come from analysing or drawing
      that data: the request's own data and the sample data are not used. */
  lemma CustomDataUsed(userInput: string, request: Request, frame: Value, pd: Pandas)
    ensures Succeeds(userInput, request, Some(frame), pd)
            <==> InsightsOf(frame, request, pd).Returned? && DrawOf(userInput, request, frame, pd).Returned?
  {
  }
}

=== FILE: keywords.dfy ===
/** First-match keyword classification, the shape of every `if any(word in s
    for word in [...]) … elif …` chain in the source: the rules are tried in
    order and the first whose word list has a word occurring in the input
    decides the outcome. */
module Keywords {
  import opened Text

  /** One branch of such a chain: its words and the outcome it selects. */
  datatype Rule<T> = Rule(words: seq<string>, outcome: T)

  /** The index of the first rule with a word occurring in `s`, or `|rules|`
      when none has one. */
  function FirstRule<T>(s: string, rules: seq<Rule<T>>): (k: nat)
    ensures k <= |rules|
    ensures forall j :: 0 <= j < k ==> !ContainsAny(s, rules[j].words)
    ensures k < |rules| ==> ContainsAny(s, rules[k].words)
  {
    if |rules| == 0 then 0
    else if ContainsAny(s, rules[0].words) then 0
    else 1 + FirstRule(s, rules[1..])
  }

  /** The outcome of the chain, `fallback` when no rule fires. */
  function Classify<T>(s: string, rules: seq<Rule<T>>, fallback: T): T {
    var k := FirstRule(s, rules);
    if k < |rules| then rules[k].outcome else fallback
  }

  /** Some rule fires exactly when some rule has a word occurring in `s`. */
  predicate AnyRuleFires<T>(s: string, rules: seq<Rule<T>>) {
    exists j :: 0 <= j < |rules| && ContainsAny(s, rules[j].words)
  }

  /** A rule whose word occurs in `s` is reached unless an earlier one fires:
      the chosen rule comes no later than any rule that matches. */
  lemma FirstRuleAtMost<T>(s: string, rules: seq<Rule<T>>, j: nat, w: nat)
    requires j < |rules| && w < |rules[j].words| && Contains(s, rules[j].words[w])
    ensures FirstRule(s, rules) <= j
    ensures FirstRule(s, rules) < |rules|
  {
    assert ContainsAny(s, rules[j].words);
  }

  /** The rule chosen is rule `j` exactly when rule `j` matches and no
      earlier one does. */
  lemma FirstRuleIs<T>(s: string, rules: seq<Rule<T>>, j: nat)
    requires j < |rules|
    ensures FirstRule(s, rules) == j
            <==> ContainsAny(s, rules[j].words) && forall i :: 0 <= i < j ==> !ContainsAny(s, rules[i].words)
  {
  }

  /** No rule fires exactly when the chain falls through. */
  lemma FallsThrough<T>(s: string, rules: seq<Rule<T>>)
    ensures FirstRule(s, rules) == |rules| <==> !AnyRuleFires(s, rules)
  {
    if FirstRule(s, rules) < |rules| {
      assert ContainsAny(s, rules[FirstRule(s, rules)].words);
    }
  }
}

=== FILE: llm.dfy ===
/** The message shaping of `GeminiLLM` (tools/llm.py) that happens before the
    network call: the message list `generate_response` builds, the way `chat`
    turns it into a history and a prompt, and the context `synthesize_answer`
    renders from tool outputs. Sending the prompt is a parameter `Sender`.

    Optional strings (`context`, `system_prompt`, the running system
    instruction) are modelled as `string` with "" for `None`: the source only
    ever tests them for truthiness, and `None` and "" are both false. */
module Llm {
  import opened Wrappers
  import opened Text
  import opened Seqs
  import opened Values

  /** An OpenAI-style message `{"role": …, "content": …}`. */
  datatype Message = Message(role: string, content: string)

  /** A Gemini history entry `{"role": …, "parts": [part]}`. */
  datatype Turn = Turn(role: string, part: string)

  /** Starting a chat session on a history and sending it a prompt: the
      response text, or what the SDK raised. */
  type Sender = (seq<Turn>, string) -> Call<string>

  /** The system prompt `generate_response` uses when none is given. */
  const DefaultSystemPrompt: string :=
    "You are AgentX, a friendly and helpful AI assistant. \n"
    + "IMPORTANT GUIDELINES:\n"
    + "- For greetings (hi, hello, hey, etc.), respond with a brief, friendly greeting only.\n"
    + "- For small talk, keep responses natural and conversational.\n"
    + "- For follow-up requests, use conversation history.\n"
    + "- For questions needing detailed answers, provide comprehensive responses.\n"
    + "- Be concise and direct unless detailed info is requested."

  /** How many history messages `generate_response` keeps. */
  const HistoryWindow: int := 6

  /** How many characters of each tool result the synthesis context keeps. */
  const ExcerptLength: int := 500

  // ---------------------------------------------------------------- generate_response

  /** The message list `generate_response` hands to `chat`. */
  function ResponseMessages(userInput: string, context: string, systemPrompt: string, history: seq<Message>): (r: seq<Message>)
    ensures var window := SliceFrom(history, -HistoryWindow);
            var head := if |context| > 0 then 2 else 1;
            |r| == head + |window| + 1
            && r[0] == Message("system", if |systemPrompt| > 0 then systemPrompt else DefaultSystemPrompt)
            && (|context| > 0 ==> r[1] == Message("system", "Context: " + context))
            && r[head..|r| - 1] == window
            && r[|r| - 1] == Message("user", userInput)
    ensures |history| <= HistoryWindow ==> |r| == |history| + (if |context| > 0 then 3 else 2)
  {
    var head := ResponseHead(context, systemPrompt);
    var window := SliceFrom(history, -HistoryWindow);
    var r := head + window + [Message("user", userInput)];
    assert r[|head|..|r| - 1] == window;
    r
  }

  /** The system messages at the head of that list. */
  function ResponseHead(context: string, systemPrompt: string): seq<Message> {
    [Message("system", if |systemPrompt| > 0 then systemPrompt else DefaultSystemPrompt)]
    + if |context| > 0 then [Message("system", "Context: " + context)] else []
  }

  // ---------------------------------------------------------------- chat

  /** What `chat`'s loop has gathered so far: the Gemini history, the content
      of the latest user message, and the system instruction ("" for none). */
  datatype Conversion = Conversion(history: seq<Turn>, lastUser: string, system: string)

  /** The history entries one message contributes: an assistant message as a
      "model" turn, a user message as a "user" turn unless it equals the final
      message of the list, anything else nothing. */
  function TurnsOf(m: Message, last: Message): (r: seq<Turn>)
    ensures |r| <= 1
    ensures |r| == 1 ==> r[0].part == m.content && (r[0].role == "model" || r[0].role == "user")
    ensures m.role == "assistant" ==> r == [Turn("model", m.content)]
    ensures m.role == "user" ==> (r == [] <==> m == last)
    ensures m.role != "user" && m.role != "assistant" ==> r == []
  {
    if m.role == "assistant" then [Turn("model", m.content)]
    else if m.role == "user" && m != last then [Turn("user", m.content)]
    else []
  }

  /** One iteration of `chat`'s loop; `last` is `messages[-1]`. */
  function Step(acc: Conversion, m: Message, last: Message): Conversion {
    var system := if m.role != "system" then acc.system
                  else if |acc.system| > 0 then acc.system + "\n" + m.content
                  else m.content;
    var lastUser := if m.role == "user" then m.content else acc.lastUser;
    Conversion(acc.history + TurnsOf(m, last), lastUser, system)
  }

  /** The loop over `msgs`, starting from `acc`. */
  function Run(acc: Conversion, msgs: seq<Message>, last: Message): Conversion
    decreases |msgs|
  {
    if |msgs| == 0 then acc else Run(Step(acc, msgs[0], last), msgs[1..], last)
  }

  /** The whole loop of `chat`. */
  function Convert(messages: seq<Message>): Conversion {
    if |messages| == 0 then Conversion([], "", "")
    else Run(Conversion([], "", ""), messages, messages[|messages| - 1])
  }

  /** The prompt `chat` sends: the latest user message, prefixed with the
      system instruction when there is one. */
  function Prompt(c: Conversion): (r: string)
    ensures |c.system| == 0 ==> r == c.lastUser
    ensures |c.system| > 0 ==> StartsWith(r, "System Instruction: ") && EndsWith(r, "\n\nUser Message: " + c.lastUser)
  {
    if |c.system| > 0 then
      var r := "System Instruction: " + c.system + "\n\nUser Message: " + c.lastUser;
      assert r[..20] == "System Instruction: ";
      assert r[|r| - |"\n\nUser Message: " + c.lastUser|..] == "\n\nUser Message: " + c.lastUser;
      r
    else c.lastUser
  }

  /** `chat`: it never raises; a failure of the SDK becomes the error text. */
  function Chat(messages: seq<Message>, send: Sender): string {
    var c := Convert(messages);
    match send(c.history, Prompt(c))
    case Returned(text) => text
    case Raised(e) => "I encountered an error: " + e
  }

  /** `generate_response`. */
  function GenerateResponse(userInput: string, context: string, systemPrompt: string, history: seq<Message>, send: Sender): string {
    Chat(ResponseMessages(userInput, context, systemPrompt, history), send)
  }

  // ---------------------------------------------------------------- properties of chat

  /** Reference definition of the history a list of messages produces: the
      turns of each message, in order. */
  function HistoryTurns(msgs: seq<Message>, last: Message): seq<Turn> {
    if |msgs| == 0 then [] else TurnsOf(msgs[0], last) + HistoryTurns(msgs[1..], last)
  }

  /** The contents of the system messages, in order. */
  function SystemContents(msgs: seq<Message>): seq<string> {
    if |msgs| == 0 then []
    else if msgs[0].role == "system" then [msgs[0].content] + SystemContents(msgs[1..])
    else SystemContents(msgs[1..])
  }

  /** The loop over a concatenation is the loop over each part in turn. */
  lemma {:induction false} RunAppend(acc: Conversion, a: seq<Message>, b: seq<Message>, last: Message)
    ensures Run(acc, a + b, last) == Run(Run(acc, a, last), b, last)
    decreases |a|
  {
    if |a| > 0 {
      assert (a + b)[0] == a[0];
      assert (a + b)[1..] == a[1..] + b;
      RunAppend(Step(acc, a[0], last), a[1..], b, last);
    } else {
      assert a + b == b;
    }
  }

  /** The loop builds the reference history: the turns of every message
      appended, in order. */
  lemma {:induction false} RunHistory(acc: Conversion, msgs: seq<Message>, last: Message)
    ensures Run(acc, msgs, last).history == acc.history + HistoryTurns(msgs, last)
    decreases |msgs|
  {
    if |msgs| > 0 {
      RunHistory(Step(acc, msgs[0], last), msgs[1..], last);
    }
  }

  /** Messages without the "system" role leave the system instruction alone. */
  lemma {:induction false} RunKeepsSystem(acc: Conversion, msgs: seq<Message>, last: Message)
    requires forall i :: 0 <= i < |msgs| ==> msgs[i].role != "system"
    ensures Run(acc, msgs, last).system == acc.system
    decreases |msgs|
  {
    if |msgs| > 0 {
      RunKeepsSystem(Step(acc, msgs[0], last), msgs[1..], last);
    }
  }

  /** `sep.join` of a longer list adds the separator and the new part. */
  lemma {:induction false} JoinSnoc(sep: string, xs: seq<string>, x: string)
    requires |xs| > 0
    ensures Join(sep, xs + [x]) == Join(sep, xs) + sep + x
    decreases |xs|
  {
    if |xs| > 1 {
      assert (xs + [x])[1..] == xs[1..] + [x];
      JoinSnoc(sep, xs[1..], x);
    }
  }

  /** A join of non-empty parts is empty only when there are no parts. */
  lemma JoinEmpty(sep: string, xs: seq<string>)
    requires forall i :: 0 <= i < |xs| ==> |xs[i]| > 0
    ensures |Join(sep, xs)| == 0 <==> |xs| == 0
  {
    if |xs| > 1 {
      assert Join(sep, xs) == xs[0] + sep + Join(sep, xs[1..]);
    }
  }

  /** The loop joins system contents with "\n" onto what it started with. */
  lemma {:induction false} RunJoinsSystem(acc: Conversion, done: seq<string>, msgs: seq<Message>, last: Message)
    requires forall i :: 0 <= i < |done| ==> |done[i]| > 0
    requires forall i :: 0 <= i < |msgs| ==> msgs[i].role == "system" ==> |msgs[i].content| > 0
    requires acc.system == Join("\n", done)
    ensures Run(acc, msgs, last).system == Join("\n", done + SystemContents(msgs))
    decreases |msgs|
  {
    if |msgs| > 0 {
      var m := msgs[0];
      var next := Step(acc, m, last);
      JoinEmpty("\n", done);
      if m.role == "system" {
        if |done| > 0 {
          JoinSnoc("\n", done, m.content);
        }
        assert done + SystemContents(msgs) == (done + [m.content]) + SystemContents(msgs[1..]);
        RunJoinsSystem(next, done + [m.content], msgs[1..], last);
      } else {
        RunJoinsSystem(next, done, msgs[1..], last);
      }
    } else {
      assert done + SystemContents(msgs) == done;
    }
  }

  /** `chat` joins all system messages into one instruction with "\n", as
      long as none of them is empty. */
  lemma ChatJoinsSystemMessages(messages: seq<Message>)
    requires forall i :: 0 <= i < |messages| ==> messages[i].role == "system" ==> |messages[i].content| > 0
    ensures Convert(messages).system == Join("\n", SystemContents(messages))
  {
    if |messages| > 0 {
      RunJoinsSystem(Conversion([], "", ""), [], messages, messages[|messages| - 1]);
      assert [] + SystemContents(messages) == SystemContents(messages);
    }
  }

  /** The latest user message is the one the loop reports. */
  lemma {:induction false} RunLastUser(acc: Conversion, msgs: seq<Message>, last: Message)
    requires |msgs| > 0 && msgs[|msgs| - 1].role == "user"
    ensures Run(acc, msgs, last).lastUser == msgs[|msgs| - 1].content
    decreases |msgs|
  {
    if |msgs| > 1 {
      assert msgs[1..][|msgs[1..]| - 1] == msgs[|msgs| - 1];
      RunLastUser(Step(acc, msgs[0], last), msgs[1..], last);
    }
  }

  /** Reference definition of the latest user message: the content of the
      last message with the "user" role, "" when there is none. */
  function LatestUser(msgs: seq<Message>): string
    decreases |msgs|
  {
    if |msgs| == 0 then ""
    else if msgs[|msgs| - 1].role == "user" then msgs[|msgs| - 1].content
    else LatestUser(msgs[..|msgs| - 1])
  }

  /** The loop, started with no user message, reports the latest one. */
  lemma {:induction false} RunLatestUser(acc: Conversion, msgs: seq<Message>, last: Message)
    requires acc.lastUser == ""
    ensures Run(acc, msgs, last).lastUser == LatestUser(msgs)
    decreases |msgs|
  {
    if |msgs| > 0 {
      var init := msgs[..|msgs| - 1];
      var m := msgs[|msgs| - 1];
      assert msgs == init + [m];
      RunAppend(acc, init, [m], last);
      RunLatestUser(acc, init, last);
      assert Run(Run(acc, init, last), [m], last) == Step(Run(acc, init, last), m, last);
    }
  }

  /** The strings from the first non-empty one on. */
  function DropLeadingEmpty(xs: seq<string>): (r: seq<string>)
    ensures |r| > 0 ==> |r[0]| > 0
  {
    if |xs| == 0 || |xs[0]| > 0 then xs else DropLeadingEmpty(xs[1..])
  }

  /** `sep.join` with a first part merged into the second. */
  lemma JoinMerge(sep: string, a: string, c: string, rest: seq<string>)
    ensures Join(sep, [a + sep + c] + rest) == Join(sep, [a, c] + rest)
  {
    assert ([a, c] + rest)[1..] == [c] + rest;
    assert ([a + sep + c] + rest)[1..] == rest;
    if |rest| > 0 {
      assert ([c] + rest)[1..] == rest;
    }
  }

  /** Once the instruction is non-empty, every further system message is
      appended after a newline. */
  lemma {:induction false} RunExtendsSystem(acc: Conversion, msgs: seq<Message>, last: Message)
    requires |acc.system| > 0
    ensures Run(acc, msgs, last).system == Join("\n", [acc.system] + SystemContents(msgs))
    decreases |msgs|
  {
    if |msgs| == 0 {
      assert [acc.system] + SystemContents(msgs) == [acc.system];
    } else {
      var m := msgs[0];
      var next := Step(acc, m, last);
      RunExtendsSystem(next, msgs[1..], last);
      assert Run(acc, msgs, last) == Run(next, msgs[1..], last);
      if m.role == "system" {
        assert next.system == acc.system + "\n" + m.content;
        assert SystemContents(msgs) == [m.content] + SystemContents(msgs[1..]);
        JoinMerge("\n", acc.system, m.content, SystemContents(msgs[1..]));
        assert [acc.system] + SystemContents(msgs) == [acc.system, m.content] + SystemContents(msgs[1..]);
      } else {
        assert next.system == acc.system;
        assert SystemContents(msgs) == SystemContents(msgs[1..]);
      }
    }
  }

  /** The instruction the loop builds from nothing: the system contents
      joined with "\n", leaving out those empty ones that come before the
      first non-empty one (an empty instruction is no instruction, so the
      next content replaces it). */
  lemma {:induction false} RunSystem(acc: Conversion, msgs: seq<Message>, last: Message)
    requires acc.system == ""
    ensures Run(acc, msgs, last).system == Join("\n", DropLeadingEmpty(SystemContents(msgs)))
    decreases |msgs|
  {
    if |msgs| > 0 {
      var m := msgs[0];
      var next := Step(acc, m, last);
      if m.role != "system" {
        RunSystem(next, msgs[1..], last);
      } else if |m.content| == 0 {
        RunSystem(next, msgs[1..], last);
        assert SystemContents(msgs) == [m.content] + SystemContents(msgs[1..]);
        assert DropLeadingEmpty(SystemContents(msgs)) == DropLeadingEmpty(SystemContents(msgs[1..]));
      } else {
        RunExtendsSystem(next, msgs[1..], last);
        assert SystemContents(msgs) == [m.content] + SystemContents(msgs[1..]);
      }
    }
  }

  /** `chat` sends the turns of its messages as the history and, as the
      prompt, the latest user message, after the system instruction when
      there is one; it answers with the reply, or with the error text when
      sending raised. The instruction is the system contents joined with
      "\n", from the first non-empty one on. */
  lemma ChatSends(messages: seq<Message>, send: Sender)
    ensures var system := Join("\n", DropLeadingEmpty(SystemContents(messages)));
            var user := LatestUser(messages);
            var history := if |messages| == 0 then [] else HistoryTurns(messages, messages[|messages| - 1]);
            var prompt := if |system| > 0 then "System Instruction: " + system + "\n\nUser Message: " + user else user;
            match send(history, prompt)
            case Returned(text) => Chat(messages, send) == text
            case Raised(e) => Chat(messages, send) == "I encountered an error: " + e
  {
    var c := Convert(messages);
    var system := Join("\n", DropLeadingEmpty(SystemContents(messages)));
    var user := LatestUser(messages);
    if |messages| > 0 {
      var start := Conversion([], "", "");
      var last := messages[|messages| - 1];
      RunHistory(start, messages, last);
      RunLatestUser(start, messages, last);
      RunSystem(start, messages, last);
    } else {
      assert SystemContents(messages) == [];
    }
    var history := if |messages| == 0 then [] else HistoryTurns(messages, messages[|messages| - 1]);
    var prompt := if |system| > 0 then "System Instruction: " + system + "\n\nUser Message: " + user else user;
    assert c.history == history && c.system == system && c.lastUser == user;
    assert Prompt(c) == prompt;
    assert send(c.history, Prompt(c)) == send(history, prompt);
  }

  /** The system instruction `chat` ends up with for the messages
      `generate_response` builds. */
  function ResponseSystem(context: string, systemPrompt: string): string {
    (if |systemPrompt| > 0 then systemPrompt else DefaultSystemPrompt)
    + (if |context| > 0 then "\nContext: " + context else "")
  }

  /** What `chat` makes of the messages `generate_response` builds from a
      history without system messages: the system prompt (and the context)
      become the instruction, the user input is the prompt's message, and
      the history is the turns of the last six history messages, leaving
      out any user message equal to the new one. */
  lemma ResponseConversion(userInput: string, context: string, systemPrompt: string, history: seq<Message>)
    requires forall i :: 0 <= i < |history| ==> history[i].role != "system"
    ensures var c := Convert(ResponseMessages(userInput, context, systemPrompt, history));
            c.system == ResponseSystem(context, systemPrompt)
            && c.lastUser == userInput
            && c.history == HistoryTurns(SliceFrom(history, -HistoryWindow), Message("user", userInput))
            && Prompt(c) == "System Instruction: " + ResponseSystem(context, systemPrompt) + "\n\nUser Message: " + userInput
  {
    ResponseFields(userInput, context, systemPrompt, history);
    DefaultPromptNonEmpty();
  }

  lemma ResponseFields(userInput: string, context: string, systemPrompt: string, history: seq<Message>)
    requires forall i :: 0 <= i < |history| ==> history[i].role != "system"
    ensures var c := Convert(ResponseMessages(userInput, context, systemPrompt, history));
            c.system == ResponseSystem(context, systemPrompt)
            && c.lastUser == userInput
            && c.history == HistoryTurns(SliceFrom(history, -HistoryWindow), Message("user", userInput))
  {
    var last := Message("user", userInput);
    var head := ResponseHead(context, systemPrompt);
    var window := SliceFrom(history, -HistoryWindow);
    var ms := ResponseMessages(userInput, context, systemPrompt, history);
    var start := Conversion([], "", "");
    assert ms == head + window + [last];
    assert Convert(ms) == Run(start, ms, last);
    RunAppend(start, head + window, [last], last);
    RunAppend(start, head, window, last);
    HeadConversion(context, systemPrompt, last);
    var afterHead := Run(start, head, last);
    RunKeepsSystem(afterHead, window, last);
    RunHistory(afterHead, window, last);
    var afterWindow := Run(afterHead, window, last);
    assert Run(afterWindow, [last], last) == Step(afterWindow, last, last);
    assert TurnsOf(last, last) == [];
  }

  /** The head of the message list sets the system instruction and nothing
      else. */
  lemma HeadConversion(context: string, systemPrompt: string, last: Message)
    ensures var c := Run(Conversion([], "", ""), ResponseHead(context, systemPrompt), last);
            c.system == ResponseSystem(context, systemPrompt) && c.history == []
  {
    DefaultPromptNonEmpty();
    var first := if |systemPrompt| > 0 then systemPrompt else DefaultSystemPrompt;
    SystemHead(first, context, last);
  }

  lemma DefaultPromptNonEmpty()
    ensures |DefaultSystemPrompt| > 0
  {
  }

  lemma StepSystem(acc: Conversion, content: string, last: Message)
    ensures Step(acc, Message("system", content), last)
            == Conversion(acc.history, acc.lastUser, if |acc.system| > 0 then acc.system + "\n" + content else content)
  {
    assert "system" != "assistant";
    assert "system" != "user";
  }

  lemma SystemHead(first: string, context: string, last: Message)
    requires |first| > 0
    ensures var c := Run(Conversion([], "", ""), [Message("system", first)]
                         + if |context| > 0 then [Message("system", "Context: " + context)] else [], last);
            c.system == first + (if |context| > 0 then "\nContext: " + context else "") && c.history == []
  {
    var c0 := Conversion([], "", "");
    StepSystem(c0, first, last);
    var c1 := Step(c0, Message("system", first), last);
    if |context| > 0 {
      var head := [Message("system", first), Message("system", "Context: " + context)];
      StepSystem(c1, "Context: " + context, last);
      assert Run(c0, head, last) == Run(c1, head[1..], last);
      assert head[1..] == [head[1]];
    } else {
      assert [Message("system", first)][1..] == [];
    }
  }

  /** A user message is never a "user" history turn when it equals the final
      message, and every turn is a "model" or "user" turn. */
  lemma {:induction false} HistoryTurnsShape(msgs: seq<Message>, last: Message)
    ensures |HistoryTurns(msgs, last)| <= |msgs|
    ensures forall t :: t in HistoryTurns(msgs, last) ==> t.role == "model" || t.role == "user"
    ensures Turn("user", last.content) in HistoryTurns(msgs, last) ==>
              exists i :: 0 <= i < |msgs| && msgs[i] == Message("user", last.content) && msgs[i] != last
    decreases |msgs|
  {
    if |msgs| > 0 {
      HistoryTurnsShape(msgs[1..], last);
      var h := HistoryTurns(msgs, last);
      assert h == TurnsOf(msgs[0], last) + HistoryTurns(msgs[1..], last);
      if Turn("user", last.content) in h {
        if Turn("user", last.content) in TurnsOf(msgs[0], last) {
          assert msgs[0] == Message("user", last.content);
        } else {
          var i :| 0 <= i < |msgs[1..]| && msgs[1..][i] == Message("user", last.content) && msgs[1..][i] != last;
          assert msgs[i + 1] == msgs[1..][i];
        }
      }
    }
  }

  // ---------------------------------------------------------------- synthesize_answer

  /** One line of the synthesis context: `[tool] ` and the first 500
      characters of `str(result)`, for an output dictionary whose "tool"
      defaults to "unknown" and whose "result" defaults to `{}`; `render` is
      the `str()` of values the model does not spell out. */
  function ContextPart(output: Value, render: Value -> string): (r: string)
    ensures var tool := Show(GetOr(output, "tool", VStr("unknown")), render);
            StartsWith(r, "[" + tool + "] ")
            && |r| <= |tool| + 3 + ExcerptLength
  {
    var tool := Show(GetOr(output, "tool", VStr("unknown")), render);
    var text := Show(GetOr(output, "result", VDict([])), render);
    var r := "[" + tool + "] " + SliceTo(text, ExcerptLength);
    assert r[..|"[" + tool + "] "|] == "[" + tool + "] ";
    r
  }

  /** After `[tool] ` a part holds the opening of the rendered result: the
      first 500 characters, or the whole result when it is no longer. */
  lemma ContextPartExcerpt(output: Value, render: Value -> string)
    ensures var head := "[" + Show(GetOr(output, "tool", VStr("unknown")), render) + "] ";
            var text := Show(GetOr(output, "result", VDict([])), render);
            var r := ContextPart(output, render);
            StartsWith(r, head)
            && StartsWith(text, r[|head|..])
            && |r| == |head| + (if |text| < ExcerptLength then |text| else ExcerptLength)
            && (|text| <= ExcerptLength ==> r == head + text)
  {
    var head := "[" + Show(GetOr(output, "tool", VStr("unknown")), render) + "] ";
    var text := Show(GetOr(output, "result", VDict([])), render);
    var r := ContextPart(output, render);
    assert r == head + SliceTo(text, ExcerptLength);
    assert r[|head|..] == SliceTo(text, ExcerptLength);
  }

  /** The part of each output, in order. */
  function ContextParts(outputs: seq<Value>, render: Value -> string): (parts: seq<string>)
    ensures |parts| == |outputs|
  {
    seq(|outputs|, k requires 0 <= k < |outputs| => ContextPart(outputs[k], render))
  }

  /** The context: the parts joined by a blank line. */
  function SynthesisContext(outputs: seq<Value>, render: Value -> string): (r: string)
    ensures forall k :: 0 <= k < |outputs| ==> Contains(r, ContextPart(outputs[k], render))
  {
    var parts := ContextParts(outputs, render);
    forall k | 0 <= k < |outputs| ensures Contains(Join("\n\n", parts), ContextPart(outputs[k], render)) {
      JoinContainsParts("\n\n", parts, k);
    }
    Join("\n\n", parts)
  }

  /** The context is the outputs' parts in order, a blank line between
      neighbours, and nothing else. */
  lemma SynthesisContextLaid(outputs: seq<Value>, render: Value -> string)
    ensures Laid(SynthesisContext(outputs, render), "\n\n", ContextParts(outputs, render))
    ensures forall k :: 0 <= k < |outputs| ==> ContextParts(outputs, render)[k] == ContextPart(outputs[k], render)
  {
    JoinLaid("\n\n", ContextParts(outputs, render));
  }

  /** The system prompt `synthesize_answer` builds around the context. */
  function SynthesisPrompt(intent: string, context: string): (r: string)
    ensures Contains(r, "User Intent: " + intent) && Contains(r, "Tool Outputs:\n" + context)
    ensures |r| > |context|
  {
    var opening := "You are AgentX, a helpful AI assistant. \n"
                   + "Based on the tool outputs below, provide a clear and concise answer to the user's query.\n\n";
    var closing := "\n\nProvide a natural, conversational response that directly addresses the user's query.";
    var r := opening + ("User Intent: " + intent) + "\n\n" + ("Tool Outputs:\n" + context) + closing;
    BothOccur(opening, "User Intent: " + intent, "\n\n", "Tool Outputs:\n" + context, closing);
    r
  }

  /** The second and fourth of five concatenated strings occur in the whole. */
  lemma BothOccur(p: string, x: string, q: string, y: string, z: string)
    ensures Contains(p + x + q + y + z, x) && Contains(p + x + q + y + z, y)
  {
    var w := p + x + q + y + z;
    assert w[|p|..|p| + |x|] == x;
    ContainsAt(w, x, |p|);
    assert w[|p + x + q|..|p + x + q| + |y|] == y;
    ContainsAt(w, y, |p + x + q|);
  }

  /** `synthesize_answer`: a `generate_response` with the synthesis prompt
      as system prompt and no context or history. */
  function SynthesizeAnswer(userQuery: string, outputs: seq<Value>, intent: string, render: Value -> string, send: Sender): string {
    GenerateResponse(userQuery, "", SynthesisPrompt(intent, SynthesisContext(outputs, render)), [], send)
  }

  /** What `synthesize_answer` sends: an empty history and a prompt whose
      instruction is the synthesis prompt over the rendered outputs and whose
      message is the user's query. */
  lemma SynthesisSends(userQuery: string, outputs: seq<Value>, intent: string, render: Value -> string, send: Sender)
    ensures var system := SynthesisPrompt(intent, SynthesisContext(outputs, render));
            var sent := send([], "System Instruction: " + system + "\n\nUser Message: " + userQuery);
            SynthesizeAnswer(userQuery, outputs, intent, render, send)
              == match sent
                 case Returned(text) => text
                 case Raised(e) => "I encountered an error: " + e
  {
    var system := SynthesisPrompt(intent, SynthesisContext(outputs, render));
    var none: seq<Message> := [];
    ResponseConversion(userQuery, "", system, none);
    assert SliceFrom(none, -HistoryWindow) == [];
    assert ResponseSystem("", system) == system;
    var c := Convert(ResponseMessages(userQuery, "", system, none));
    assert c.history == [];
    assert Prompt(c) == "System Instruction: " + system + "\n\nUser Message: " + userQuery;
  }
}

=== FILE: memory.dfy ===
/** The memory module in its in-memory fallback mode (no key-value server
    reachable): per-session conversation logs kept in a dictionary, while
    preferences, user context, the action log and the cache are not kept. */
module Memory {
  import opened Wrappers
  import opened Seqs

  /** One stored conversation message: the caller's role and content plus
      the timestamp the store adds. */
  datatype Message = Message(role: string, content: string, timestamp: string)

  /** The fallback store `fallback_memory`: session id to its messages. */
  datatype Fallback = Fallback(sessions: map<string, seq<Message>>)

  const Empty: Fallback := Fallback(map[])

  /** The number of most recent messages a session keeps. */
  const MaxMessages: nat := 100

  /** The messages stored for a session; an unknown session has none. */
  function History(m: Fallback, session: string): seq<Message> {
    if session in m.sessions then m.sessions[session] else []
  }

  /** A session log never holds more than the cap. */
  predicate Bounded(m: Fallback) {
    forall s :: s in m.sessions ==> |m.sessions[s]| <= MaxMessages
  }

  /** `save_conversation`: stamps the message with `now`, appends it to the
      session (creating it when new) and keeps the last 100 messages. */
  function SaveConversation(m: Fallback, session: string, role: string, content: string, now: string): (r: Fallback)
    ensures session in r.sessions
    ensures var h := History(m, session) + [Message(role, content, now)];
            r.sessions[session] == if |h| <= MaxMessages then h else h[|h| - MaxMessages..]
    ensures |r.sessions[session]| == if |History(m, session)| < MaxMessages then |History(m, session)| + 1 else MaxMessages
    ensures r.sessions[session][|r.sessions[session]| - 1] == Message(role, content, now)
    ensures forall s :: s != session ==> History(r, s) == History(m, s)
    ensures r.sessions.Keys == m.sessions.Keys + {session}
    ensures Bounded(m) ==> Bounded(r)
  {
    var h := History(m, session) + [Message(role, content, now)];
    Fallback(m.sessions[session := SliceFrom(h, -(MaxMessages as int))])
  }

  /** `get_conversation`: `messages[-limit:]`, or `[]` for an unknown or
      empty session. A positive limit gives the last `limit` messages; a limit
      of zero gives the whole history, because `-0` is `0`. */
  function GetConversation(m: Fallback, session: string, limit: int): (r: seq<Message>)
    ensures |History(m, session)| == 0 ==> r == []
    ensures limit > 0 ==> r == if limit <= |History(m, session)| then History(m, session)[|History(m, session)| - limit..]
                                 else History(m, session)
    ensures limit == 0 ==> r == History(m, session)
    ensures limit < 0 ==> r == if -limit <= |History(m, session)| then History(m, session)[-limit..] else []
  {
    var messages := History(m, session);
    if |messages| == 0 then [] else SliceFrom(messages, -limit)
  }

  /** `clear_conversation`: forgets the session, whether or not it existed. */
  function ClearConversation(m: Fallback, session: string): (r: Fallback)
    ensures session !in r.sessions
    ensures forall s :: s != session ==> History(r, s) == History(m, s)
  {
    Fallback(m.sessions - {session})
  }

  /** Reading a session after clearing it gives nothing, whatever the limit. */
  lemma ClearThenGet(m: Fallback, session: string, limit: int)
    ensures GetConversation(ClearConversation(m, session), session, limit) == []
  {
  }

  /** Two messages saved one after the other are the last two of the
      session, in that order. */
  lemma SaveTwice(m: Fallback, session: string, role1: string, content1: string,
                  role2: string, content2: string, now: string)
    ensures var r := SaveConversation(SaveConversation(m, session, role1, content1, now), session, role2, content2, now);
            var h := History(r, session);
            |h| >= 2
            && h[|h| - 2] == Message(role1, content1, now)
            && h[|h| - 1] == Message(role2, content2, now)
  {
    var m1 := SaveConversation(m, session, role1, content1, now);
    var h1 := History(m1, session);
    assert h1 == m1.sessions[session];
    assert h1[|h1| - 1] == Message(role1, content1, now);
    var full := h1 + [Message(role2, content2, now)];
    var r := SaveConversation(m1, session, role2, content2, now);
    var h := History(r, session);
    assert h == r.sessions[session];
    assert h == if |full| <= MaxMessages then full else full[|full| - MaxMessages..];
    assert h[|h| - 2] == full[|full| - 2] == h1[|h1| - 1];
  }

  /** Saving a message and reading back one message returns it. */
  lemma SaveThenGetLast(m: Fallback, session: string, role: string, content: string, now: string)
    ensures GetConversation(SaveConversation(m, session, role, content, now), session, 1) == [Message(role, content, now)]
  {
    var r := SaveConversation(m, session, role, content, now);
    var h := History(r, session);
    assert h[|h| - 1..] == [h[|h| - 1]];
  }

  // ------------------------------------------------------------- stores that are not kept

  /** `set_preference`, `set_user_context`, `log_action`, `cache_set` and
      `cache_delete` on the fallback: nothing is stored. */
  function SetPreference(m: Fallback, user: string, key: string, value: string): Fallback { m }
  function SetUserContext(m: Fallback, user: string, context: map<string, string>): Fallback { m }
  function LogAction<D>(m: Fallback, user: string, action: string, details: D): Fallback { m }
  function CacheSet(m: Fallback, key: string, value: string, ttl: int): Fallback { m }
  function CacheDelete(m: Fallback, key: string): Fallback { m }

  /** `get_preference` answers the caller's default. */
  function GetPreference(m: Fallback, user: string, key: string, default: string): string { default }
  /** `get_all_preferences` and `get_user_context` answer `{}`. */
  function GetAllPreferences(m: Fallback, user: string): map<string, string> { map[] }
  function GetUserContext(m: Fallback, user: string): map<string, string> { map[] }
  /** `get_recent_actions` answers `[]`. */
  function GetRecentActions(m: Fallback, user: string, limit: int): seq<string> { [] }
  /** `cache_get` answers `None`. */
  function CacheGet(m: Fallback, key: string): Option<string> { None }
  /** `health_check` answers true: the fallback counts as healthy. */
  function HealthCheck(m: Fallback): bool { true }

  /** Nothing written to the preference, context, action or cache stores can
      be read back, and writing them leaves the conversation logs as they were. */
  lemma SideStoresNotKept(m: Fallback, user: string, key: string, value: string, default: string,
                          context: map<string, string>, action: string, details: map<string, string>, ttl: int, limit: int)
    ensures GetPreference(SetPreference(m, user, key, value), user, key, default) == default
    ensures GetAllPreferences(SetPreference(m, user, key, value), user) == map[]
    ensures GetUserContext(SetUserContext(m, user, context), user) == map[]
    ensures GetRecentActions(LogAction(m, user, action, details), user, limit) == []
    ensures CacheGet(CacheSet(m, key, value, ttl), key) == None
    ensures SetPreference(m, user, key, value) == m && SetUserContext(m, user, context) == m
    ensures LogAction(m, user, action, details) == m && CacheSet(m, key, value, ttl) == m && CacheDelete(m, key) == m
    ensures HealthCheck(m)
  {
  }
}

=== FILE: orchestrator.dfy ===
/** `AgentOrchestrator` (agent/orchestrator.py): one request runs through
    think (classify the intent, pick the tools), act (run each tool, keeping
    each one's failure to itself), observe (reduce errors and outputs to one
    success flag) and answer (an error list or a per-intent template, with an
    optional language-model delegate), and is then written to memory.

    The calculator, the web search tool, the enhanced visualizer, the task
    store and the memory are the models of their own modules; the document
    search tool and the language model are parameters, as are the clock and
    the text of non-string values. */
module Orchestrator {
  import opened Wrappers
  import opened Text
  import opened Seqs
  import opened Values
  import opened Keywords
  import TaskModel
  import TaskStore
  import Memory
  import Calculator
  import Web = WebSearch
  import Viz = EnhancedVisualizer
  import Llm

  // ---------------------------------------------------------------- think

  /** The intents the classifier distinguishes. */
  datatype Intent =
    | TaskCreate | TaskList | TaskUpdate | TaskDelete
    | DocumentSearch | DocumentSummarize | WebSearch | Visualization
    | QuestionAnswer | Calculate | General
  {
    /** The intent's tag in the source. */
    function Tag(): string {
      match this
      case TaskCreate => "task_create"
      case TaskList => "task_list"
      case TaskUpdate => "task_update"
      case TaskDelete => "task_delete"
      case DocumentSearch => "document_search"
      case DocumentSummarize => "document_summarize"
      case WebSearch => "web_search"
      case Visualization => "visualization"
      case QuestionAnswer => "question_answer"
      case Calculate => "calculator"
      case General => "general"
    }
  }

  /** The classifier's chain, in the order its branches are tried. The
      calculator rule's last four words are the operator characters. */
  const IntentRules: seq<Rule<Intent>> := [
    Rule(["create task", "add task", "new task", "remind me"], TaskCreate),
    Rule(["list tasks", "show tasks", "my tasks"], TaskList),
    Rule(["update task", "modify task", "change task"], TaskUpdate),
    Rule(["delete task", "remove task"], TaskDelete),
    Rule(["my files", "the pdf", "uploaded", "document"], DocumentSearch),
    Rule(["summarize", "summary"], DocumentSummarize),
    Rule(["latest", "current", "news", "search web"], WebSearch),
    Rule(["plot", "graph", "chart", "visualize", "show me a", "bar chart", "line graph",
          "pie chart", "draw", "analyze data", "plot this"], Visualization),
    Rule(["?", "what", "how", "why", "when", "who"], QuestionAnswer),
    Rule(["calculate", "solve", "math", "plus", "minus", "multiply", "divide", "+", "-", "*", "/"], Calculate)]

  /** Index of the question rule in the chain. */
  const QuestionRule: nat := 8

  /** `_detect_intent` on the lower-cased input: the intent of the first
      rule that fires, and `general` exactly when none does. */
  function DetectIntent(lowered: string): (i: Intent)
    ensures i == General <==> !AnyRuleFires(lowered, IntentRules)
    ensures i != General ==> i == IntentRules[FirstRule(lowered, IntentRules)].outcome
  {
    FallsThrough(lowered, IntentRules);
    var k := FirstRule(lowered, IntentRules);
    if k < |IntentRules| then
      assert IntentRules[k].outcome != General;
      IntentRules[k].outcome
    else General
  }

  /** A question word beats arithmetic: once none of the task, document,
      web and chart rules fires, a question mark or question word makes the
      input a question, whatever operators it contains. */
  lemma QuestionBeatsCalculator(lowered: string, w: nat)
    requires forall j :: 0 <= j < QuestionRule ==> !ContainsAny(lowered, IntentRules[j].words)
    requires w < |IntentRules[QuestionRule].words| && Contains(lowered, IntentRules[QuestionRule].words[w])
    ensures DetectIntent(lowered) == QuestionAnswer
  {
    FirstRuleAtMost(lowered, IntentRules, QuestionRule, w);
  }

  /** An operator character alone makes an input a calculation once no
      earlier rule fires. */
  lemma OperatorIsCalculation(lowered: string, w: nat)
    requires forall j :: 0 <= j < QuestionRule + 1 ==> !ContainsAny(lowered, IntentRules[j].words)
    requires 7 <= w < 11 && Contains(lowered, IntentRules[9].words[w])
    ensures DetectIntent(lowered) == Calculate
  {
    FirstRuleAtMost(lowered, IntentRules, 9, w);
  }

  /** The tools in the registry. */
  datatype ToolId = TaskManagerTool | DocumentSearchTool | WebSearchTool | VisualizerTool | CalculatorTool {
    function Name(): string {
      match this
      case TaskManagerTool => "task_manager"
      case DocumentSearchTool => "document_search"
      case WebSearchTool => "web_search"
      case VisualizerTool => "visualizer"
      case CalculatorTool => "calculator"
    }
  }

  /** `_select_tools`: the static intent-to-tools table; questions and the
      general intent use no tool. */
  function SelectTools(intent: Intent): (tools: seq<ToolId>)
    ensures |tools| <= 1
    ensures tools == [] <==> intent == QuestionAnswer || intent == General
  {
    match intent
    case TaskCreate => [TaskManagerTool]
    case TaskList => [TaskManagerTool]
    case TaskUpdate => [TaskManagerTool]
    case TaskDelete => [TaskManagerTool]
    case DocumentSearch => [DocumentSearchTool]
    case DocumentSummarize => [DocumentSearchTool]
    case WebSearch => [WebSearchTool]
    case Visualization => [VisualizerTool]
    case Calculate => [CalculatorTool]
    case QuestionAnswer => []
    case General => []
  }

  /** Each tool serves exactly the intents the table routes to it. */
  lemma ToolServes(intent: Intent, t: ToolId)
    ensures t in SelectTools(intent) <==>
      match t
      case TaskManagerTool => intent in {TaskCreate, TaskList, TaskUpdate, TaskDelete}
      case DocumentSearchTool => intent in {DocumentSearch, DocumentSummarize}
      case WebSearchTool => intent == WebSearch
      case VisualizerTool => intent == Visualization
      case CalculatorTool => intent == Calculate
  {
  }

  // ---------------------------------------------------------------- state

  /** A document search hit: its text and the file it came from. */
  datatype DocHit = DocHit(content: string, filename: string)

  /** What a tool returned, by the shape the tool gives it. */
  datatype Payload =
    | TaskRows(tasks: seq<TaskModel.Task>)
    | DocHits(hits: seq<DocHit>)
    | Searched(search: Web.SearchResult, model: string)
    | Calculated(calculation: Calculator.Payload)
    | Data(value: Value)
  {
    /** Python truthiness of the result: an empty list or a falsy value. */
    predicate Empty() {
      match this
      case TaskRows(tasks) => |tasks| == 0
      case DocHits(hits) => |hits| == 0
      case Searched(_, _) => false
      case Calculated(_) => false
      case Data(v) => Falsy(v)
    }
  }

  /** One entry of `tool_calls`; the timestamp comes from the clock. */
  datatype ToolCall = ToolCall(tool: ToolId, timestamp: string)

  /** One entry of `tool_outputs`. */
  datatype ToolOutput = ToolOutput(tool: ToolId, result: Payload)

  /** `AgentState`. A missing CSV payload is the empty string, and the intent
      reads `general` until think sets it. */
  datatype State = State(
    userInput: string,
    sessionId: string,
    userId: string,
    csvData: string,
    intent: Intent,
    components: seq<string>,
    requiredTools: seq<ToolId>,
    toolCalls: seq<ToolCall>,
    toolOutputs: seq<ToolOutput>,
    success: bool,
    errors: seq<string>,
    finalAnswer: string)

  function Init(userInput: string, sessionId: string, userId: string, csvData: string): State {
    State(userInput, sessionId, userId, csvData, General, [], [], [], [], false, [], "")
  }

  /** `think`: the intent and the tools come from the lower-cased input; the
      input itself is kept as typed for the tools. */
  function Think(s: State): (r: State)
    ensures r.intent == DetectIntent(Lower(s.userInput))
    ensures r.requiredTools == SelectTools(r.intent)
    ensures r.userInput == s.userInput && r.csvData == s.csvData
    ensures r.toolCalls == s.toolCalls && r.toolOutputs == s.toolOutputs && r.errors == s.errors
  {
    var lowered := Lower(s.userInput);
    var intent := DetectIntent(lowered);
    s.(intent := intent, components := [lowered], requiredTools := SelectTools(intent))
  }

  // ---------------------------------------------------------------- collaborators

  /** The document search tool: `search` and `summarize`, either of which may raise. */
  datatype Documents = Documents(search: string -> Call<seq<DocHit>>, summarize: string -> Call<string>)

  /** The enhanced visualizer's JSON decoder, CSV parser and data-frame calls. */
  datatype Charts = Charts(decode: Viz.Decoder, parseCsv: string -> Call<Value>, pd: Viz.Pandas)

  /** The web search tool: the network call and the configured model name. */
  datatype WebTool = WebTool(net: Web.Network, model: string)

  /** Everything the orchestrator was constructed with, plus the clock and
      the text Python gives values that are not strings. A collaborator that
      was not configured is `None`. */
  datatype Deps = Deps(
    tasks: Option<TaskStore.Store>,
    documents: Option<Documents>,
    web: Option<WebTool>,
    charts: Option<Charts>,
    eval: Calculator.Evaluator,
    memory: Option<Memory.Fallback>,
    llm: Option<Llm.Sender>,
    render: Value -> string,
    fixed1: Value -> string,
    now: string)

  /** `tool_registry.get(name)` is truthy; the calculator is always built. */
  predicate Available(d: Deps, t: ToolId) {
    match t
    case TaskManagerTool => d.tasks.Some?
    case DocumentSearchTool => d.documents.Some?
    case WebSearchTool => d.web.Some?
    case VisualizerTool => d.charts.Some?
    case CalculatorTool => true
  }

  // ---------------------------------------------------------------- act

  /** The fixed answer of the task manager to every intent but listing. */
  const Placeholder: Value := VDict([Entry("status", VStr("Tool execution placeholder"))])

  /** The visualizer's answer when no chart request is detected. */
  const NoChart: Value := VDict([Entry("success", VBool(false)), Entry("error", VStr("Could not determine visualization type"))])

  /** The uploaded CSV data as a frame: none when there is no payload or it
      does not parse (the parse error is only logged). */
  function CustomData(csv: string, c: Charts): Option<Value> {
    if |csv| == 0 then None
    else match c.parseCsv(csv)
      case Returned(frame) => Some(frame)
      case Raised(_) => None
  }

  /** The visualizer branch of `_execute_tool`. */
  function Visualize(s: State, c: Charts): (v: Value)
    ensures Viz.DetectRequest(s.userInput, c.decode).None? ==> v == NoChart
    ensures !Falsy(v)
  {
    match Viz.DetectRequest(s.userInput, c.decode)
    case None => NoChart
    case Some(request) =>
      Viz.GenerateReports(s.userInput, request, CustomData(s.csvData, c), c.pd);
      Viz.Generate(s.userInput, request, CustomData(s.csvData, c), c.pd)
  }

  /** `_execute_tool`: the operation the (tool, intent) pair selects, run on
      the input as typed. Only the document search tool can raise here: the
      others catch their own faults. */
  function ExecuteTool(t: ToolId, s: State, d: Deps): (r: Call<Payload>)
    requires Available(d, t)
    ensures r.Raised? ==> t == DocumentSearchTool
  {
    match t
    case TaskManagerTool =>
      if s.intent == TaskList then Returned(TaskRows(TaskStore.ListTasks(d.tasks.value, TaskStore.NoFilters, TaskStore.DefaultLimit)))
      else Returned(Data(Placeholder))
    case DocumentSearchTool =>
      if s.intent == DocumentSearch then
        match d.documents.value.search(s.userInput)
        case Returned(hits) => Returned(DocHits(hits))
        case Raised(e) => Raised(e)
      else if s.intent == DocumentSummarize then
        match d.documents.value.summarize(s.userInput)
        case Returned(text) => Returned(Data(VStr(text)))
        case Raised(e) => Raised(e)
      else Returned(Data(VNone))
    case WebSearchTool => Returned(Searched(Web.Search(s.userInput, [], [], d.web.value.net), d.web.value.model))
    case VisualizerTool => Returned(Data(Visualize(s, d.charts.value)))
    case CalculatorTool => Returned(Calculated(Calculator.Execute(s.userInput, d.eval)))
  }

  /** The task manager answers every task intent but listing with the
      placeholder, and the visualizer answers an undetected request with a
      failure payload instead of raising. */
  lemma FixedPayloads(s: State, d: Deps)
    ensures Available(d, TaskManagerTool) && s.intent != TaskList ==>
              ExecuteTool(TaskManagerTool, s, d) == Returned(Data(Placeholder))
    ensures Available(d, VisualizerTool) && Viz.DetectRequest(s.userInput, d.charts.value.decode).None? ==>
              ExecuteTool(VisualizerTool, s, d) == Returned(Data(NoChart))
    ensures Get(NoChart, "success") == Some(VBool(false))
  {
  }

  function NotAvailable(t: ToolId): string {
    "Tool " + t.Name() + " not available"
  }

  function ExecutionError(t: ToolId, e: string): string {
    "Error executing " + t.Name() + ": " + e
  }

  /** What trying a tool gives: nothing when it is not registered, otherwise
      what executing it returned or raised. */
  type Attempt = Option<Call<Payload>>

  /** The attempt at a tool for the request in `s`. */
  function Try(s: State, d: Deps, t: ToolId): (a: Attempt)
    ensures a.None? <==> !Available(d, t)
  {
    if Available(d, t) then Some(ExecuteTool(t, s, d)) else None
  }

  /** What a tool does depends only on the request (the input, the intent
      and the uploaded data), which `act` never changes; so trying every
      tool against the state at the start of the loop is the same as trying
      each against the state the loop has reached. */
  lemma SameRequest(s: State, s1: State, d: Deps, t: ToolId)
    requires s1.userInput == s.userInput && s1.intent == s.intent && s1.csvData == s.csvData
    ensures Try(s1, d, t) == Try(s, d, t)
  {
    if t == VisualizerTool && Available(d, t) {
      assert Visualize(s1, d.charts.value) == Visualize(s, d.charts.value);
    }
  }

  /** An attempt that ran: the tool was there and returned normally. */
  predicate Ran(a: Attempt) {
    a.Some? && a.value.Returned?
  }

  /** One iteration of `act`'s loop. */
  function ActStep(s: State, t: ToolId, a: Attempt, now: string): State {
    match a
    case None => s.(errors := s.errors + [NotAvailable(t)])
    case Some(Returned(p)) => s.(toolCalls := s.toolCalls + [ToolCall(t, now)],
                                 toolOutputs := s.toolOutputs + [ToolOutput(t, p)])
    case Some(Raised(e)) => s.(errors := s.errors + [ExecutionError(t, e)])
  }

  /** `act`'s loop over a list of tools, each tried by `attempt`. */
  function ActOn(s: State, tools: seq<ToolId>, attempt: ToolId -> Attempt, now: string): State
    decreases |tools|
  {
    if |tools| == 0 then s else ActOn(ActStep(s, tools[0], attempt(tools[0]), now), tools[1..], attempt, now)
  }

  /** The attempts of `act` for the request in `s`. */
  function Attempts(s: State, d: Deps): ToolId -> Attempt {
    t => Try(s, d, t)
  }

  /** `act`. */
  function Act(s: State, d: Deps): State {
    ActOn(s, s.requiredTools, Attempts(s, d), d.now)
  }

  /** What one attempt adds to the outputs: the result when it ran. */
  function OutputOf(t: ToolId, a: Attempt): (r: seq<ToolOutput>)
    ensures |r| == (if Ran(a) then 1 else 0)
  {
    if Ran(a) then [ToolOutput(t, a.value.value)] else []
  }

  /** What one attempt adds to the errors: why it did not run. */
  function FailureOf(t: ToolId, a: Attempt): (r: seq<string>)
    ensures |r| == (if Ran(a) then 0 else 1)
  {
    match a
    case None => [NotAvailable(t)]
    case Some(Raised(e)) => [ExecutionError(t, e)]
    case Some(Returned(_)) => []
  }

  /** Reference definition of what `act` records: the output of each tool
      that ran, in the order of the list. */
  function Outputs(tools: seq<ToolId>, attempt: ToolId -> Attempt): (r: seq<ToolOutput>)
    ensures |r| <= |tools|
  {
    if |tools| == 0 then [] else OutputOf(tools[0], attempt(tools[0])) + Outputs(tools[1..], attempt)
  }

  /** Reference definition of the errors `act` records: one per tool that
      did not run, in the order of the list. */
  function Failures(tools: seq<ToolId>, attempt: ToolId -> Attempt): seq<string> {
    if |tools| == 0 then [] else FailureOf(tools[0], attempt(tools[0])) + Failures(tools[1..], attempt)
  }

  /** The calls recorded for a list of outputs. */
  function CallsFor(outs: seq<ToolOutput>, now: string): (r: seq<ToolCall>)
    ensures |r| == |outs|
    ensures forall k :: 0 <= k < |r| ==> r[k].tool == outs[k].tool
  {
    seq(|outs|, k requires 0 <= k < |outs| => ToolCall(outs[k].tool, now))
  }

  lemma CallsForAppend(a: seq<ToolOutput>, b: seq<ToolOutput>, now: string)
    ensures CallsFor(a + b, now) == CallsFor(a, now) + CallsFor(b, now)
  {
  }

  /** The tools of a list of outputs. */
  function ToolsOf(outs: seq<ToolOutput>): (r: seq<ToolId>)
    ensures |r| == |outs|
  {
    if |outs| == 0 then [] else [outs[0].tool] + ToolsOf(outs[1..])
  }

  lemma {:induction false} ToolsOfAppend(a: seq<ToolOutput>, b: seq<ToolOutput>)
    ensures ToolsOf(a + b) == ToolsOf(a) + ToolsOf(b)
    decreases |a|
  {
    if |a| > 0 {
      assert (a + b)[0] == a[0];
      assert (a + b)[1..] == a[1..] + b;
      ToolsOfAppend(a[1..], b);
      calc {
        ToolsOf(a + b);
        [a[0].tool] + ToolsOf(a[1..] + b);
        [a[0].tool] + (ToolsOf(a[1..]) + ToolsOf(b));
        ([a[0].tool] + ToolsOf(a[1..])) + ToolsOf(b);
      }
    } else {
      assert a + b == b;
    }
  }

  /** Whether a tool's attempt ran, as a predicate on tools. */
  function RanIn(attempt: ToolId -> Attempt): ToolId -> bool {
    t => Ran(attempt(t))
  }

  /** Every tool has exactly one outcome, an output or an error, and the
      outputs belong to the tools that ran, in the order of the list. */
  lemma {:induction false} OneOutcomeEach(tools: seq<ToolId>, attempt: ToolId -> Attempt)
    ensures |Outputs(tools, attempt)| + |Failures(tools, attempt)| == |tools|
    ensures ToolsOf(Outputs(tools, attempt)) == Filter(tools, RanIn(attempt))
    decreases |tools|
  {
    if |tools| > 0 {
      OneOutcomeEach(tools[1..], attempt);
      var here := OutputOf(tools[0], attempt(tools[0]));
      ToolsOfAppend(here, Outputs(tools[1..], attempt));
      assert ToolsOf(here) == if RanIn(attempt)(tools[0]) then [tools[0]] else [];
    }
  }

  /** `act`'s loop appends exactly the reference outputs. */
  lemma {:induction false} ActOnRecords(s: State, tools: seq<ToolId>, attempt: ToolId -> Attempt, now: string)
    ensures ActOn(s, tools, attempt, now).toolOutputs == s.toolOutputs + Outputs(tools, attempt)
    decreases |tools|
  {
    if |tools| > 0 {
      var t := tools[0];
      var s1 := ActStep(s, t, attempt(t), now);
      ActOnRecords(s1, tools[1..], attempt, now);
      assert s1.toolOutputs == s.toolOutputs + OutputOf(t, attempt(t));
      AppendAssoc(s.toolOutputs, OutputOf(t, attempt(t)), Outputs(tools[1..], attempt));
    }
  }

  /** `act`'s loop appends exactly the reference errors. */
  lemma {:induction false} ActOnErrors(s: State, tools: seq<ToolId>, attempt: ToolId -> Attempt, now: string)
    ensures ActOn(s, tools, attempt, now).errors == s.errors + Failures(tools, attempt)
    decreases |tools|
  {
    if |tools| > 0 {
      var t := tools[0];
      var s1 := ActStep(s, t, attempt(t), now);
      ActOnErrors(s1, tools[1..], attempt, now);
      assert s1.errors == s.errors + FailureOf(t, attempt(t));
      AppendAssoc(s.errors, FailureOf(t, attempt(t)), Failures(tools[1..], attempt));
    }
  }

  lemma AppendAssoc<T>(a: seq<T>, b: seq<T>, c: seq<T>)
    ensures a + b + c == a + (b + c)
  {
  }

  /** `act`'s loop records one call per output, for the same tool. */
  lemma {:induction false} ActOnCalls(s: State, tools: seq<ToolId>, attempt: ToolId -> Attempt, now: string)
    ensures ActOn(s, tools, attempt, now).toolCalls == s.toolCalls + CallsFor(Outputs(tools, attempt), now)
    decreases |tools|
  {
    if |tools| > 0 {
      var t := tools[0];
      var s1 := ActStep(s, t, attempt(t), now);
      ActOnCalls(s1, tools[1..], attempt, now);
      var here := OutputOf(t, attempt(t));
      CallsForOne(t, attempt(t), now);
      assert s1.toolCalls == s.toolCalls + CallsFor(here, now);
      CallsForAppend(here, Outputs(tools[1..], attempt), now);
      AppendAssoc(s.toolCalls, CallsFor(here, now), CallsFor(Outputs(tools[1..], attempt), now));
    }
  }

  /** One attempt records a call exactly when it ran. */
  lemma CallsForOne(t: ToolId, a: Attempt, now: string)
    ensures CallsFor(OutputOf(t, a), now) == if Ran(a) then [ToolCall(t, now)] else []
  {
  }

  /** `act`'s loop changes nothing but the three logs. */
  lemma {:induction false} ActOnKeeps(s: State, tools: seq<ToolId>, attempt: ToolId -> Attempt, now: string)
    ensures var r := ActOn(s, tools, attempt, now);
            r.userInput == s.userInput && r.sessionId == s.sessionId && r.userId == s.userId
            && r.csvData == s.csvData && r.intent == s.intent && r.components == s.components
            && r.requiredTools == s.requiredTools && r.success == s.success
            && r.finalAnswer == s.finalAnswer
    decreases |tools|
  {
    if |tools| > 0 {
      ActOnKeeps(ActStep(s, tools[0], attempt(tools[0]), now), tools[1..], attempt, now);
    }
  }

  /** `act` on a request: one outcome per required tool, the outputs and
      their calls side by side, and only the three logs changed. */
  lemma ActRecords(s: State, d: Deps)
    ensures var r := Act(s, d);
            r.toolOutputs == s.toolOutputs + Outputs(s.requiredTools, Attempts(s, d))
            && r.toolCalls == s.toolCalls + CallsFor(Outputs(s.requiredTools, Attempts(s, d)), d.now)
            && r.errors == s.errors + Failures(s.requiredTools, Attempts(s, d))
            && r.userInput == s.userInput && r.sessionId == s.sessionId && r.userId == s.userId
            && r.csvData == s.csvData && r.intent == s.intent && r.requiredTools == s.requiredTools
            && r.success == s.success && r.finalAnswer == s.finalAnswer
            && |Outputs(s.requiredTools, Attempts(s, d))| + |Failures(s.requiredTools, Attempts(s, d))| == |s.requiredTools|
  {
    ActOnRecords(s, s.requiredTools, Attempts(s, d), d.now);
    ActOnErrors(s, s.requiredTools, Attempts(s, d), d.now);
    ActOnCalls(s, s.requiredTools, Attempts(s, d), d.now);
    ActOnKeeps(s, s.requiredTools, Attempts(s, d), d.now);
    OneOutcomeEach(s.requiredTools, Attempts(s, d));
  }

  // ---------------------------------------------------------------- observe

  function EmptyResult(o: ToolOutput): string {
    "Tool " + o.tool.Name() + " returned empty result"
  }

  predicate IsEmpty(o: ToolOutput) { o.result.Empty() }

  /** Reference definition of the errors observe adds: one per output whose
      result is falsy, in order. */
  function EmptyErrors(outs: seq<ToolOutput>): (r: seq<string>)
    ensures |r| == Count(outs, IsEmpty)
  {
    if |outs| == 0 then []
    else
      assert Filter(outs, IsEmpty) == (if IsEmpty(outs[0]) then [outs[0]] else []) + Filter(outs[1..], IsEmpty);
      (if IsEmpty(outs[0]) then [EmptyResult(outs[0])] else []) + EmptyErrors(outs[1..])
  }

  /** One iteration of `observe`'s loop: a falsy result adds its error and
      fails the request. */
  function ObserveStep(s: State, o: ToolOutput): State {
    if o.result.Empty() then s.(errors := s.errors + [EmptyResult(o)], success := false) else s
  }

  /** `observe`'s loop over the outputs. */
  function ObserveOn(s: State, outs: seq<ToolOutput>): State
    decreases |outs|
  {
    if |outs| == 0 then s else ObserveOn(ObserveStep(s, outs[0]), outs[1..])
  }

  /** The loop adds exactly the reference errors, in output order. */
  lemma {:induction false} ObserveOnErrors(s: State, outs: seq<ToolOutput>)
    ensures ObserveOn(s, outs).errors == s.errors + EmptyErrors(outs)
    decreases |outs|
  {
    if |outs| > 0 {
      var here := if IsEmpty(outs[0]) then [EmptyResult(outs[0])] else [];
      var s1 := ObserveStep(s, outs[0]);
      ObserveOnErrors(s1, outs[1..]);
      assert s1.errors == s.errors + here;
      assert EmptyErrors(outs) == here + EmptyErrors(outs[1..]);
      AppendAssoc(s.errors, here, EmptyErrors(outs[1..]));
    }
  }

  /** The loop fails the request exactly when it adds an error. */
  lemma {:induction false} ObserveOnSuccess(s: State, outs: seq<ToolOutput>)
    ensures ObserveOn(s, outs).success == (s.success && |EmptyErrors(outs)| == 0)
    decreases |outs|
  {
    if |outs| > 0 {
      ObserveOnSuccess(ObserveStep(s, outs[0]), outs[1..]);
    }
  }

  /** The loop changes nothing but the errors and the success flag. */
  lemma {:induction false} ObserveOnKeeps(s: State, outs: seq<ToolOutput>)
    ensures ObserveOn(s, outs).(errors := s.errors, success := s.success) == s
    decreases |outs|
  {
    if |outs| > 0 {
      ObserveOnKeeps(ObserveStep(s, outs[0]), outs[1..]);
    }
  }

  /** `observe`: success exactly when there is no error, counting one error
      per falsy result on top of those `act` recorded. */
  function Observe(s: State): (r: State)
    ensures r.errors == s.errors + EmptyErrors(s.toolOutputs)
    ensures r.success <==> |r.errors| == 0
    ensures r.(errors := s.errors, success := s.success) == s
  {
    var s0 := s.(success := |s.errors| == 0);
    ObserveOnErrors(s0, s.toolOutputs);
    ObserveOnSuccess(s0, s.toolOutputs);
    ObserveOnKeeps(s0, s.toolOutputs);
    ObserveOn(s0, s.toolOutputs)
  }

  // ---------------------------------------------------------------- answer

  /** The bullet the source writes before each error, document hit and web
      source. The file spells it as the three characters U+00E2 U+20AC U+00A2
      (the UTF-8 bytes of U+2022 read back as Windows-1252), and so does the
      model. */
  const Bullet: string := "\U{00E2}\U{20AC}\U{00A2}"

  const IssuesPreamble: string := "I encountered some issues:\n\n"

  function Bulleted(text: string): string {
    Bullet + " " + text
  }

  /** The bulleted line of each error, in order. */
  function BulletLines(errors: seq<string>): (lines: seq<string>)
    ensures |lines| == |errors|
  {
    seq(|errors|, k requires 0 <= k < |errors| => Bulleted(errors[k]))
  }

  /** `_generate_error_response`: the preamble, then one bulleted line per
      error, in order. */
  function ErrorResponse(errors: seq<string>): (r: string)
    ensures StartsWith(r, IssuesPreamble)
    ensures forall k :: 0 <= k < |errors| ==> Contains(r[|IssuesPreamble|..], Bulleted(errors[k]))
    ensures |errors| == 0 ==> r == IssuesPreamble
  {
    var lines := BulletLines(errors);
    forall k | 0 <= k < |errors| ensures Contains(Join("\n", lines), Bulleted(errors[k])) {
      JoinContainsParts("\n", lines, k);
    }
    var r := IssuesPreamble + Join("\n", lines);
    assert r[|IssuesPreamble|..] == Join("\n", lines);
    r
  }

  /** After the preamble come the errors' bulleted lines and nothing else:
      in the errors' order, each on a line of its own, separated by single
      newlines, with no newline after the last. */
  lemma ErrorResponseLaid(errors: seq<string>)
    ensures Laid(ErrorResponse(errors)[|IssuesPreamble|..], "\n", BulletLines(errors))
    ensures forall k :: 0 <= k < |errors| ==> BulletLines(errors)[k] == Bulleted(errors[k])
  {
    assert ErrorResponse(errors)[|IssuesPreamble|..] == Join("\n", BulletLines(errors));
    JoinLaid("\n", BulletLines(errors));
  }

  // ---------------------------------------------------------------- visualization answer

  const ImagePrefix: string := "![Visualization](/visualizations/"
  const Tip: string := "\n*Tip: This is an interactive chart - you can zoom, pan, and hover for details!*"
  const VizFailurePrefix: string := "I couldn't generate the visualization: "

  /** The section headers; the file spells each emoji as the Windows-1252
      reading of its UTF-8 bytes, and so does the model. */
  const InsightsHeader: string := "**\U{00F0}\U{0178}\U{201C}\U{0160} Key Insights:**\n"
  const StatisticsHeader: string := "\n**\U{00F0}\U{0178}\U{201C}\U{02C6} Statistics:**\n"
  const PredictionHeader: string := "\n**\U{00F0}\U{0178}\U{201D}\U{00AE} Prediction:** Next values for "

  /** `x[key]` shown in an f-string. */
  function Field(x: Value, key: string, render: Value -> string): string {
    ShowField(x, key, render)
  }

  /** One line per trend. */
  function TrendLines(trends: seq<Value>, render: Value -> string): string {
    Concat(seq(|trends|, k requires 0 <= k < |trends| =>
      "- " + Field(trends[k], "column", render) + " is " + Field(trends[k], "direction", render)
      + " (confidence: " + Field(trends[k], "confidence", render) + ")\n"))
  }

  /** One line for each of the first two summarised columns, numbers with
      one decimal (`fixed1`). */
  function StatisticsLines(summary: seq<Entry>, fixed1: Value -> string): string {
    var shown := SliceTo(summary, 2);
    Concat(seq(|shown|, k requires 0 <= k < |shown| =>
      var stats := shown[k].val;
      "- " + shown[k].key + ": avg=" + fixed1(GetOr(stats, "mean", VNone))
      + ", range=" + fixed1(GetOr(stats, "min", VNone)) + "-" + fixed1(GetOr(stats, "max", VNone)) + "\n"))
  }

  /** The prediction line: the column and its next values, one decimal each. */
  function PredictionLine(pred: Value, render: Value -> string, fixed1: Value -> string): string {
    var next := Items(GetOr(pred, "next_values", VNone));
    PredictionHeader + Field(pred, "column", render) + ": "
    + Join(", ", seq(|next|, k requires 0 <= k < |next| => fixed1(next[k]))) + "\n"
  }

  /** The insight sections, each present when its part of `insights` is truthy. */
  function InsightSections(insights: Value, render: Value -> string, fixed1: Value -> string): string {
    (if !Falsy(insights) && Truthy(insights, "trends")
     then InsightsHeader + TrendLines(Items(GetOr(insights, "trends", VNone)), render) else "")
    + (if !Falsy(insights) && Truthy(insights, "summary")
       then StatisticsHeader + StatisticsLines(EntriesOf(GetOr(insights, "summary", VNone)), fixed1) else "")
    + (if !Falsy(insights) && Truthy(insights, "predictions")
       then PredictionLine(GetOr(insights, "predictions", VNone), render, fixed1) else "")
  }

  /** The items of a dictionary, nothing otherwise. */
  function EntriesOf(v: Value): seq<Entry> {
    if v.VDict? then v.entries else []
  }

  /** The first output's result, or `{}` when there is no output. For the
      visualization intent the only tool is the visualizer, whose result is
      always a dictionary. */
  function FirstResult(outs: seq<ToolOutput>): Value {
    if |outs| > 0 && outs[0].result.Data? then outs[0].result.value else VDict([])
  }

  /** The visualization branch of `_synthesize_answer`. */
  function VisualizationAnswer(result: Value, d: Deps): (r: string)
    ensures Truthy(result, "success") ==>
              var path := Show(GetOr(result, "filepath", VStr("")), d.render);
              StartsWith(r, ImagePrefix + path + ")")
              && (EndsWith(r, Tip) <== !Falsy(GetOr(result, "interactive", VBool(true))))
    ensures !Truthy(result, "success") ==>
              r == VizFailurePrefix + Show(GetOr(result, "error", VStr("Unknown error")), d.render)
  {
    if Truthy(result, "success") then
      var path := Show(GetOr(result, "filepath", VStr("")), d.render);
      var vizType := Show(GetOr(result, "visualization_type", VStr("chart")), d.render);
      var interactive := !Falsy(GetOr(result, "interactive", VBool(true)));
      var insights := InsightSections(GetOr(result, "insights", VNone), d.render, d.fixed1);
      ChartReplyLaid(path, vizType, interactive, insights);
      ChartReply(path, vizType, interactive, insights)
    else
      VizFailurePrefix + Show(GetOr(result, "error", VStr("Unknown error")), d.render)
  }

  /** The sentence after the image link: the chart type with underscores
      read as spaces, called interactive when it is. */
  function ChartSentence(vizType: string, interactive: bool): string {
    "\n\nI've created an " + (if interactive then "interactive " else "") + ReplaceChar(vizType, '_', ' ') + " for you.\n\n"
  }

  /** A successful visualization answer: the image link, the chart sentence,
      the insight sections and, for an interactive chart, the tip. */
  function ChartReply(path: string, vizType: string, interactive: bool, insights: string): string {
    ImagePrefix + path + ")" + ChartSentence(vizType, interactive) + insights + (if interactive then Tip else "")
  }

  /** The pieces of a chart reply sit back to back and nothing else follows. */
  lemma ChartReplyLaid(path: string, vizType: string, interactive: bool, insights: string)
    ensures var r := ChartReply(path, vizType, interactive, insights);
            var head := ImagePrefix + path + ")";
            var sentence := ChartSentence(vizType, interactive);
            StartsWith(r, head)
            && OccursAt(r, sentence, |head|)
            && OccursAt(r, insights, |head| + |sentence|)
            && (interactive ==> EndsWith(r, Tip))
            && |r| == |head| + |sentence| + |insights| + (if interactive then |Tip| else 0)
  {
    var r := ChartReply(path, vizType, interactive, insights);
    var head := ImagePrefix + path + ")";
    var sentence := ChartSentence(vizType, interactive);
    var tip := if interactive then Tip else "";
    assert r == head + sentence + insights + tip;
    assert r[..|head|] == head;
    assert r[|head|..|head| + |sentence|] == sentence;
    assert r[|head| + |sentence|..|head| + |sentence| + |insights|] == insights;
    assert r[|r| - |tip|..] == tip;
  }

  /** A successful visualization answer is the image link, the chart
      sentence, the insight sections and, for an interactive chart, the tip,
      back to back and nothing else. */
  lemma VisualizationAnswerLaid(result: Value, d: Deps)
    ensures Truthy(result, "success") ==>
              var path := Show(GetOr(result, "filepath", VStr("")), d.render);
              var vizType := Show(GetOr(result, "visualization_type", VStr("chart")), d.render);
              var interactive := !Falsy(GetOr(result, "interactive", VBool(true)));
              var head := ImagePrefix + path + ")";
              var sentence := ChartSentence(vizType, interactive);
              var insights := InsightSections(GetOr(result, "insights", VNone), d.render, d.fixed1);
              var r := VisualizationAnswer(result, d);
              OccursAt(r, sentence, |head|)
              && OccursAt(r, insights, |head| + |sentence|)
              && |r| == |head| + |sentence| + |insights| + (if interactive then |Tip| else 0)
  {
    if Truthy(result, "success") {
      var path := Show(GetOr(result, "filepath", VStr("")), d.render);
      var vizType := Show(GetOr(result, "visualization_type", VStr("chart")), d.render);
      var interactive := !Falsy(GetOr(result, "interactive", VBool(true)));
      var insights := InsightSections(GetOr(result, "insights", VNone), d.render, d.fixed1);
      ChartReplyLaid(path, vizType, interactive, insights);
    }
  }

  // ---------------------------------------------------------------- manual answers

  const NoTasks: string := "You have no tasks at the moment."
  const NoDocuments: string := "No relevant information found in your documents."
  const DocumentsFound: string := "Here's what I found:\n\n"
  const Apology: string := "I'm not sure how to answer that. Please try rephrasing your question."
  const Completed: string := "Task completed successfully."
  const CalculationFailed: string := "I couldn't calculate that. Error: "

  /** The `i`-th line of a task listing, counting from one. */
  function TaskLine(i: nat, t: TaskModel.Task): string {
    NatToString(i) + ". " + t.title + " [" + TaskModel.StatusName(t.status) + "] - Priority: "
    + TaskModel.PriorityName(t.priority) + "\n"
  }

  function TaskLines(tasks: seq<TaskModel.Task>): (r: seq<string>)
    ensures |r| == |tasks|
  {
    seq(|tasks|, k requires 0 <= k < |tasks| => TaskLine(k + 1, tasks[k]))
  }

  /** The count line that opens a task listing. */
  function TaskCountLine(n: nat): string {
    "You have " + NatToString(n) + " task(s):\n\n"
  }

  /** The task-list template: a count line, then one numbered line per task. */
  function TaskListAnswer(tasks: seq<TaskModel.Task>): (r: string)
    ensures |tasks| == 0 <==> r == NoTasks
    ensures |tasks| > 0 ==> StartsWith(r, TaskCountLine(|tasks|))
    ensures forall k :: 0 <= k < |tasks| ==> Contains(r, TaskLine(k + 1, tasks[k]))
  {
    if |tasks| == 0 then NoTasks
    else
      var head := TaskCountLine(|tasks|);
      HeadThenParts(head, TaskLines(tasks));
      assert forall k :: 0 <= k < |tasks| ==> TaskLines(tasks)[k] == TaskLine(k + 1, tasks[k]);
      head + Concat(TaskLines(tasks))
  }

  /** After the count line come the numbered task lines, in order, back to
      back and nothing else. */
  lemma TaskListAnswerLaid(tasks: seq<TaskModel.Task>)
    ensures |tasks| > 0 ==>
              var head := TaskCountLine(|tasks|);
              var r := TaskListAnswer(tasks);
              StartsWith(r, head) && Laid(r[|head|..], "", TaskLines(tasks))
    ensures forall k :: 0 <= k < |tasks| ==> TaskLines(tasks)[k] == TaskLine(k + 1, tasks[k])
  {
    if |tasks| > 0 {
      var head := TaskCountLine(|tasks|);
      var r := TaskListAnswer(tasks);
      assert r == head + Concat(TaskLines(tasks));
      assert r[|head|..] == Concat(TaskLines(tasks));
      ConcatLaid(TaskLines(tasks));
    }
  }

  /** A head followed by the concatenation of some parts starts with the
      head and contains every part. */
  lemma HeadThenParts(head: string, parts: seq<string>)
    ensures StartsWith(head + Concat(parts), head)
    ensures forall k :: 0 <= k < |parts| ==> Contains(head + Concat(parts), parts[k])
  {
    var r := head + Concat(parts);
    assert r[..|head|] == head;
    forall k | 0 <= k < |parts| ensures Contains(r, parts[k]) {
      ConcatContainsParts(parts, k);
      ContainsExtended(head, Concat(parts), "", parts[k]);
      assert head + Concat(parts) + "" == r;
    }
  }

  /** Every part of a concatenation occurs in it. */
  lemma {:induction false} ConcatContainsParts(parts: seq<string>, k: int)
    requires 0 <= k < |parts|
    ensures Contains(Concat(parts), parts[k])
  {
    if k == 0 {
      assert Concat(parts)[..|parts[0]|] == parts[0];
    } else {
      ConcatContainsParts(parts[1..], k - 1);
      ContainsExtended(parts[0], Concat(parts[1..]), "", parts[k]);
      assert parts[0] + Concat(parts[1..]) + "" == Concat(parts);
    }
  }

  /** How many hits, sources or summarised columns the templates show. */
  const Shown: int := 3

  /** One document hit: the first 200 characters and the file it came from. */
  function HitLines(h: DocHit): string {
    Bulleted(SliceTo(h.content, 200)) + "...\n" + "  Source: " + h.filename + "\n\n"
  }

  /** The document-search template over the first three hits. */
  function DocumentAnswer(hits: seq<DocHit>): (r: string)
    ensures |hits| == 0 ==> r == NoDocuments
    ensures |hits| > 0 ==> StartsWith(r, DocumentsFound)
    ensures forall k :: 0 <= k < |hits| && k < Shown ==> Contains(r, HitLines(hits[k]))
  {
    if |hits| == 0 then NoDocuments
    else
      var shown := SliceTo(hits, Shown);
      var parts := seq(|shown|, k requires 0 <= k < |shown| => HitLines(shown[k]));
      HeadThenParts(DocumentsFound, parts);
      assert forall k :: 0 <= k < |hits| && k < Shown ==> parts[k] == HitLines(hits[k]);
      DocumentsFound + Concat(parts)
  }

  /** One web source: its title and URL. */
  function SourceLine(c: Web.Citation): string {
    Bulleted(c.title + ": " + c.url) + "\n"
  }

  /** The web-search template: the answer, then up to three sources. */
  function WebAnswer(r: Web.SearchResult): (text: string)
    ensures StartsWith(text, r.Answer() + "\n\n")
    ensures |r.Results()| == 0 <==> text == r.Answer() + "\n\n"
    ensures forall k :: 0 <= k < |r.Results()| && k < Shown ==> Contains(text, SourceLine(r.Results()[k]))
  {
    var head := r.Answer() + "\n\n";
    if |r.Results()| == 0 then head
    else
      SourcesListed(head, r.Results());
      head + SourcesBlock(r.Results())
  }

  const SourcesHeading: string := "Sources:\n"

  /** The line of each source, in order. */
  function SourceLines(sources: seq<Web.Citation>): (lines: seq<string>)
    ensures |lines| == |sources|
  {
    seq(|sources|, k requires 0 <= k < |sources| => SourceLine(sources[k]))
  }

  /** The sources block: a heading and one line for each of the first three. */
  function SourcesBlock(sources: seq<Web.Citation>): string {
    SourcesHeading + Concat(SourceLines(SliceTo(sources, Shown)))
  }

  /** With sources, the answer's blank line is followed by the heading and
      then the lines of the first three sources, in order, back to back and
      nothing else. */
  lemma WebAnswerLaid(r: Web.SearchResult)
    ensures |r.Results()| > 0 ==>
              var head := r.Answer() + "\n\n";
              var text := WebAnswer(r);
              OccursAt(text, SourcesHeading, |head|)
              && Laid(text[|head| + |SourcesHeading|..], "", SourceLines(SliceTo(r.Results(), Shown)))
    ensures forall k :: 0 <= k < |r.Results()| && k < Shown ==>
              SourceLines(SliceTo(r.Results(), Shown))[k] == SourceLine(r.Results()[k])
  {
    if |r.Results()| > 0 {
      var head := r.Answer() + "\n\n";
      var lines := SourceLines(SliceTo(r.Results(), Shown));
      var text := WebAnswer(r);
      assert text == head + SourcesHeading + Concat(lines);
      assert text[|head|..|head| + |SourcesHeading|] == SourcesHeading;
      assert text[|head| + |SourcesHeading|..] == Concat(lines);
      ConcatLaid(lines);
    }
  }

  /** The text after `head` lists each of the first three sources. */
  lemma SourcesListed(head: string, sources: seq<Web.Citation>)
    ensures StartsWith(head + SourcesBlock(sources), head)
    ensures |head + SourcesBlock(sources)| > |head|
    ensures forall k :: 0 <= k < |sources| && k < Shown ==> Contains(head + SourcesBlock(sources), SourceLine(sources[k]))
  {
    var parts := SourceLines(SliceTo(sources, Shown));
    HeadThenParts(head + SourcesHeading, parts);
    var block := SourcesBlock(sources);
    assert block == SourcesHeading + Concat(parts);
    AppendAssoc(head, SourcesHeading, Concat(parts));
    assert (head + block)[..|head|] == head;
    assert forall k :: 0 <= k < |sources| && k < Shown ==> parts[k] == SourceLine(sources[k]);
  }

  const ResultOpening: string := "The result of `"

  /** The calculator template. */
  function CalculationAnswer(c: Calculator.Payload, render: Value -> string): string {
    match c
    case Success(v, e) => ResultOpening + e + "` is **" + Show(v, render) + "**."
    case Failure(err, _) => CalculationFailed + err
  }

  /** A successful calculation names the cleaned expression in backquotes
      right after the opening words and ends on the value in bold; a failed
      one is the fixed apology followed by the error and nothing more. */
  lemma CalculationAnswerShape(c: Calculator.Payload, render: Value -> string)
    ensures var r := CalculationAnswer(c, render);
            c.Success? ==>
              StartsWith(r, ResultOpening)
              && OccursAt(r, c.expression, |ResultOpening|)
              && EndsWith(r, "` is **" + Show(c.result, render) + "**.")
              && |r| == |ResultOpening| + |c.expression| + |"` is **" + Show(c.result, render) + "**."|
    ensures var r := CalculationAnswer(c, render);
            c.Failure? ==> StartsWith(r, CalculationFailed) && EndsWith(r, c.error) && |r| == |CalculationFailed| + |c.error|
  {
    var r := CalculationAnswer(c, render);
    if c.Success? {
      var tail := "` is **" + Show(c.result, render) + "**.";
      assert r == ResultOpening + c.expression + tail;
      assert r[..|ResultOpening|] == ResultOpening;
      assert r[|ResultOpening|..|ResultOpening| + |c.expression|] == c.expression;
      assert r[|r| - |tail|..] == tail;
    } else {
      assert r[..|CalculationFailed|] == CalculationFailed;
      assert r[|r| - |c.error|..] == c.error;
    }
  }

  /** The conversation history the language model sees: the session's last
      six messages, as role and content. */
  function HistoryFor(s: State, d: Deps): (h: seq<Llm.Message>)
    ensures d.memory.None? ==> h == []
    ensures d.memory.Some? ==> |h| == |Memory.GetConversation(d.memory.value, s.sessionId, 6)|
  {
    if d.memory.None? then []
    else
      var msgs := Memory.GetConversation(d.memory.value, s.sessionId, 6);
      seq(|msgs|, k requires 0 <= k < |msgs| => Llm.Message(msgs[k].role, msgs[k].content))
  }

  /** With memory, the model sees the session's stored messages, oldest
      first: the last six of them, or all when there are fewer, each with its
      role and content unchanged. */
  lemma HistoryForMessages(s: State, d: Deps)
    ensures d.memory.None? ==> HistoryFor(s, d) == []
    ensures d.memory.Some? ==>
              var all := Memory.History(d.memory.value, s.sessionId);
              var h := HistoryFor(s, d);
              |h| == (if |all| < 6 then |all| else 6)
              && forall k :: 0 <= k < |h| ==>
                   h[k] == Llm.Message(all[|all| - |h| + k].role, all[|all| - |h| + k].content)
  {
    if d.memory.Some? {
      var all := Memory.History(d.memory.value, s.sessionId);
      var msgs := Memory.GetConversation(d.memory.value, s.sessionId, 6);
      assert msgs == if |all| < 6 then all else all[|all| - 6..];
    }
  }

  /** The per-intent templates of `_synthesize_answer`. A first output of
      another shape than the intent's tool gives is read as no output; the
      tool table makes that impossible. */
  function ManualAnswer(s: State, d: Deps): string {
    var outs := s.toolOutputs;
    match s.intent
    case TaskList =>
      if |outs| > 0 && outs[0].result.TaskRows? then TaskListAnswer(outs[0].result.tasks) else NoTasks
    case DocumentSearch =>
      if |outs| > 0 && outs[0].result.DocHits? then DocumentAnswer(outs[0].result.hits) else NoDocuments
    case WebSearch =>
      if |outs| > 0 && outs[0].result.Searched? then WebAnswer(outs[0].result.search) else "\n\n"
    case Calculate =>
      if |outs| > 0 && outs[0].result.Calculated? then CalculationAnswer(outs[0].result.calculation, d.render)
      else CalculationFailed + "None"
    case QuestionAnswer => Conversational(s, d)
    case General => Conversational(s, d)
    case _ => Completed
  }

  /** Questions and small talk: the language model over the history, or the
      apology without one. */
  function Conversational(s: State, d: Deps): string {
    if d.llm.Some? then Llm.GenerateResponse(s.userInput, "", "", HistoryFor(s, d), d.llm.value) else Apology
  }

  /** A tool output as the dictionary `{"tool": …, "result": …}` the
      language model's context is built from. Task objects are opaque to it. */
  function OutputValue(o: ToolOutput): Value {
    VDict([Entry("tool", VStr(o.tool.Name())), Entry("result", PayloadValue(o.result))])
  }

  function PayloadValue(p: Payload): Value {
    match p
    case TaskRows(tasks) => VList(seq(|tasks|, k requires 0 <= k < |tasks| => VObject("Task")))
    case DocHits(hits) => VList(seq(|hits|, k requires 0 <= k < |hits| =>
                            VDict([Entry("content", VStr(hits[k].content)),
                                   Entry("metadata", VDict([Entry("filename", VStr(hits[k].filename))]))])))
    case Searched(r, model) => r.ToValue(model)
    case Calculated(c) => c.ToValue()
    case Data(v) => v
  }

  function OutputValues(outs: seq<ToolOutput>): (r: seq<Value>)
    ensures |r| == |outs|
  {
    seq(|outs|, k requires 0 <= k < |outs| => OutputValue(outs[k]))
  }

  /** Whether `_synthesize_answer` hands the outputs to the language model:
      not for charts, and only when there is a model and some output. */
  predicate Delegates(s: State, d: Deps) {
    s.intent != Visualization && d.llm.Some? && |s.toolOutputs| > 0
  }

  /** `_synthesize_answer`. The `except` around the language model's
      synthesis never fires, because `synthesize_answer` returns its error
      as text. */
  function Synthesize(s: State, d: Deps): string {
    if s.intent == Visualization then VisualizationAnswer(FirstResult(s.toolOutputs), d)
    else if Delegates(s, d) then
      Llm.SynthesizeAnswer(s.userInput, OutputValues(s.toolOutputs), s.intent.Tag(), d.render, d.llm.value)
    else ManualAnswer(s, d)
  }

  /** `answer`: the error list when observe failed the request, otherwise
      the synthesised answer. */
  function Answer(s: State, d: Deps): State {
    s.(finalAnswer := if s.success then Synthesize(s, d) else ErrorResponse(s.errors))
  }

  // ---------------------------------------------------------------- run

  /** The final state and the memory after the run (none when no memory is
      configured). */
  datatype RunResult = RunResult(state: State, memory: Option<Memory.Fallback>)

  /** What `run` writes to memory: the user's turn, the answer, and the
      action log entry (which the fallback store drops). */
  function Remember(m: Memory.Fallback, s: State, now: string): Memory.Fallback {
    var m1 := Memory.SaveConversation(m, s.sessionId, "user", s.userInput, now);
    var m2 := Memory.SaveConversation(m1, s.sessionId, "assistant", s.finalAnswer, now);
    Memory.LogAction(m2, s.userId, s.intent.Tag(), (s.requiredTools, s.success))
  }

  /** The run's turn is the last two messages of its session. */
  lemma RememberTurns(m: Memory.Fallback, s: State, now: string)
    ensures TurnLast(Remember(m, s, now), s.sessionId, s.userInput, s.finalAnswer, now)
  {
    var m1 := Memory.SaveConversation(m, s.sessionId, "user", s.userInput, now);
    assert Remember(m, s, now) == Memory.SaveConversation(m1, s.sessionId, "assistant", s.finalAnswer, now);
    Memory.SaveTwice(m, s.sessionId, "user", s.userInput, "assistant", s.finalAnswer, now);
    var h := Memory.History(Remember(m, s, now), s.sessionId);
    assert |h| >= 2 && h[|h| - 2] == Memory.Message("user", s.userInput, now);
  }

  /** Remembering a run leaves every other session as it was. */
  lemma RememberKeepsOthers(m: Memory.Fallback, s: State, now: string)
    ensures OthersKept(m, Remember(m, s, now), s.sessionId)
  {
    var m1 := Memory.SaveConversation(m, s.sessionId, "user", s.userInput, now);
    assert Remember(m, s, now) == Memory.SaveConversation(m1, s.sessionId, "assistant", s.finalAnswer, now);
  }

  /** The four phases in order, on the initial state. */
  function Phases(userInput: string, sessionId: string, userId: string, csvData: string, d: Deps): State {
    Finish(Think(Init(userInput, sessionId, userId, csvData)), d)
  }

  /** Act, observe and answer on a planned state. */
  function Finish(p: State, d: Deps): State {
    Answer(Observe(Act(p, d)), d)
  }

  /** `run`: the four phases, then the memory writes; the answer is
      `r.state.finalAnswer`. */
  function Run(userInput: string, sessionId: string, userId: string, csvData: string, d: Deps): (r: RunResult)
    ensures r.state == Phases(userInput, sessionId, userId, csvData, d)
    ensures r.memory.Some? <==> d.memory.Some?
  {
    var s := Phases(userInput, sessionId, userId, csvData, d);
    RunResult(s, if d.memory.Some? then Some(Remember(d.memory.value, s, d.now)) else None)
  }

  // ---------------------------------------------------------------- properties of a run

  /** The state act starts from. */
  function Planned(userInput: string, sessionId: string, userId: string, csvData: string): State {
    Think(Init(userInput, sessionId, userId, csvData))
  }

  /** A state as think leaves it: tools chosen for its intent, nothing
      recorded yet. */
  predicate Fresh(p: State) {
    p.requiredTools == SelectTools(p.intent)
    && p.toolCalls == [] && p.toolOutputs == [] && p.errors == [] && p.finalAnswer == ""
  }

  /** Think plans the request it was given for the intent of its text. */
  lemma ThinkPlans(userInput: string, sessionId: string, userId: string, csvData: string)
    ensures var p := Planned(userInput, sessionId, userId, csvData);
            Fresh(p) && p.intent == DetectIntent(Lower(userInput))
            && p.userInput == userInput && p.sessionId == sessionId && p.csvData == csvData
  {
  }

  /** What the last three phases record: one output per tool that ran with
      a call beside it, one error per tool that did not run and per empty
      result, success exactly when there is no error, and the error list as
      the answer of a failed request. */
  lemma FinishRecords(p: State, d: Deps)
    requires Fresh(p)
    ensures var r := Finish(p, d);
            r.intent == p.intent && r.requiredTools == p.requiredTools
            && r.userInput == p.userInput && r.sessionId == p.sessionId && r.csvData == p.csvData
            && r.toolOutputs == Outputs(p.requiredTools, Attempts(p, d))
            && r.toolCalls == CallsFor(r.toolOutputs, d.now)
            && r.errors == Failures(p.requiredTools, Attempts(p, d)) + EmptyErrors(r.toolOutputs)
            && |r.toolOutputs| <= |r.requiredTools| <= 1
            && (r.success <==> |r.errors| == 0)
            && (!r.success ==> r.finalAnswer == ErrorResponse(r.errors))
            && (r.success ==> r.finalAnswer == Synthesize(r.(finalAnswer := ""), d))
  {
    var a := Act(p, d);
    ActRecords(p, d);
    var o := Observe(a);
    assert o.toolOutputs == a.toolOutputs && o.errors == a.errors + EmptyErrors(a.toolOutputs);
    assert Finish(p, d) == o.(finalAnswer := if o.success then Synthesize(o, d) else ErrorResponse(o.errors));
  }

  /** What a whole run records, from the intent of the input on. */
  lemma RunRecords(userInput: string, sessionId: string, userId: string, csvData: string, d: Deps)
    ensures var p := Planned(userInput, sessionId, userId, csvData);
            var r := Run(userInput, sessionId, userId, csvData, d).state;
            r.intent == DetectIntent(Lower(userInput))
            && r.requiredTools == SelectTools(r.intent)
            && r.userInput == userInput && r.sessionId == sessionId
            && r.toolOutputs == Outputs(r.requiredTools, Attempts(p, d))
            && r.errors == Failures(r.requiredTools, Attempts(p, d)) + EmptyErrors(r.toolOutputs)
            && (r.success <==> |r.errors| == 0)
            && (!r.success ==> r.finalAnswer == ErrorResponse(r.errors))
  {
    ThinkPlans(userInput, sessionId, userId, csvData);
    FinishRecords(Planned(userInput, sessionId, userId, csvData), d);
  }

  /** A one-tool plan records that tool's outcome alone. */
  lemma SingleTool(t: ToolId, attempt: ToolId -> Attempt)
    ensures Outputs([t], attempt) == OutputOf(t, attempt(t))
    ensures Failures([t], attempt) == FailureOf(t, attempt(t))
  {
    assert [t][1..] == [];
  }

  /** Observe turns an empty task listing into an error before answer runs,
      so "You have no tasks at the moment." is never the answer to a listing:
      the user reads the error list instead. */
  lemma EmptyTaskListIsAnError(p: State, d: Deps)
    requires Fresh(p) && p.intent == TaskList
    requires d.tasks.Some? && TaskStore.ListTasks(d.tasks.value, TaskStore.NoFilters, TaskStore.DefaultLimit) == []
    ensures Finish(p, d).finalAnswer == ErrorResponse([EmptyResult(ToolOutput(TaskManagerTool, TaskRows([])))])
  {
    FinishRecords(p, d);
    SingleTool(TaskManagerTool, Attempts(p, d));
    var a := Attempts(p, d)(TaskManagerTool);
    assert a == Try(p, d, TaskManagerTool);
    assert a.Some? && a.value.Returned? && a.value.value.TaskRows? && a.value.value.tasks == [];
    var r := Finish(p, d);
    assert |r.toolOutputs| == 1 && r.toolOutputs[0].tool == TaskManagerTool && r.toolOutputs[0].result.TaskRows?;
    assert r.toolOutputs == [ToolOutput(TaskManagerTool, TaskRows([]))];
    assert EmptyErrors(r.toolOutputs) == [EmptyResult(ToolOutput(TaskManagerTool, TaskRows([])))];
  }

  /** A request whose tool is not registered is answered with exactly that
      error. */
  lemma MissingToolReported(p: State, d: Deps, t: ToolId)
    requires Fresh(p) && p.requiredTools == [t]
    requires !Available(d, t)
    ensures Finish(p, d).finalAnswer == ErrorResponse([NotAvailable(t)])
    ensures !Finish(p, d).success
  {
    FinishRecords(p, d);
    SingleTool(t, Attempts(p, d));
    assert Attempts(p, d)(t) == Try(p, d, t);
    assert EmptyErrors([]) == [];
  }

  /** Questions and small talk use no tool, always succeed, and are answered
      in conversation. */
  lemma QuestionsNeedNoTool(p: State, d: Deps)
    requires Fresh(p) && p.intent in {QuestionAnswer, General}
    ensures var r := Finish(p, d);
            r.success && r.toolCalls == [] && r.finalAnswer == Conversational(r, d)
  {
    FinishRecords(p, d);
    assert p.requiredTools == [];
    assert Outputs([], Attempts(p, d)) == [] && Failures([], Attempts(p, d)) == [];
    assert EmptyErrors([]) == [];
    var r := Finish(p, d);
    assert !Delegates(r.(finalAnswer := ""), d);
  }

  /** Charts are described from the visualizer's result alone: whether a
      language model is configured makes no difference. */
  lemma VisualizationIgnoresLlm(s: State, d: Deps)
    requires s.intent == Visualization
    ensures Synthesize(s, d) == Synthesize(s, d.(llm := None))
  {
  }

  /** Without a language model a question gets the apology and a task
      change or summary gets the fixed completion text, whatever the
      outputs. */
  lemma NoModelAnswers(s: State, d: Deps)
    requires d.llm.None?
    ensures s.intent in {QuestionAnswer, General} ==> Synthesize(s, d) == Apology
    ensures s.intent in {TaskCreate, TaskUpdate, TaskDelete, DocumentSummarize} ==> Synthesize(s, d) == Completed
  {
  }

  /** The calculator tool runs on the input as typed and always returns. */
  lemma CalculatorAttempt(s: State, d: Deps)
    requires s.intent == Calculate
    ensures Attempts(s, d)(CalculatorTool).Some?
            && Attempts(s, d)(CalculatorTool).value == Returned(Calculated(Calculator.Execute(s.userInput, d.eval)))
  {
    assert Attempts(s, d)(CalculatorTool) == Try(s, d, CalculatorTool);
  }

  /** The calculator template answers a calculation the model is not asked about. */
  lemma CalculatorTemplate(s: State, d: Deps, c: Calculator.Payload)
    requires s.intent == Calculate && d.llm.None?
    requires |s.toolOutputs| == 1 && s.toolOutputs[0].result == Calculated(c)
    ensures Synthesize(s, d) == CalculationAnswer(c, d.render)
  {
  }

  /** A calculation always succeeds (the calculator is always registered
      and reports its own failures in a non-empty payload); without a
      language model its answer is the calculator template over what the
      calculator computed. */
  lemma CalculationAnswered(p: State, d: Deps)
    requires Fresh(p) && p.intent == Calculate
    requires d.llm.None?
    ensures Finish(p, d).success
    ensures Finish(p, d).finalAnswer == CalculationAnswer(Calculator.Execute(p.userInput, d.eval), d.render)
  {
    var c := Calculator.Execute(p.userInput, d.eval);
    CalculationActs(p, d);
    ObserveClean(Act(p, d), ToolOutput(CalculatorTool, Calculated(c)));
    CalculatorTemplate(Observe(Act(p, d)), d, c);
  }

  /** `act` on a calculation records the calculator's payload and no error. */
  lemma CalculationActs(p: State, d: Deps)
    requires Fresh(p) && p.intent == Calculate
    ensures var a := Act(p, d);
            a.toolOutputs == [ToolOutput(CalculatorTool, Calculated(Calculator.Execute(p.userInput, d.eval)))]
            && a.errors == [] && a.intent == Calculate
  {
    assert p.requiredTools == [CalculatorTool];
    CalculatorAttempt(p, d);
    OneToolRan(p, CalculatorTool, Attempts(p, d), d.now, Calculated(Calculator.Execute(p.userInput, d.eval)));
    assert Act(p, d) == ActOn(p, [CalculatorTool], Attempts(p, d), d.now);
  }

  /** A single tool that returned leaves its output and no error. */
  lemma OneToolRan(s: State, t: ToolId, attempt: ToolId -> Attempt, now: string, x: Payload)
    requires attempt(t) == Some(Returned(x))
    ensures var r := ActOn(s, [t], attempt, now);
            r.toolOutputs == s.toolOutputs + [ToolOutput(t, x)] && r.errors == s.errors && r.intent == s.intent
  {
    ActOnRecords(s, [t], attempt, now);
    ActOnErrors(s, [t], attempt, now);
    ActOnKeeps(s, [t], attempt, now);
    SingleTool(t, attempt);
  }

  /** `observe` passes a request whose only output is not empty. */
  lemma ObserveClean(a: State, out: ToolOutput)
    requires a.toolOutputs == [out] && a.errors == [] && !IsEmpty(out)
    ensures var o := Observe(a);
            o.success && o.toolOutputs == [out] && o.intent == a.intent
  {
    assert EmptyErrors([out]) == [] by {
      assert [out][1..] == [];
    }
  }

  /** A successful chart is linked by the path it was saved to, and its
      answer ends with the tip when it is interactive. */
  lemma ChartAnswerLinksChart(userInput: string, request: Viz.Request, custom: Option<Value>, pd: Viz.Pandas, d: Deps)
    requires Viz.Succeeds(userInput, request, custom, pd)
    ensures var path := Viz.DrawOf(userInput, request, Viz.FrameOf(userInput, request, custom, pd).value, pd).value;
            var r := VisualizationAnswer(Viz.Generate(userInput, request, custom, pd), d);
            StartsWith(r, ImagePrefix + path + ")") && (request.interactive ==> EndsWith(r, Tip))
  {
    var v := Viz.Generate(userInput, request, custom, pd);
    var path := Viz.DrawOf(userInput, request, Viz.FrameOf(userInput, request, custom, pd).value, pd).value;
    Viz.GenerateReports(userInput, request, custom, pd);
    Viz.GenerateSucceeds(userInput, request, custom, pd);
    assert Get(v, "filepath") == Some(VStr(path));
    assert GetOr(v, "filepath", VStr("")) == VStr(path);
    assert GetOr(v, "interactive", VBool(true)) == VBool(request.interactive);
    assert Truthy(v, "success");
  }

  /** A failed chart is answered with the visualizer's first fault. */
  lemma ChartAnswerReportsFault(userInput: string, request: Viz.Request, custom: Option<Value>, pd: Viz.Pandas, d: Deps)
    requires !Viz.Succeeds(userInput, request, custom, pd)
    ensures VisualizationAnswer(Viz.Generate(userInput, request, custom, pd), d)
            == VizFailurePrefix + Viz.FirstFault(userInput, request, custom, pd)
  {
    var v := Viz.Generate(userInput, request, custom, pd);
    var fault := Viz.FirstFault(userInput, request, custom, pd);
    Viz.GenerateReports(userInput, request, custom, pd);
    assert v == VDict([Entry("success", VBool(false)), Entry("error", VStr(fault))]);
    assert Lookup(v.entries[1..], "error") == Some(VStr(fault));
    assert GetOr(v, "error", VStr("Unknown error")) == VStr(fault);
    assert !Truthy(v, "success");
  }

  /** A run with memory appends the user's turn and then the answer to the
      session, and leaves every other session alone. */
  lemma RunSavesTurns(userInput: string, sessionId: string, userId: string, csvData: string, d: Deps)
    requires d.memory.Some?
    ensures var r := Run(userInput, sessionId, userId, csvData, d);
            SavedTurn(d.memory.value, r.memory.value, sessionId, userInput, r.state.finalAnswer, d.now)
  {
    var r := Run(userInput, sessionId, userId, csvData, d);
    RunKeepsRequest(userInput, sessionId, userId, csvData, d);
    Remembered(d.memory.value, r.state, d.now, r.memory.value);
  }

  /** The turn (`user`, `answer`) is the last two messages of the session. */
  predicate TurnLast(after: Memory.Fallback, sessionId: string, user: string, answer: string, now: string) {
    var h := Memory.History(after, sessionId);
    |h| >= 2
    && h[|h| - 2] == Memory.Message("user", user, now)
    && h[|h| - 1] == Memory.Message("assistant", answer, now)
  }

  /** Every session other than `sessionId` is as it was. */
  ghost predicate OthersKept(before: Memory.Fallback, after: Memory.Fallback, sessionId: string) {
    forall other :: other != sessionId ==> Memory.History(after, other) == Memory.History(before, other)
  }

  /** `after` is `before` with the turn (`user`, `answer`) appended to the
      session and nothing else changed. */
  ghost predicate SavedTurn(before: Memory.Fallback, after: Memory.Fallback, sessionId: string, user: string, answer: string, now: string) {
    TurnLast(after, sessionId, user, answer, now) && OthersKept(before, after, sessionId)
  }

  /** Remembering a state saves its turn. */
  lemma Remembered(m: Memory.Fallback, s: State, now: string, after: Memory.Fallback)
    requires after == Remember(m, s, now)
    ensures SavedTurn(m, after, s.sessionId, s.userInput, s.finalAnswer, now)
  {
    RememberTurns(m, s, now);
    RememberKeepsOthers(m, s, now);
  }

  /** A run answers the request it was given, in its session, and writes
      to memory what remembering that state writes. */
  lemma RunKeepsRequest(userInput: string, sessionId: string, userId: string, csvData: string, d: Deps)
    ensures var r := Run(userInput, sessionId, userId, csvData, d);
            r.state.userInput == userInput && r.state.sessionId == sessionId
            && (d.memory.Some? ==> r.memory == Some(Remember(d.memory.value, r.state, d.now)))
  {
    var p := Planned(userInput, sessionId, userId, csvData);
    FinishKeepsRequest(p, d);
  }

  /** Act, observe and answer leave the request and session alone. */
  lemma FinishKeepsRequest(p: State, d: Deps)
    ensures Finish(p, d).userInput == p.userInput && Finish(p, d).sessionId == p.sessionId
  {
    ActRecords(p, d);
  }
}

=== FILE: scan.dfy ===
/** The two ways the source applies a regular expression: `re.search`, which
    reports the match at the leftmost position where the pattern matches,
    and `re.findall`, which collects non-overlapping matches left to right.
    A pattern is given by what it matches at the start of a string. */
module Scan {
  import opened Wrappers

  /** A match at the start of a string: what it captures and how many
      characters it spans. */
  datatype Found<T> = Found(capture: T, length: nat)

  /** The pattern `at` matches at index `i` of `s`, capturing `x`. */
  predicate MatchAt<T(==)>(s: string, i: int, at: string -> Option<Found<T>>, x: T) {
    0 <= i <= |s| && at(s[i..]).Some? && at(s[i..]).value.capture == x
  }

  /** `re.search`: the capture of the match at the leftmost index where the
      pattern matches, if there is one. */
  function Leftmost<T(==)>(s: string, at: string -> Option<Found<T>>): (r: Option<T>)
    ensures r.None? <==> forall i :: 0 <= i <= |s| ==> at(s[i..]).None?
    ensures r.Some? ==> exists i :: MatchAt(s, i, at, r.value)
                                    && forall j :: 0 <= j < i ==> at(s[j..]).None?
    decreases |s|
  {
    assert s[0..] == s;
    if at(s).Some? then
      assert MatchAt(s, 0, at, at(s).value.capture);
      Some(at(s).value.capture)
    else if |s| == 0 then None
    else
      var r := Leftmost(s[1..], at);
      assert forall i :: 0 <= i <= |s| - 1 ==> s[1..][i..] == s[i + 1..];
      if r.Some? then
        var i :| MatchAt(s[1..], i, at, r.value) && forall j :: 0 <= j < i ==> at(s[1..][j..]).None?;
        assert MatchAt(s, i + 1, at, r.value);
        assert forall j :: 1 <= j < i + 1 ==> at(s[j..]).None? by {
          forall j | 1 <= j < i + 1 ensures at(s[j..]).None? {
            assert at(s[1..][j - 1..]).None?;
          }
        }
        r
      else
        assert forall i :: 1 <= i <= |s| ==> at(s[i..]).None? by {
          forall i | 1 <= i <= |s| ensures at(s[i..]).None? {
            assert at(s[1..][i - 1..]).None?;
          }
        }
        r
  }

  /** `re.findall` for a pattern that never matches the empty string: after
      a match the scan resumes behind it, otherwise one character later. */
  function FindAll<T(==)>(s: string, at: string -> Option<Found<T>>): seq<T>
    decreases |s|
  {
    if |s| == 0 then []
    else if at(s).Some? then [at(s).value.capture] + FindAll(s[Advance(s, at)..], at)
    else FindAll(s[1..], at)
  }

  /** Where the scan resumes after index 0. */
  function Advance<T>(s: string, at: string -> Option<Found<T>>): (n: nat)
    requires |s| > 0
    ensures 1 <= n <= |s|
  {
    if at(s).Some? && 1 <= at(s).value.length <= |s| then at(s).value.length else 1
  }

  /** Every capture `findall` returns is a match somewhere in `s`. */
  lemma {:induction false} FindAllSound<T>(s: string, at: string -> Option<Found<T>>)
    ensures forall x :: x in FindAll(s, at) ==> exists i :: MatchAt(s, i, at, x)
    decreases |s|
  {
    if |s| > 0 {
      var n := if at(s).Some? then Advance(s, at) else 1;
      FindAllSound(s[n..], at);
      forall x | x in FindAll(s[n..], at) ensures exists i :: MatchAt(s, i, at, x) {
        var i :| MatchAt(s[n..], i, at, x);
        MatchShift(s, n, i, at, x);
      }
      if at(s).Some? {
        assert s[0..] == s;
        assert MatchAt(s, 0, at, at(s).value.capture);
        assert FindAll(s, at) == [at(s).value.capture] + FindAll(s[n..], at);
      } else {
        assert FindAll(s, at) == FindAll(s[n..], at);
      }
    }
  }

  /** A match in a suffix is a match in the whole string. */
  lemma MatchShift<T>(s: string, n: nat, i: int, at: string -> Option<Found<T>>, x: T)
    requires n <= |s| && MatchAt(s[n..], i, at, x)
    ensures MatchAt(s, n + i, at, x)
  {
    assert s[n..][i..] == s[n + i..];
  }
}

=== FILE: seqs.dfy ===
/** Python list idioms used throughout the source: comprehensions with a filter
    and slices with possibly negative bounds. */
module Seqs {

  /** `[x for x in s if p(x)]`. */
  function Filter<T>(s: seq<T>, p: T -> bool): (r: seq<T>)
    ensures |r| <= |s|
    ensures forall x :: x in r ==> x in s && p(x)
    ensures forall x :: x in s && p(x) ==> x in r
  {
    if |s| == 0 then []
    else if p(s[0]) then [s[0]] + Filter(s[1..], p)
    else Filter(s[1..], p)
  }

  /** Filtering twice is filtering once by the conjunction. */
  lemma {:induction false} FilterTwice<T>(s: seq<T>, p: T -> bool, q: T -> bool, pq: T -> bool)
    requires forall x :: pq(x) == (p(x) && q(x))
    ensures Filter(Filter(s, p), q) == Filter(s, pq)
  {
    if |s| > 0 {
      FilterTwice(s[1..], p, q, pq);
      if p(s[0]) {
        assert Filter(s, p) == [s[0]] + Filter(s[1..], p);
        assert (Filter(s, p))[1..] == Filter(s[1..], p);
      }
    }
  }

  /** Filtering distributes over appending one element. */
  lemma {:induction false} FilterAppend<T>(s: seq<T>, x: T, p: T -> bool)
    ensures Filter(s + [x], p) == Filter(s, p) + (if p(x) then [x] else [])
  {
    if |s| > 0 {
      FilterAppend(s[1..], x, p);
      assert (s + [x])[1..] == s[1..] + [x];
    } else {
      assert (s + [x])[1..] == [];
    }
  }

  /** Filters by pointwise-equal predicates agree. */
  lemma {:induction false} FilterSame<T>(s: seq<T>, p: T -> bool, q: T -> bool)
    requires forall x :: p(x) == q(x)
    ensures Filter(s, p) == Filter(s, q)
  {
    if |s| > 0 {
      FilterSame(s[1..], p, q);
    }
  }

  /** Filtering by a predicate every element satisfies changes nothing. */
  lemma {:induction false} FilterAll<T>(s: seq<T>, p: T -> bool)
    requires forall i :: 0 <= i < |s| ==> p(s[i])
    ensures Filter(s, p) == s
  {
    if |s| > 0 {
      FilterAll(s[1..], p);
    }
  }

  /** The distinct elements of `s`, each at its first occurrence: what
      iterating over `set(s)` visits, in one particular order. */
  function Distinct<T(==,!new)>(s: seq<T>): (r: seq<T>)
    ensures |r| <= |s|
    ensures forall x :: x in r <==> x in s
    ensures forall a, b :: 0 <= a < b < |r| ==> r[a] != r[b]
  {
    if |s| == 0 then []
    else
      var rest := Distinct(s[..|s| - 1]);
      assert s == s[..|s| - 1] + [s[|s| - 1]];
      if s[|s| - 1] in rest then rest else rest + [s[|s| - 1]]
  }

  /** The number of elements of `s` satisfying `p`. */
  function Count<T>(s: seq<T>, p: T -> bool): nat
  {
    |Filter(s, p)|
  }

  /** The index Python's slice bound `k` denotes in a sequence of length `n`:
      negative bounds count from the end, and both kinds are clamped to `0..n`. */
  function SliceIndex(n: nat, k: int): (i: nat)
    ensures i <= n
    ensures 0 <= k ==> i == if k <= n then k else n
    ensures k < 0 ==> i == if -k <= n then n + k else 0
  {
    if k >= 0 then (if k <= n then k else n)
    else if -k <= n then n + k else 0
  }

  /** `s[:k]`. */
  function SliceTo<T>(s: seq<T>, k: int): seq<T>
  {
    s[..SliceIndex(|s|, k)]
  }

  /** `s[k:]`. */
  function SliceFrom<T>(s: seq<T>, k: int): seq<T>
  {
    s[SliceIndex(|s|, k)..]
  }

  /** `s[-k:]` for a count `k > 0`: the last `k` elements, or all of them. */
  lemma LastK<T>(s: seq<T>, k: int)
    requires k > 0
    ensures SliceFrom(s, -k) == if k <= |s| then s[|s| - k..] else s
  {
  }

  /** `s[-0:]` is `s[0:]`: the whole sequence, not an empty one. */
  lemma MinusZeroIsWhole<T>(s: seq<T>)
    ensures SliceFrom(s, -0) == s
  {
  }
}

=== FILE: task.dfy ===
/** The task schema: `Task`, `TaskCreate` and `TaskUpdate`, their defaults and
    the value constraints that validation enforces. */
module TaskModel {
  import opened Wrappers

  /** A point in time (a `datetime`), as a count of seconds. */
  type Instant = int

  datatype Priority = High | Medium | Low
  datatype Status = Pending | InProgress | Completed

  function PriorityName(p: Priority): string {
    match p
    case High => "high"
    case Medium => "medium"
    case Low => "low"
  }

  function StatusName(s: Status): string {
    match s
    case Pending => "pending"
    case InProgress => "in_progress"
    case Completed => "completed"
  }

  /** Validation of the `Literal["high", "medium", "low"]` field. */
  function ParsePriority(s: string): (r: Option<Priority>)
    ensures r.Some? <==> s in {"high", "medium", "low"}
    ensures r.Some? ==> PriorityName(r.value) == s
  {
    if s == "high" then Some(High)
    else if s == "medium" then Some(Medium)
    else if s == "low" then Some(Low)
    else None
  }

  /** Validation of the `Literal["pending", "in_progress", "completed"]` field. */
  function ParseStatus(s: string): (r: Option<Status>)
    ensures r.Some? <==> s in {"pending", "in_progress", "completed"}
    ensures r.Some? ==> StatusName(r.value) == s
  {
    if s == "pending" then Some(Pending)
    else if s == "in_progress" then Some(InProgress)
    else if s == "completed" then Some(Completed)
    else None
  }

  /** Every priority survives printing and re-validation unchanged. */
  lemma PriorityRoundTrip(p: Priority)
    ensures ParsePriority(PriorityName(p)) == Some(p)
  {
  }

  /** Every status survives printing and re-validation unchanged. */
  lemma StatusRoundTrip(s: Status)
    ensures ParseStatus(StatusName(s)) == Some(s)
  {
  }

  const MaxTitleLength: nat := 200

  /** `Field(..., min_length=1, max_length=200)`. */
  predicate ValidTitle(title: string) {
    1 <= |title| <= MaxTitleLength
  }

  datatype Task = Task(
    taskId: string,
    title: string,
    description: Option<string>,
    priority: Priority,
    deadline: Option<Instant>,
    category: Option<string>,
    tags: seq<string>,
    status: Status,
    createdAt: Instant,
    updatedAt: Instant)
  {
    predicate Valid() { ValidTitle(title) }
  }

  /** The fields a client supplies to create a task; there is no status. */
  datatype TaskCreate = TaskCreate(
    title: string,
    description: Option<string>,
    priority: Priority,
    deadline: Option<Instant>,
    category: Option<string>,
    tags: seq<string>)
  {
    predicate Valid() { ValidTitle(title) }
  }

  /** A partial update: every field is optional and `None` means "leave alone". */
  datatype TaskUpdate = TaskUpdate(
    title: Option<string>,
    description: Option<string>,
    priority: Option<Priority>,
    deadline: Option<Instant>,
    category: Option<string>,
    tags: Option<seq<string>>,
    status: Option<Status>)
  {
    predicate Valid() { title.Some? ==> ValidTitle(title.value) }

    /** No field is set: `model_dump()` has no non-`None` value. */
    predicate IsEmpty() {
      title.None? && description.None? && priority.None? && deadline.None?
      && category.None? && tags.None? && status.None?
    }
  }

  /** `TaskUpdate()` with every field at its default. */
  const NoUpdate: TaskUpdate := TaskUpdate(None, None, None, None, None, None, None)

  /** Validating constructor of `TaskCreate` from raw client values: an
      omitted priority defaults to medium, an omitted tag list to `[]`, and a
      title of the wrong length or an unknown priority is rejected. */
  function MakeTaskCreate(title: string, description: Option<string>, priority: Option<string>,
                          deadline: Option<Instant>, category: Option<string>,
                          tags: Option<seq<string>>): (r: Option<TaskCreate>)
    ensures r.Some? <==> ValidTitle(title) && (priority.None? || ParsePriority(priority.value).Some?)
    ensures r.Some? ==> r.value.Valid() && r.value.title == title && r.value.description == description
                        && r.value.deadline == deadline && r.value.category == category
    ensures r.Some? ==> r.value.priority == if priority.None? then Medium else ParsePriority(priority.value).value
    ensures r.Some? ==> r.value.tags == if tags.None? then [] else tags.value
  {
    if !ValidTitle(title) then None
    else
      var p := if priority.None? then Some(Medium) else ParsePriority(priority.value);
      if p.None? then None
      else Some(TaskCreate(title, description, p.value, deadline, category, tags.GetOr([])))
  }

  /** `Task(**task_data.model_dump())`: a new task with a fresh id and
      creation time; its status is the default, pending. */
  function FromCreate(c: TaskCreate, id: string, now: Instant): (t: Task)
    ensures t.status == Pending
    ensures t.taskId == id && t.createdAt == now && t.updatedAt == now
    ensures t.title == c.title && t.description == c.description && t.priority == c.priority
    ensures t.deadline == c.deadline && t.category == c.category && t.tags == c.tags
    ensures c.Valid() ==> t.Valid()
  {
    Task(id, c.title, c.description, c.priority, c.deadline, c.category, c.tags, Pending, now, now)
  }
}

=== FILE: task_store.dfy ===
/** The in-memory task store that the task manager falls back to when its
    database is unavailable: a list of task records in insertion order. */
module TaskStore {
  import opened Wrappers
  import opened Seqs
  import opened TaskModel

  /** The fallback store `fallback_tasks`. */
  datatype Store = Store(tasks: seq<Task>)

  /** Every stored task passed validation. */
  predicate ValidStore(s: Store) {
    forall i :: 0 <= i < |s.tasks| ==> s.tasks[i].Valid()
  }

  predicate HasId(t: Task, id: string) { t.taskId == id }

  /** Index of the first task with the given id, if there is one. */
  function FindIndex(tasks: seq<Task>, id: string): (r: Option<nat>)
    ensures r.Some? ==> r.value < |tasks| && tasks[r.value].taskId == id
                        && forall j :: 0 <= j < r.value ==> tasks[j].taskId != id
    ensures r.None? ==> forall j :: 0 <= j < |tasks| ==> tasks[j].taskId != id
  {
    if |tasks| == 0 then None
    else if tasks[0].taskId == id then Some(0)
    else
      var r := FindIndex(tasks[1..], id);
      if r.None? then None else Some(r.value + 1)
  }

  // ---------------------------------------------------------------- create / get

  /** `create_task`: appends the new pending task and returns it. The id and
      the clock reading are inputs (a fresh uuid4 and `utcnow()`). */
  function CreateTask(s: Store, c: TaskCreate, id: string, now: Instant): (r: (Store, Task))
    ensures r.0.tasks == s.tasks + [r.1]
    ensures r.1.status == Pending && r.1.taskId == id && r.1.tags == c.tags && r.1.title == c.title
    ensures ValidStore(s) && c.Valid() ==> ValidStore(r.0)
  {
    var t := FromCreate(c, id, now);
    (Store(s.tasks + [t]), t)
  }

  /** `get_task`: the first task with that id, or `None`. */
  function GetTask(s: Store, id: string): (r: Option<Task>)
    ensures r.Some? <==> exists i :: 0 <= i < |s.tasks| && s.tasks[i].taskId == id
    ensures r.Some? ==> r.value in s.tasks && r.value.taskId == id
  {
    var i := FindIndex(s.tasks, id);
    if i.None? then None else Some(s.tasks[i.value])
  }

  /** Creating a task under a fresh id and then fetching that id returns
      exactly the created task, tags included. */
  lemma {:induction false} CreateThenGet(s: Store, c: TaskCreate, id: string, now: Instant)
    requires forall i :: 0 <= i < |s.tasks| ==> s.tasks[i].taskId != id
    ensures GetTask(CreateTask(s, c, id, now).0, id) == Some(CreateTask(s, c, id, now).1)
    ensures GetTask(CreateTask(s, c, id, now).0, id).value.tags == c.tags
  {
    var r := CreateTask(s, c, id, now);
    assert forall j :: 0 <= j < |s.tasks| ==> r.0.tasks[j] == s.tasks[j];
    assert r.0.tasks[|s.tasks|] == r.1;
  }

  // ---------------------------------------------------------------- list

  /** The optional filters of `list_tasks`. An empty string is no filter,
      since the source tests each filter for truthiness. */
  datatype Filters = Filters(
    status: Option<string>,
    priority: Option<string>,
    category: Option<string>,
    deadlineBefore: Option<Instant>)

  const NoFilters: Filters := Filters(None, None, None, None)

  const DefaultLimit: int := 100

  predicate Set(o: Option<string>) { o.Some? && |o.value| > 0 }

  /** The task passes every supplied filter. */
  predicate Matches(f: Filters, t: Task) {
    && (Set(f.status) ==> StatusName(t.status) == f.status.value)
    && (Set(f.priority) ==> PriorityName(t.priority) == f.priority.value)
    && (Set(f.category) ==> t.category == Some(f.category.value))
    && (f.deadlineBefore.Some? ==> t.deadline.Some? && t.deadline.value <= f.deadlineBefore.value)
  }

  function StatusIs(v: string): Task -> bool { (t: Task) => StatusName(t.status) == v }
  function PriorityIs(v: string): Task -> bool { (t: Task) => PriorityName(t.priority) == v }
  function CategoryIs(v: string): Task -> bool { (t: Task) => t.category == Some(v) }
  function DueBy(d: Instant): Task -> bool { (t: Task) => t.deadline.Some? && t.deadline.value <= d }

  /** `list_tasks`: the filters applied one after another, as the source
      does, then the first `limit` survivors (`filtered[:limit]`). */
  function ListTasks(s: Store, f: Filters, limit: int): seq<Task>
  {
    SliceTo(ByDeadline(ByCategory(ByPriority(ByStatus(s.tasks, f), f), f), f), limit)
  }

  function ByStatus(ts: seq<Task>, f: Filters): seq<Task> {
    if Set(f.status) then Filter(ts, StatusIs(f.status.value)) else ts
  }

  function ByPriority(ts: seq<Task>, f: Filters): seq<Task> {
    if Set(f.priority) then Filter(ts, PriorityIs(f.priority.value)) else ts
  }

  function ByCategory(ts: seq<Task>, f: Filters): seq<Task> {
    if Set(f.category) then Filter(ts, CategoryIs(f.category.value)) else ts
  }

  function ByDeadline(ts: seq<Task>, f: Filters): seq<Task> {
    if f.deadlineBefore.Some? then Filter(ts, DueBy(f.deadlineBefore.value)) else ts
  }

  /** The filters supplied so far, as predicates on tasks. */
  function UpToStatus(f: Filters): Task -> bool {
    (t: Task) => Set(f.status) ==> StatusIs(f.status.value)(t)
  }

  function UpToPriority(f: Filters): Task -> bool {
    (t: Task) => UpToStatus(f)(t) && (Set(f.priority) ==> PriorityIs(f.priority.value)(t))
  }

  function UpToCategory(f: Filters): Task -> bool {
    (t: Task) => UpToPriority(f)(t) && (Set(f.category) ==> CategoryIs(f.category.value)(t))
  }

  function MatchesAll(f: Filters): Task -> bool {
    (t: Task) => Matches(f, t)
  }

  /** Applying a filter only when it is supplied, to the survivors of the
      earlier filters, is filtering by the conjunction so far. */
  lemma StepFilter(s: seq<Task>, prev: seq<Task>, on: bool, p: Task -> bool, acc: Task -> bool, next: Task -> bool)
    requires prev == Filter(s, acc)
    requires forall t :: next(t) == (acc(t) && (on ==> p(t)))
    ensures (if on then Filter(prev, p) else prev) == Filter(s, next)
  {
    if on {
      FilterTwice(s, acc, p, next);
    } else {
      FilterSame(s, acc, next);
    }
  }

  lemma StatusStage(ts: seq<Task>, f: Filters)
    ensures ByStatus(ts, f) == Filter(ts, UpToStatus(f))
  {
    var all := (t: Task) => true;
    FilterAll(ts, all);
    StepFilter(ts, ts, Set(f.status), StatusIs(f.status.GetOr("")), all, UpToStatus(f));
  }

  lemma PriorityStage(ts: seq<Task>, f: Filters)
    ensures ByPriority(ByStatus(ts, f), f) == Filter(ts, UpToPriority(f))
  {
    StatusStage(ts, f);
    StepFilter(ts, ByStatus(ts, f), Set(f.priority), PriorityIs(f.priority.GetOr("")), UpToStatus(f), UpToPriority(f));
  }

  lemma CategoryStage(ts: seq<Task>, f: Filters)
    ensures ByCategory(ByPriority(ByStatus(ts, f), f), f) == Filter(ts, UpToCategory(f))
  {
    PriorityStage(ts, f);
    StepFilter(ts, ByPriority(ByStatus(ts, f), f), Set(f.category), CategoryIs(f.category.GetOr("")),
               UpToPriority(f), UpToCategory(f));
  }

  lemma DeadlineStage(ts: seq<Task>, f: Filters)
    ensures ByDeadline(ByCategory(ByPriority(ByStatus(ts, f), f), f), f) == Filter(ts, MatchesAll(f))
  {
    CategoryStage(ts, f);
    forall t: Task ensures MatchesAll(f)(t) == (UpToCategory(f)(t) && (f.deadlineBefore.Some? ==> DueBy(f.deadlineBefore.GetOr(0))(t))) {
      assert UpToPriority(f)(t) == (UpToStatus(f)(t) && (Set(f.priority) ==> PriorityIs(f.priority.value)(t)));
    }
    StepFilter(ts, ByCategory(ByPriority(ByStatus(ts, f), f), f), f.deadlineBefore.Some?, DueBy(f.deadlineBefore.GetOr(0)),
               UpToCategory(f), MatchesAll(f));
  }

  /** `list_tasks` returns, in insertion order, the first `limit` (Python
      slice semantics) of the tasks that match every supplied filter. */
  lemma ListTasksSelects(s: Store, f: Filters, limit: int)
    ensures ListTasks(s, f, limit) == SliceTo(Filter(s.tasks, MatchesAll(f)), limit)
  {
    DeadlineStage(s.tasks, f);
  }

  /** What the caller can rely on from `list_tasks`: every returned task is
      stored and matches every filter, there are at most `limit` of them, and
      with a non-negative limit no matching task is missed while fewer than
      `limit` have been returned. */
  lemma ListTasksContract(s: Store, f: Filters, limit: int)
    ensures forall t :: t in ListTasks(s, f, limit) ==> t in s.tasks && Matches(f, t)
    ensures limit >= 0 ==> |ListTasks(s, f, limit)| <= limit
    ensures limit >= 0 && |ListTasks(s, f, limit)| < limit ==>
              forall t :: t in s.tasks && Matches(f, t) ==> t in ListTasks(s, f, limit)
  {
    ListTasksSelects(s, f, limit);
    var all := Filter(s.tasks, MatchesAll(f));
    assert ListTasks(s, f, limit) == all[..SliceIndex(|all|, limit)];
    forall t | t in ListTasks(s, f, limit) ensures t in s.tasks && Matches(f, t) {
      assert t in all;
    }
  }

  // ---------------------------------------------------------------- update

  /** The task with the supplied fields of `u` overwritten and `updated_at` set. */
  function ApplyUpdate(t: Task, u: TaskUpdate, now: Instant): Task {
    t.(title := u.title.GetOr(t.title),
       description := if u.description.Some? then u.description else t.description,
       priority := u.priority.GetOr(t.priority),
       deadline := if u.deadline.Some? then u.deadline else t.deadline,
       category := if u.category.Some? then u.category else t.category,
       tags := u.tags.GetOr(t.tags),
       status := u.status.GetOr(t.status),
       updatedAt := now)
  }

  /** `update_task`: with no field supplied, the store is untouched and the
      result is `get_task(id)`; otherwise the first task with that id gets the
      supplied fields and a new `updated_at`, or the result is `None`. */
  function UpdateTask(s: Store, id: string, u: TaskUpdate, now: Instant): (r: (Store, Option<Task>))
    ensures u.IsEmpty() ==> r == (s, GetTask(s, id))
    ensures !u.IsEmpty() && GetTask(s, id).None? ==> r == (s, None)
    ensures !u.IsEmpty() && GetTask(s, id).Some? ==>
              var i := FindIndex(s.tasks, id).value;
              && |r.0.tasks| == |s.tasks|
              && r.1 == Some(r.0.tasks[i])
              && (forall j :: 0 <= j < |s.tasks| && j != i ==> r.0.tasks[j] == s.tasks[j])
  {
    if u.IsEmpty() then (s, GetTask(s, id))
    else
      var i := FindIndex(s.tasks, id);
      if i.None? then (s, None)
      else
        var t := ApplyUpdate(s.tasks[i.value], u, now);
        (Store(s.tasks[i.value := t]), Some(t))
  }

  /** The updated task differs from the original exactly in the supplied
      fields and `updated_at`: supplied fields take the new values, the rest
      and the id keep theirs. */
  lemma UpdateOverwritesSuppliedFields(s: Store, id: string, u: TaskUpdate, now: Instant)
    requires !u.IsEmpty() && GetTask(s, id).Some?
    ensures var old_ := GetTask(s, id).value;
            var r := UpdateTask(s, id, u, now).1.value;
            && r.taskId == id && r.createdAt == old_.createdAt && r.updatedAt == now
            && r.title == (if u.title.Some? then u.title.value else old_.title)
            && r.description == (if u.description.Some? then u.description else old_.description)
            && r.priority == (if u.priority.Some? then u.priority.value else old_.priority)
            && r.deadline == (if u.deadline.Some? then u.deadline else old_.deadline)
            && r.category == (if u.category.Some? then u.category else old_.category)
            && r.tags == (if u.tags.Some? then u.tags.value else old_.tags)
            && r.status == (if u.status.Some? then u.status.value else old_.status)
  {
  }

  /** A valid update of a valid store leaves a valid store. */
  lemma UpdateKeepsValid(s: Store, id: string, u: TaskUpdate, now: Instant)
    requires ValidStore(s) && u.Valid()
    ensures ValidStore(UpdateTask(s, id, u, now).0)
  {
  }

  // ---------------------------------------------------------------- delete

  /** `delete_task`: removes every task with that id and reports whether the
      list got shorter. */
  function DeleteTask(s: Store, id: string): (r: (Store, bool))
    ensures r.0.tasks == Filter(s.tasks, (t: Task) => t.taskId != id)
    ensures forall t :: t in r.0.tasks ==> t.taskId != id
    ensures forall t :: t in s.tasks && t.taskId != id ==> t in r.0.tasks
    ensures r.1 <==> exists i :: 0 <= i < |s.tasks| && s.tasks[i].taskId == id
  {
    var kept := Filter(s.tasks, (t: Task) => t.taskId != id);
    DeleteShrinks(s.tasks, id);
    (Store(kept), |kept| < |s.tasks|)
  }

  /** Dropping the tasks with an id shortens the list exactly when one had it. */
  lemma {:induction false} DeleteShrinks(tasks: seq<Task>, id: string)
    ensures |Filter(tasks, (t: Task) => t.taskId != id)| < |tasks|
            <==> exists i :: 0 <= i < |tasks| && tasks[i].taskId == id
  {
    if |tasks| > 0 {
      DeleteShrinks(tasks[1..], id);
      if tasks[0].taskId != id {
        forall i | 0 <= i < |tasks[1..]| && tasks[1..][i].taskId == id
          ensures exists j :: 0 <= j < |tasks| && tasks[j].taskId == id
        {
          assert tasks[i + 1] == tasks[1..][i];
        }
        forall i | 0 <= i < |tasks| && tasks[i].taskId == id
          ensures exists j :: 0 <= j < |tasks[1..]| && tasks[1..][j].taskId == id
        {
          assert tasks[1..][i - 1] == tasks[i];
        }
      }
    }
  }

  /** After deleting an id, fetching it yields nothing. */
  lemma DeleteThenGet(s: Store, id: string)
    ensures GetTask(DeleteTask(s, id).0, id).None?
  {
    var r := DeleteTask(s, id).0;
    forall i | 0 <= i < |r.tasks| ensures r.tasks[i].taskId != id {
      assert r.tasks[i] in r.tasks;
    }
  }

  // ---------------------------------------------------------------- upcoming

  const SecondsPerDay: int := 86400

  /** Whether a task counts as upcoming by `horizon`: it has a deadline no
      later than the horizon and it is not completed. */
  predicate Upcoming(t: Task, horizon: Instant) {
    t.deadline.Some? && t.deadline.value <= horizon && t.status != Completed
  }

  function UpcomingBy(horizon: Instant): Task -> bool {
    (t: Task) => Upcoming(t, horizon)
  }

  /** The deadline a task sorts by; upcoming tasks all have one. */
  function SortKey(t: Task): Instant {
    if t.deadline.Some? then t.deadline.value else 0
  }

  predicate SortedByDeadline(ts: seq<Task>) {
    forall i, j :: 0 <= i < j < |ts| ==> SortKey(ts[i]) <= SortKey(ts[j])
  }

  /** The index of the first element whose deadline is not earlier than `t`'s. */
  function InsertionPoint(t: Task, sorted: seq<Task>): (k: nat)
    ensures k <= |sorted|
    ensures forall i :: 0 <= i < k ==> SortKey(sorted[i]) < SortKey(t)
    ensures k < |sorted| ==> SortKey(t) <= SortKey(sorted[k])
  {
    if |sorted| == 0 || SortKey(t) <= SortKey(sorted[0]) then 0
    else 1 + InsertionPoint(t, sorted[1..])
  }

  /** Inserts `t` before the first element with a later-or-equal deadline. */
  function Insert(t: Task, sorted: seq<Task>): (r: seq<Task>)
    requires SortedByDeadline(sorted)
    ensures SortedByDeadline(r)
    ensures multiset(r) == multiset(sorted) + multiset{t}
  {
    var k := InsertionPoint(t, sorted);
    InsertKeepsOrder(t, sorted, k);
    InsertAddsOne(t, sorted, k);
    sorted[..k] + [t] + sorted[k..]
  }

  /** Putting `t` between the earlier and the later-or-equal deadlines keeps
      the order. */
  lemma InsertKeepsOrder(t: Task, sorted: seq<Task>, k: nat)
    requires SortedByDeadline(sorted) && k <= |sorted|
    requires forall i :: 0 <= i < k ==> SortKey(sorted[i]) < SortKey(t)
    requires k < |sorted| ==> SortKey(t) <= SortKey(sorted[k])
    ensures SortedByDeadline(sorted[..k] + [t] + sorted[k..])
  {
    var r := sorted[..k] + [t] + sorted[k..];
    assert forall i :: 0 <= i < |r| ==> r[i] == if i < k then sorted[i] else if i == k then t else sorted[i - 1];
  }

  /** Inserting adds exactly one occurrence of `t`. */
  lemma InsertAddsOne(t: Task, sorted: seq<Task>, k: nat)
    requires k <= |sorted|
    ensures multiset(sorted[..k] + [t] + sorted[k..]) == multiset(sorted) + multiset{t}
  {
    assert sorted == sorted[..k] + sorted[k..];
  }

  /** A stable sort by deadline (the source's `list.sort` with a key). */
  function SortByDeadline(ts: seq<Task>): (r: seq<Task>)
    ensures SortedByDeadline(r)
    ensures multiset(r) == multiset(ts)
  {
    if |ts| == 0 then []
    else
      assert ts == [ts[0]] + ts[1..];
      Insert(ts[0], SortByDeadline(ts[1..]))
  }

  /** The tasks of `ts` whose deadline key is `x`, in their order in `ts`. */
  function WithKey(ts: seq<Task>, x: Instant): seq<Task>
    decreases |ts|
  {
    if |ts| == 0 then []
    else (if SortKey(ts[0]) == x then [ts[0]] else []) + WithKey(ts[1..], x)
  }

  lemma {:induction false} WithKeyAppend(a: seq<Task>, b: seq<Task>, x: Instant)
    ensures WithKey(a + b, x) == WithKey(a, x) + WithKey(b, x)
    decreases |a|
  {
    if |a| == 0 {
      assert a + b == b;
    } else {
      var h := if SortKey(a[0]) == x then [a[0]] else [];
      assert (a + b)[0] == a[0];
      assert (a + b)[1..] == a[1..] + b;
      assert WithKey(a + b, x) == h + WithKey(a[1..] + b, x);
      WithKeyAppend(a[1..], b, x);
      assert WithKey(a, x) == h + WithKey(a[1..], x);
    }
  }

  lemma {:induction false} WithKeyNone(a: seq<Task>, x: Instant)
    requires forall i :: 0 <= i < |a| ==> SortKey(a[i]) != x
    ensures WithKey(a, x) == []
    decreases |a|
  {
    if |a| > 0 {
      WithKeyNone(a[1..], x);
    }
  }

  /** Putting `t` after tasks with earlier deadlines only puts it ahead of
      the tasks with its own deadline. */
  lemma KeyedSplice(front: seq<Task>, t: Task, back: seq<Task>, x: Instant)
    requires forall i :: 0 <= i < |front| ==> SortKey(front[i]) < SortKey(t)
    ensures WithKey(front + ([t] + back), x) == (if SortKey(t) == x then [t] else []) + WithKey(front + back, x)
  {
    var h := if SortKey(t) == x then [t] else [];
    WithKeyAppend(front, [t] + back, x);
    WithKeyAppend([t], back, x);
    assert WithKey([t], x) == h + WithKey([], x);
    WithKeyAppend(front, back, x);
    if SortKey(t) == x {
      WithKeyNone(front, x);
    }
  }

  /** Inserting `t` puts it ahead of the tasks with its own deadline. */
  lemma InsertFirstOfKey(t: Task, sorted: seq<Task>, x: Instant)
    requires SortedByDeadline(sorted)
    ensures WithKey(Insert(t, sorted), x) == (if SortKey(t) == x then [t] else []) + WithKey(sorted, x)
  {
    var k := InsertionPoint(t, sorted);
    assert Insert(t, sorted) == sorted[..k] + ([t] + sorted[k..]);
    assert sorted == sorted[..k] + sorted[k..];
    KeyedSplice(sorted[..k], t, sorted[k..], x);
  }

  /** The sort is stable, as Python's `sorted` is: the tasks sharing a
      deadline come out in the order they went in. */
  lemma {:induction false} SortByDeadlineStable(ts: seq<Task>, x: Instant)
    ensures WithKey(SortByDeadline(ts), x) == WithKey(ts, x)
    decreases |ts|
  {
    if |ts| > 0 {
      SortByDeadlineStable(ts[1..], x);
      InsertFirstOfKey(ts[0], SortByDeadline(ts[1..]), x);
    }
  }

  /** `get_upcoming_tasks(days)` at time `now`: the tasks due within `days`
      days that are not completed, earliest deadline first. */
  function UpcomingTasks(s: Store, now: Instant, days: int): (r: seq<Task>)
    ensures SortedByDeadline(r)
    ensures multiset(r) == multiset(Filter(s.tasks, UpcomingBy(now + days * SecondsPerDay)))
    ensures forall t :: t in r <==> t in s.tasks && Upcoming(t, now + days * SecondsPerDay)
  {
    var due := Filter(s.tasks, UpcomingBy(now + days * SecondsPerDay));
    var r := SortByDeadline(due);
    SameElements(r, due);
    r
  }

  /** Sequences with equal multisets have the same members. */
  lemma SameElements(a: seq<Task>, b: seq<Task>)
    requires multiset(a) == multiset(b)
    ensures forall t :: t in a <==> t in b
  {
    forall t ensures t in a <==> t in b {
      assert t in a <==> t in multiset(a);
      assert t in b <==> t in multiset(b);
    }
  }

  // ---------------------------------------------------------------- statistics

  /** The fallback result of `get_statistics`. */
  datatype Statistics = Statistics(
    totalTasks: nat,
    byStatus: map<Status, nat>,
    byPriority: map<Priority, nat>,
    pending: nat,
    inProgress: nat,
    completed: nat)

  function CountStatus(ts: seq<Task>, st: Status): nat {
    Count(ts, (t: Task) => t.status == st)
  }

  function CountPriority(ts: seq<Task>, p: Priority): nat {
    Count(ts, (t: Task) => t.priority == p)
  }

  /** `counts.get(k, 0)`. */
  function GetCount<K>(m: map<K, nat>, k: K): nat {
    if k in m then m[k] else 0
  }

  /** Counting one more task by status: the prefix count grows by one for its status only. */
  lemma CountStatusStep(ts: seq<Task>, i: nat, st: Status)
    requires i < |ts|
    ensures CountStatus(ts[..i + 1], st) == CountStatus(ts[..i], st) + (if ts[i].status == st then 1 else 0)
  {
    FilterAppend(ts[..i], ts[i], (t: Task) => t.status == st);
    assert ts[..i + 1] == ts[..i] + [ts[i]];
  }

  lemma CountPriorityStep(ts: seq<Task>, i: nat, p: Priority)
    requires i < |ts|
    ensures CountPriority(ts[..i + 1], p) == CountPriority(ts[..i], p) + (if ts[i].priority == p then 1 else 0)
  {
    FilterAppend(ts[..i], ts[i], (t: Task) => t.priority == p);
    assert ts[..i + 1] == ts[..i] + [ts[i]];
  }

  /** Counting task `i` by status keeps the map equal to the prefix counts. */
  lemma TallyStatus(ts: seq<Task>, i: nat, m: map<Status, nat>)
    requires i < |ts|
    requires forall st :: st in m <==> CountStatus(ts[..i], st) > 0
    requires forall st :: GetCount(m, st) == CountStatus(ts[..i], st)
    ensures var m1 := m[ts[i].status := GetCount(m, ts[i].status) + 1];
            (forall st :: st in m1 <==> CountStatus(ts[..i + 1], st) > 0)
            && (forall st :: GetCount(m1, st) == CountStatus(ts[..i + 1], st))
  {
    forall st ensures CountStatus(ts[..i + 1], st) == CountStatus(ts[..i], st) + (if ts[i].status == st then 1 else 0) {
      CountStatusStep(ts, i, st);
    }
  }

  /** Counting task `i` by priority keeps the map equal to the prefix counts. */
  lemma TallyPriority(ts: seq<Task>, i: nat, m: map<Priority, nat>)
    requires i < |ts|
    requires forall p :: p in m <==> CountPriority(ts[..i], p) > 0
    requires forall p :: GetCount(m, p) == CountPriority(ts[..i], p)
    ensures var m1 := m[ts[i].priority := GetCount(m, ts[i].priority) + 1];
            (forall p :: p in m1 <==> CountPriority(ts[..i + 1], p) > 0)
            && (forall p :: GetCount(m1, p) == CountPriority(ts[..i + 1], p))
  {
    forall p ensures CountPriority(ts[..i + 1], p) == CountPriority(ts[..i], p) + (if ts[i].priority == p then 1 else 0) {
      CountPriorityStep(ts, i, p);
    }
  }

  /** Every task has exactly one of the three statuses, so the three counts add up. */
  lemma {:induction false} StatusCountsSum(ts: seq<Task>)
    ensures CountStatus(ts, Pending) + CountStatus(ts, InProgress) + CountStatus(ts, Completed) == |ts|
  {
    if |ts| > 0 {
      StatusCountsSum(ts[1..]);
    }
  }

  /** Every task has exactly one of the three priorities, so the three counts add up. */
  lemma {:induction false} PriorityCountsSum(ts: seq<Task>)
    ensures CountPriority(ts, High) + CountPriority(ts, Medium) + CountPriority(ts, Low) == |ts|
  {
    if |ts| > 0 {
      PriorityCountsSum(ts[1..]);
    }
  }

  /** `get_statistics` on the fallback store: one pass over the tasks
      counting by status and by priority. A status or priority appears as a
      key only if some task has it, and its count is the number of such tasks. */
  method GetStatistics(s: Store) returns (r: Statistics)
    ensures r.totalTasks == |s.tasks|
    ensures forall st :: st in r.byStatus <==> CountStatus(s.tasks, st) > 0
    ensures forall st :: GetCount(r.byStatus, st) == CountStatus(s.tasks, st)
    ensures forall p :: p in r.byPriority <==> CountPriority(s.tasks, p) > 0
    ensures forall p :: GetCount(r.byPriority, p) == CountPriority(s.tasks, p)
    ensures r.pending == CountStatus(s.tasks, Pending)
    ensures r.inProgress == CountStatus(s.tasks, InProgress)
    ensures r.completed == CountStatus(s.tasks, Completed)
    ensures r.pending + r.inProgress + r.completed == r.totalTasks
  {
    var byStatus: map<Status, nat> := map[];
    var byPriority: map<Priority, nat> := map[];
    var i := 0;
    while i < |s.tasks|
      invariant 0 <= i <= |s.tasks|
      invariant forall st :: st in byStatus <==> CountStatus(s.tasks[..i], st) > 0
      invariant forall st :: GetCount(byStatus, st) == CountStatus(s.tasks[..i], st)
      invariant forall p :: p in byPriority <==> CountPriority(s.tasks[..i], p) > 0
      invariant forall p :: GetCount(byPriority, p) == CountPriority(s.tasks[..i], p)
    {
      var t := s.tasks[i];
      TallyStatus(s.tasks, i, byStatus);
      TallyPriority(s.tasks, i, byPriority);
      byStatus := byStatus[t.status := GetCount(byStatus, t.status) + 1];
      byPriority := byPriority[t.priority := GetCount(byPriority, t.priority) + 1];
      i := i + 1;
    }
    assert s.tasks[..i] == s.tasks;
    StatusCountsSum(s.tasks);
    r := Statistics(|s.tasks|, byStatus, byPriority,
                    GetCount(byStatus, Pending), GetCount(byStatus, InProgress), GetCount(byStatus, Completed));
  }

  /** The by-status counts, and likewise the by-priority counts, add up to the total. */
  lemma StatisticsSum(s: Store)
    ensures CountStatus(s.tasks, Pending) + CountStatus(s.tasks, InProgress) + CountStatus(s.tasks, Completed) == |s.tasks|
    ensures CountPriority(s.tasks, High) + CountPriority(s.tasks, Medium) + CountPriority(s.tasks, Low) == |s.tasks|
  {
    StatusCountsSum(s.tasks);
    PriorityCountsSum(s.tasks);
  }
}

=== FILE: text.dfy ===
/** String operations of Python's `str` that the source relies on, over
    `string` (a sequence of Unicode scalar values). Case mapping and the
    character class `\d` are modelled on ASCII; whitespace is Python's full
    set. */
module Text {

  predicate IsUpper(c: char) { 'A' <= c <= 'Z' }
  predicate IsLower(c: char) { 'a' <= c <= 'z' }
  predicate IsLetter(c: char) { IsUpper(c) || IsLower(c) }
  predicate IsDigit(c: char) { '0' <= c <= '9' }
  predicate IsAlnum(c: char) { IsLetter(c) || IsDigit(c) }
  /** Python's `str.isspace()`, which is also what `\s` matches and what
      `str.strip()` removes: the ASCII controls tab to carriage return, the
      four separators U+001C to U+001F, the space, and the Unicode spaces
      and line separators. */
  predicate IsSpace(c: char) {
    '\t' <= c <= '\r' || '\U{001C}' <= c <= ' '
    || c == '\U{0085}' || c == '\U{00A0}' || c == '\U{1680}'
    || '\U{2000}' <= c <= '\U{200A}'
    || c == '\U{2028}' || c == '\U{2029}' || c == '\U{202F}' || c == '\U{205F}' || c == '\U{3000}'
  }

  /** The same characters as a set, for `Strip`. */
  const Whitespace: set<char> := {
    '\t', '\n', '\U{000B}', '\U{000C}', '\r',
    '\U{001C}', '\U{001D}', '\U{001E}', '\U{001F}', ' ',
    '\U{0085}', '\U{00A0}', '\U{1680}',
    '\U{2000}', '\U{2001}', '\U{2002}', '\U{2003}', '\U{2004}', '\U{2005}',
    '\U{2006}', '\U{2007}', '\U{2008}', '\U{2009}', '\U{200A}',
    '\U{2028}', '\U{2029}', '\U{202F}', '\U{205F}', '\U{3000}'
  }

  lemma WhitespaceIsSpace(c: char)
    ensures c in Whitespace <==> IsSpace(c)
  {
  }

  function LowerChar(c: char): char {
    if IsUpper(c) then (c as int + 32) as char else c
  }

  function UpperChar(c: char): char {
    if IsLower(c) then (c as int - 32) as char else c
  }

  /** `s.lower()`. */
  function Lower(s: string): (r: string)
    ensures |r| == |s|
    ensures forall i :: 0 <= i < |s| ==> r[i] == LowerChar(s[i])
  {
    if |s| == 0 then "" else [LowerChar(s[0])] + Lower(s[1..])
  }

  /** `s.startswith(p)`. */
  predicate StartsWith(s: string, p: string) {
    |p| <= |s| && s[..|p|] == p
  }

  /** `s.endswith(p)`. */
  predicate EndsWith(s: string, p: string) {
    |p| <= |s| && s[|s| - |p|..] == p
  }

  /** `sub` occurs in `s` starting at index `i`. */
  predicate OccursAt(s: string, sub: string, i: int) {
    0 <= i <= |s| - |sub| && s[i..i + |sub|] == sub
  }

  /** `sub in s`, scanning `s` from the left. */
  predicate Contains(s: string, sub: string)
    decreases |s|
  {
    StartsWith(s, sub) || (|s| > 0 && Contains(s[1..], sub))
  }

  /** `sub in s` holds exactly when `sub` occurs at some index of `s`. */
  lemma {:induction false} ContainsIff(s: string, sub: string)
    ensures Contains(s, sub) <==> exists i :: OccursAt(s, sub, i)
    decreases |s|
  {
    if StartsWith(s, sub) {
      assert OccursAt(s, sub, 0);
    } else if |s| > 0 {
      ContainsIff(s[1..], sub);
      if Contains(s[1..], sub) {
        var i :| OccursAt(s[1..], sub, i);
        assert s[i + 1..i + 1 + |sub|] == s[1..][i..i + |sub|];
        assert OccursAt(s, sub, i + 1);
      } else {
        forall i | OccursAt(s, sub, i) ensures false {
          if i > 0 {
            assert s[1..][i - 1..i - 1 + |sub|] == s[i..i + |sub|];
            assert OccursAt(s[1..], sub, i - 1);
          }
        }
      }
    } else {
      assert !exists i :: OccursAt(s, sub, i);
    }
  }

  /** An occurrence at a known index makes `sub in s` true. */
  lemma ContainsAt(s: string, sub: string, i: int)
    requires OccursAt(s, sub, i)
    ensures Contains(s, sub)
  {
    ContainsIff(s, sub);
  }

  /** `any(w in s for w in words)`. */
  predicate ContainsAny(s: string, words: seq<string>) {
    exists k :: 0 <= k < |words| && Contains(s, words[k])
  }

  /** A string occurring in `s` also occurs in `s` extended on either side. */
  lemma ContainsExtended(a: string, s: string, b: string, sub: string)
    requires Contains(s, sub)
    ensures Contains(a + s + b, sub)
  {
    ContainsIff(s, sub);
    var i :| OccursAt(s, sub, i);
    assert (a + s + b)[|a| + i..|a| + i + |sub|] == sub;
    ContainsAt(a + s + b, sub, |a| + i);
  }

  /** `sep.join(parts)`. */
  function Join(sep: string, parts: seq<string>): string
  {
    if |parts| == 0 then ""
    else if |parts| == 1 then parts[0]
    else parts[0] + sep + Join(sep, parts[1..])
  }

  /** `"".join(parts)`. */
  function Concat(parts: seq<string>): string
  {
    if |parts| == 0 then "" else parts[0] + Concat(parts[1..])
  }

  /** Every part of a join occurs in the joined string. */
  lemma {:induction false} JoinContainsParts(sep: string, parts: seq<string>, k: int)
    requires 0 <= k < |parts|
    ensures Contains(Join(sep, parts), parts[k])
  {
    var j := Join(sep, parts);
    if |parts| == 1 {
      ContainsAt(j, parts[0], 0);
    } else if k == 0 {
      assert j == parts[0] + (sep + Join(sep, parts[1..]));
      assert j[0..|parts[0]|] == parts[0];
      ContainsAt(j, parts[0], 0);
    } else {
      JoinContainsParts(sep, parts[1..], k - 1);
      assert j == parts[0] + sep + Join(sep, parts[1..]);
      ContainsExtended(parts[0] + sep, Join(sep, parts[1..]), "", parts[k]);
      assert parts[0] + sep + Join(sep, parts[1..]) + "" == j;
    }
  }

  /** Where part `k` begins when `parts` are written one after another with
      `sep` between neighbours. */
  function JoinOffset(sep: string, parts: seq<string>, k: nat): nat
    requires k <= |parts|
  {
    if k == 0 then 0 else JoinOffset(sep, parts, k - 1) + |parts[k - 1]| + |sep|
  }

  /** `text` is exactly `parts` in order with `sep` between neighbours: each
      part at its offset, a separator right after every part but the last,
      and nothing before the first part or after the last. */
  predicate Laid(text: string, sep: string, parts: seq<string>) {
    (|parts| == 0 ==> text == "")
    && (|parts| > 0 ==> |text| == JoinOffset(sep, parts, |parts| - 1) + |parts[|parts| - 1]|)
    && (forall k :: 0 <= k < |parts| ==> OccursAt(text, parts[k], JoinOffset(sep, parts, k)))
    && (forall k :: 0 <= k < |parts| - 1 ==> OccursAt(text, sep, JoinOffset(sep, parts, k) + |parts[k]|))
  }

  /** Dropping the first part moves every later offset back by that part and one separator. */
  lemma {:induction false} JoinOffsetShift(sep: string, parts: seq<string>, k: nat)
    requires 1 <= k <= |parts|
    ensures JoinOffset(sep, parts, k) == |parts[0]| + |sep| + JoinOffset(sep, parts[1..], k - 1)
  {
    if k > 1 {
      JoinOffsetShift(sep, parts, k - 1);
      assert parts[1..][k - 2] == parts[k - 1];
    }
  }

  /** An occurrence keeps its place, shifted, behind a prefix. */
  lemma OccursBehind(a: string, t: string, sub: string, o: int)
    requires OccursAt(t, sub, o)
    ensures OccursAt(a + t, sub, |a| + o)
  {
    assert (a + t)[|a| + o..|a| + o + |sub|] == t[o..o + |sub|];
  }

  /** Part `k` of a join sits at its offset. */
  lemma {:induction false} JoinPartAt(sep: string, parts: seq<string>, k: nat)
    requires k < |parts|
    ensures OccursAt(Join(sep, parts), parts[k], JoinOffset(sep, parts, k))
  {
    var j := Join(sep, parts);
    if k == 0 {
      if |parts| > 1 {
        assert j == parts[0] + (sep + Join(sep, parts[1..]));
      }
      assert j[..|parts[0]|] == parts[0];
    } else {
      var tail := parts[1..];
      JoinPartAt(sep, tail, k - 1);
      JoinOffsetShift(sep, parts, k);
      assert tail[k - 1] == parts[k];
      assert j == (parts[0] + sep) + Join(sep, tail);
      OccursBehind(parts[0] + sep, Join(sep, tail), parts[k], JoinOffset(sep, tail, k - 1));
    }
  }

  /** A separator follows every part of a join but the last. */
  lemma {:induction false} JoinSepAfter(sep: string, parts: seq<string>, k: nat)
    requires k + 1 < |parts|
    ensures OccursAt(Join(sep, parts), sep, JoinOffset(sep, parts, k) + |parts[k]|)
  {
    var tail := parts[1..];
    var t := Join(sep, tail);
    assert Join(sep, parts) == parts[0] + (sep + t);
    if k == 0 {
      assert (sep + t)[..|sep|] == sep;
      OccursBehind(parts[0], sep + t, sep, 0);
    } else {
      JoinSepAfter(sep, tail, k - 1);
      JoinOffsetShift(sep, parts, k);
      assert tail[k - 1] == parts[k];
      assert Join(sep, parts) == (parts[0] + sep) + t;
      OccursBehind(parts[0] + sep, t, sep, JoinOffset(sep, tail, k - 1) + |tail[k - 1]|);
    }
  }

  /** A join ends where its last part ends. */
  lemma {:induction false} JoinLength(sep: string, parts: seq<string>)
    requires |parts| > 0
    ensures |Join(sep, parts)| == JoinOffset(sep, parts, |parts| - 1) + |parts[|parts| - 1]|
  {
    if |parts| > 1 {
      var tail := parts[1..];
      JoinLength(sep, tail);
      JoinOffsetShift(sep, parts, |parts| - 1);
      assert tail[|tail| - 1] == parts[|parts| - 1];
    }
  }

  /** `sep.join(parts)` lays the parts out in order, separated by `sep`. */
  lemma JoinLaid(sep: string, parts: seq<string>)
    ensures Laid(Join(sep, parts), sep, parts)
  {
    if |parts| > 0 {
      JoinLength(sep, parts);
    }
    forall k | 0 <= k < |parts| ensures OccursAt(Join(sep, parts), parts[k], JoinOffset(sep, parts, k)) {
      JoinPartAt(sep, parts, k);
    }
    forall k | 0 <= k < |parts| - 1 ensures OccursAt(Join(sep, parts), sep, JoinOffset(sep, parts, k) + |parts[k]|) {
      JoinSepAfter(sep, parts, k);
    }
  }

  /** Concatenation is the join with the empty separator. */
  lemma {:induction false} ConcatIsJoin(parts: seq<string>)
    ensures Concat(parts) == Join("", parts)
  {
    if |parts| > 1 {
      ConcatIsJoin(parts[1..]);
      assert parts[0] + "" == parts[0];
    } else if |parts| == 1 {
      assert Concat(parts) == parts[0] + Concat([]);
    }
  }

  /** `"".join(parts)` lays the parts out in order, back to back. */
  lemma ConcatLaid(parts: seq<string>)
    ensures Laid(Concat(parts), "", parts)
  {
    ConcatIsJoin(parts);
    JoinLaid("", parts);
  }

  /** Python's `s.strip(chars)`: leading and trailing characters of `chars` removed. */
  function Strip(s: string, chars: set<char>): (r: string)
    ensures |r| <= |s|
    ensures |r| > 0 ==> r[0] !in chars && r[|r| - 1] !in chars
    ensures exists i, j :: 0 <= i <= j <= |s| && r == s[i..j]
                           && (forall k :: 0 <= k < i ==> s[k] in chars)
                           && (forall k :: j <= k < |s| ==> s[k] in chars)
  {
    var l := LeadingCount(s, chars);
    var t := TrailingCount(s[l..], chars);
    s[l..|s| - t]
  }

  /** What `strip` removed: characters of `chars` on either side. */
  lemma StripInfix(s: string, chars: set<char>) returns (front: string, back: string)
    ensures s == front + Strip(s, chars) + back
    ensures forall k :: 0 <= k < |front| ==> front[k] in chars
    ensures forall k :: 0 <= k < |back| ==> back[k] in chars
  {
    var i := LeadingCount(s, chars);
    var rest := s[i..];
    var t := TrailingCount(rest, chars);
    var j := |s| - t;
    assert Strip(s, chars) == s[i..j];
    front, back := s[..i], s[j..];
    forall k | 0 <= k < |back| ensures back[k] in chars {
      assert back[k] == rest[|rest| - t + k];
    }
    assert s == s[..i] + s[i..j] + s[j..];
  }

  /** The number of leading characters of `s` satisfying `p`: the length of
      a greedy `[…]*` match at the start of `s`. */
  function Span(s: string, p: char -> bool): (n: nat)
    ensures n <= |s|
    ensures forall k :: 0 <= k < n ==> p(s[k])
    ensures n < |s| ==> !p(s[n])
  {
    if |s| == 0 || !p(s[0]) then 0 else 1 + Span(s[1..], p)
  }

  /** The number of leading decimal digits of `s`. */
  function DigitRun(s: string): (n: nat)
    ensures n <= |s|
    ensures forall k :: 0 <= k < n ==> IsDigit(s[k])
    ensures n < |s| ==> !IsDigit(s[n])
  {
    if |s| == 0 || !IsDigit(s[0]) then 0 else 1 + DigitRun(s[1..])
  }

  /** The index of the first `c` in `s`, or `|s|` when there is none. */
  function IndexOf(s: string, c: char): (k: nat)
    ensures k <= |s|
    ensures forall j :: 0 <= j < k ==> s[j] != c
    ensures k < |s| ==> s[k] == c
  {
    if |s| == 0 || s[0] == c then 0 else 1 + IndexOf(s[1..], c)
  }

  /** `s.split(sep)` for a one-character separator: the pieces between
      separators, which joined back with the separator give `s`. */
  function Split(s: string, sep: char): (parts: seq<string>)
    ensures |parts| > 0
    ensures forall i :: 0 <= i < |parts| ==> sep !in parts[i]
    ensures Join([sep], parts) == s
    decreases |s|
  {
    var k := IndexOf(s, sep);
    if k == |s| then [s]
    else
      var rest := Split(s[k + 1..], sep);
      assert s == s[..k] + [sep] + s[k + 1..];
      [s[..k]] + rest
  }

  /** The number of leading characters of `s` that belong to `chars`. */
  function LeadingCount(s: string, chars: set<char>): (n: nat)
    ensures n <= |s|
    ensures forall k :: 0 <= k < n ==> s[k] in chars
    ensures n < |s| ==> s[n] !in chars
  {
    if |s| == 0 || s[0] !in chars then 0 else 1 + LeadingCount(s[1..], chars)
  }

  /** The number of trailing characters of `s` that belong to `chars`. */
  function TrailingCount(s: string, chars: set<char>): (n: nat)
    ensures n <= |s|
    ensures forall k :: |s| - n <= k < |s| ==> s[k] in chars
    ensures n < |s| ==> s[|s| - n - 1] !in chars
  {
    if |s| == 0 || s[|s| - 1] !in chars then 0 else 1 + TrailingCount(s[..|s| - 1], chars)
  }

  /** `s.replace(a, b)` for single characters. */
  function ReplaceChar(s: string, a: char, b: char): (r: string)
    ensures |r| == |s|
    ensures forall i :: 0 <= i < |s| ==> r[i] == if s[i] == a then b else s[i]
  {
    if |s| == 0 then "" else [if s[0] == a then b else s[0]] + ReplaceChar(s[1..], a, b)
  }

  /** `s.title()`: a letter is upper-cased when it starts a run of letters and
      lower-cased otherwise. */
  function Title(s: string): (r: string)
    ensures |r| == |s|
    ensures forall i :: 0 <= i < |s| ==>
      r[i] == if i == 0 || !IsLetter(s[i - 1]) then UpperChar(s[i]) else LowerChar(s[i])
  {
    TitleAfter(s, false)
  }

  function TitleAfter(s: string, afterLetter: bool): (r: string)
    ensures |r| == |s|
    ensures |s| > 0 ==> r[0] == if afterLetter then LowerChar(s[0]) else UpperChar(s[0])
    ensures forall i :: 1 <= i < |s| ==>
      r[i] == if IsLetter(s[i - 1]) then LowerChar(s[i]) else UpperChar(s[i])
  {
    if |s| == 0 then ""
    else
      var c := if afterLetter then LowerChar(s[0]) else UpperChar(s[0]);
      var rest := TitleAfter(s[1..], IsLetter(s[0]));
      assert forall i :: 1 <= i < |s| ==> (s[1..])[i - 1] == s[i];
      [c] + rest
  }

  /** The decimal digit for `d < 10`. */
  function DigitChar(d: nat): char
    requires d < 10
  {
    ['0', '1', '2', '3', '4', '5', '6', '7', '8', '9'][d]
  }

  /** `str(n)` for a natural number. */
  function NatToString(n: nat): (r: string)
    ensures |r| > 0
    ensures forall i :: 0 <= i < |r| ==> IsDigit(r[i])
  {
    if n < 10 then [DigitChar(n)] else NatToString(n / 10) + [DigitChar(n % 10)]
  }

  /** `str(i)` for an integer. */
  function IntToString(i: int): string
  {
    if i < 0 then "-" + NatToString(-i) else NatToString(i)
  }

  /** The value of a string of decimal digits. */
  function DigitsValue(s: string): nat
    requires forall i :: 0 <= i < |s| ==> IsDigit(s[i])
  {
    if |s| == 0 then 0
    else
      assert IsDigit(s[|s| - 1]);
      10 * DigitsValue(s[..|s| - 1]) + (s[|s| - 1] as int - '0' as int)
  }

  /** `10 ^ k`. */
  function Pow10(k: nat): (r: nat)
    ensures r > 0
  {
    if k == 0 then 1 else 10 * Pow10(k - 1)
  }
}

=== FILE: values.dfy ===
/** The dynamically typed values that tools hand back to the orchestrator
    (the `result` of a tool output), with Python's truthiness. */
module Values {
  import opened Wrappers
  import opened Text

  /** A Python value as the tools produce it. `VObject` stands for any other
      object (a model instance such as a task), which Python treats as true. */
  datatype Value =
    | VNone
    | VBool(b: bool)
    | VInt(i: int)
    | VReal(r: real)
    | VStr(s: string)
    | VList(items: seq<Value>)
    | VDict(entries: seq<Entry>)
    | VObject(kind: string)

  /** One `key: value` pair of a dictionary, in insertion order. */
  datatype Entry = Entry(key: string, val: Value)

  /** Python truthiness: `None`, `False`, `0`, `0.0`, `""`, `[]` and `{}` are false. */
  predicate Falsy(v: Value) {
    match v
    case VNone => true
    case VBool(b) => !b
    case VInt(i) => i == 0
    case VReal(r) => r == 0.0
    case VStr(s) => |s| == 0
    case VList(items) => |items| == 0
    case VDict(entries) => |entries| == 0
    case VObject(_) => false
  }

  /** The value stored under `key` in a dictionary, if any (`d.get(key)`);
      anything that is not a dictionary has no keys. */
  function Get(v: Value, key: string): Option<Value>
  {
    if v.VDict? then Lookup(v.entries, key) else None
  }

  function Lookup(entries: seq<Entry>, key: string): Option<Value>
  {
    if |entries| == 0 then None
    else if entries[0].key == key then Some(entries[0].val)
    else Lookup(entries[1..], key)
  }

  /** The entry at index `k` answers a lookup of its key when no earlier
      entry has that key. */
  lemma {:induction false} LookupAt(entries: seq<Entry>, k: nat)
    requires k < |entries|
    requires forall j :: 0 <= j < k ==> entries[j].key != entries[k].key
    ensures Lookup(entries, entries[k].key) == Some(entries[k].val)
  {
    if k > 0 {
      assert entries[1..][k - 1] == entries[k];
      LookupAt(entries[1..], k - 1);
    }
  }

  /** `d.get(key, default)`. */
  function GetOr(v: Value, key: string, default: Value): Value {
    Get(v, key).GetOr(default)
  }

  /** `bool(d.get(key))`. */
  predicate Truthy(v: Value, key: string) {
    Get(v, key).Some? && !Falsy(Get(v, key).value)
  }

  /** A dictionary whose first entry has `key` answers `get(key)` with that entry. */
  lemma GetFirst(key: string, val: Value, rest: seq<Entry>)
    ensures Get(VDict([Entry(key, val)] + rest), key) == Some(val)
  {
  }

  /** How a value appears inside an f-string: strings as themselves, `None`,
      booleans and integers as Python prints them, and anything else through
      `render`, the (abstract) `str()` of that value. */
  function Show(v: Value, render: Value -> string): string {
    match v
    case VStr(s) => s
    case VNone => "None"
    case VBool(b) => if b then "True" else "False"
    case VInt(i) => IntToString(i)
    case _ => render(v)
  }

  /** `f"{d.get(key)}"`: a missing key shows as `None`. */
  function ShowField(v: Value, key: string, render: Value -> string): string {
    Show(GetOr(v, key, VNone), render)
  }

  /** The elements a `for` loop visits: the items of a list, nothing otherwise. */
  function Items(v: Value): seq<Value> {
    if v.VList? then v.items else []
  }
}

=== FILE: visualizer.dfy ===
/** The basic matplotlib `Visualizer` (tools/visualizer.py): the keyword gate
    and chart-type choice, the topic-based sample data, and the dispatch of
    `generate_visualization`. Drawing and saving a chart is a parameter
    `Renderer`. The topic classification is shared with the enhanced
    visualizer, whose sample data follows the same topics in the same order. */
module Visualizer {
  import opened Wrappers
  import opened Text
  import opened Values
  import opened Keywords

  /** Words of which one must occur for a request to count as a chart request. */
  const GateWords: seq<string> := [
    "plot", "graph", "chart", "visualize", "show me a",
    "bar chart", "line graph", "pie chart", "scatter plot",
    "histogram", "heatmap", "draw", "display"]

  /** The chart-type chain, tried after the gate. */
  const TypeRules: seq<Rule<string>> := [
    Rule(["bar"], "bar_chart"),
    Rule(["line"], "line_chart"),
    Rule(["pie"], "pie_chart"),
    Rule(["scatter"], "scatter_plot"),
    Rule(["histogram"], "histogram"),
    Rule(["heatmap"], "heatmap")]

  /** `detect_visualization_request`: no type unless a gate word occurs in
      the lower-cased input; otherwise the first matching type, and a line
      chart when none matches. */
  function DetectRequest(userInput: string): (r: Option<string>)
    ensures r.None? <==> !ContainsAny(Lower(userInput), GateWords)
    ensures r.Some? && !AnyRuleFires(Lower(userInput), TypeRules) ==> r.value == "line_chart"
    ensures r.Some? && AnyRuleFires(Lower(userInput), TypeRules) ==>
              r.value == TypeRules[FirstRule(Lower(userInput), TypeRules)].outcome
  {
    var lowered := Lower(userInput);
    FallsThrough(lowered, TypeRules);
    if ContainsAny(lowered, GateWords) then Some(Classify(lowered, TypeRules, "line_chart")) else None
  }

  /** A chart request that mentions "bar" is always a bar chart, whatever
      else it mentions. */
  lemma BarWins(userInput: string)
    requires ContainsAny(Lower(userInput), GateWords)
    requires Contains(Lower(userInput), "bar")
    ensures DetectRequest(userInput) == Some("bar_chart")
  {
    FirstRuleAtMost(Lower(userInput), TypeRules, 0, 0);
  }

  /** Every detected type is one of the six chart types. */
  lemma DetectedTypeKnown(userInput: string)
    requires DetectRequest(userInput).Some?
    ensures DetectRequest(userInput).value in ["bar_chart", "line_chart", "pie_chart", "scatter_plot", "histogram", "heatmap"]
  {
    var lowered := Lower(userInput);
    var k := FirstRule(lowered, TypeRules);
    if k < |TypeRules| {
      assert TypeRules[k].outcome in ["bar_chart", "line_chart", "pie_chart", "scatter_plot", "histogram", "heatmap"];
    }
  }

  // ---------------------------------------------------------------- sample data

  /** The themes the sample data is chosen by. */
  datatype Topic = Sales | Temperature | Revenue | Population | MarketShare | Performance | Generic

  /** The topic chain shared by both visualizers' sample data. */
  const TopicRules: seq<Rule<Topic>> := [
    Rule(["sales"], Sales),
    Rule(["temperature", "weather"], Temperature),
    Rule(["revenue", "profit"], Revenue),
    Rule(["population"], Population),
    Rule(["market share"], MarketShare),
    Rule(["performance", "score"], Performance)]

  /** The topic of a request, from its lower-cased text. */
  function TopicOf(userInput: string): (t: Topic)
    ensures t == Generic <==> !AnyRuleFires(Lower(userInput), TopicRules)
    ensures AnyRuleFires(Lower(userInput), TopicRules) ==>
              t == TopicRules[FirstRule(Lower(userInput), TopicRules)].outcome
  {
    var lowered := Lower(userInput);
    FallsThrough(lowered, TopicRules);
    var k := FirstRule(lowered, TopicRules);
    if k < |TopicRules| then
      assert TopicRules[k].outcome != Generic;
      TopicRules[k].outcome
    else Generic
  }

  /** Sales is the first topic in the chain, so a request that mentions
      sales gets the sales sample whatever other topics it names. */
  lemma SalesWins(userInput: string)
    requires Contains(Lower(userInput), "sales")
    ensures TopicOf(userInput) == Sales
  {
    FirstRuleAtMost(Lower(userInput), TopicRules, 0, 0);
  }

  /** The data dictionary `_extract_data_from_input` returns. */
  datatype ChartData = ChartData(title: string, labels: seq<string>, values: seq<Value>, xlabel: string, ylabel: string) {
    function ToValue(): Value {
      VDict([Entry("title", VStr(title)),
             Entry("labels", VList(seq(|labels|, k requires 0 <= k < |labels| => VStr(labels[k])))),
             Entry("values", VList(values)),
             Entry("xlabel", VStr(xlabel)),
             Entry("ylabel", VStr(ylabel))])
    }
  }

  function Ints(xs: seq<int>): (r: seq<Value>)
    ensures |r| == |xs|
  {
    seq(|xs|, k requires 0 <= k < |xs| => VInt(xs[k]))
  }

  function Reals(xs: seq<real>): (r: seq<Value>)
    ensures |r| == |xs|
  {
    seq(|xs|, k requires 0 <= k < |xs| => VReal(xs[k]))
  }

  /** The sample data for a topic. */
  function TopicData(t: Topic): ChartData {
    match t
    case Sales => ChartData("Sales Data", ["Q1", "Q2", "Q3", "Q4"],
                            Ints([45000, 52000, 48000, 61000]), "Categories", "Values")
    case Temperature => ChartData("Temperature Over Time", ["Mon", "Tue", "Wed", "Thu", "Fri", "Sat", "Sun"],
                                  Ints([22, 24, 23, 25, 26, 24, 23]), "Categories", "Values")
    case Revenue => ChartData("Monthly Revenue", ["Jan", "Feb", "Mar", "Apr", "May", "Jun"],
                              Ints([85000, 90000, 88000, 95000, 102000, 98000]), "Categories", "Values")
    case Population => ChartData("Population Growth", ["2019", "2020", "2021", "2022", "2023"],
                                 Reals([7.5, 7.6, 7.7, 7.8, 7.9]), "Categories", "Values")
    case MarketShare => ChartData("Market Share Distribution", ["Company A", "Company B", "Company C", "Company D", "Others"],
                                  Ints([30, 25, 20, 15, 10]), "Categories", "Values")
    case Performance => ChartData("Performance Scores", ["Test 1", "Test 2", "Test 3", "Test 4", "Test 5"],
                                  Ints([85, 92, 88, 95, 90]), "Categories", "Values")
    case Generic => ChartData("Data Visualization", ["Category A", "Category B", "Category C", "Category D", "Category E"],
                              Ints([23, 45, 56, 78, 32]), "Categories", "Values")
  }

  /** `_extract_data_from_input`: the sample data of the request's topic. */
  function ExtractData(userInput: string): (d: ChartData)
    ensures d == TopicData(TopicOf(userInput))
  {
    TopicData(TopicOf(userInput))
  }

  /** Every topic's sample data has one value per label, at least one of
      each, and the fixed axis labels. */
  lemma SampleDataWellFormed(t: Topic)
    ensures var d := TopicData(t);
            |d.labels| == |d.values| && |d.labels| > 0
            && d.xlabel == "Categories" && d.ylabel == "Values"
  {
  }

  // ---------------------------------------------------------------- generation

  /** The six drawing routines. */
  datatype ChartKind = BarChart | LineChart | PieChart | ScatterPlot | Histogram | Heatmap

  /** The routine `generate_visualization` dispatches to; anything
      unrecognised is drawn as a line chart. */
  function KindOf(vizType: string): (k: ChartKind)
    ensures vizType !in ["bar_chart", "pie_chart", "scatter_plot", "histogram", "heatmap"] ==> k == LineChart
  {
    if vizType == "bar_chart" then BarChart
    else if vizType == "line_chart" then LineChart
    else if vizType == "pie_chart" then PieChart
    else if vizType == "scatter_plot" then ScatterPlot
    else if vizType == "histogram" then Histogram
    else if vizType == "heatmap" then Heatmap
    else LineChart
  }

  /** The `viz_type` naming each kind of chart. */
  function TypeName(k: ChartKind): string {
    match k
    case BarChart => "bar_chart"
    case LineChart => "line_chart"
    case PieChart => "pie_chart"
    case ScatterPlot => "scatter_plot"
    case Histogram => "histogram"
    case Heatmap => "heatmap"
  }

  /** Each kind is drawn for its own type name, so every kind is reachable
      and no two names share a kind. */
  lemma KindOfName(k: ChartKind)
    ensures KindOf(TypeName(k)) == k
  {
  }

  /** Drawing a chart of a kind from a data dictionary and saving it: the
      file path, or what matplotlib or the file system raised. */
  type Renderer = (ChartKind, Value) -> Call<string>

  /** The data a chart is drawn from: the caller's when truthy, otherwise
      the sample data of the request's topic. */
  function DataUsed(userInput: string, data: Value): (used: Value)
    ensures !Falsy(data) ==> used == data
    ensures Falsy(data) ==> used == ExtractData(userInput).ToValue()
  {
    if Falsy(data) then ExtractData(userInput).ToValue() else data
  }

  /** The dictionary reporting a drawing outcome. */
  function Report(outcome: Call<string>, vizType: string, used: Value): (r: Value)
    ensures Get(r, "success") == Some(VBool(outcome.Returned?))
    ensures !Falsy(r)
    ensures outcome.Returned? ==>
              Get(r, "filepath") == Some(VStr(outcome.value))
              && Get(r, "visualization_type") == Some(VStr(vizType))
              && Get(r, "data") == Some(used)
    ensures outcome.Raised? ==> Get(r, "error") == Some(VStr(outcome.fault))
  {
    match outcome
    case Returned(path) =>
      var r := VDict([Entry("success", VBool(true)), Entry("filepath", VStr(path)),
                      Entry("visualization_type", VStr(vizType)), Entry("data", used)]);
      LookupAt(r.entries, 1);
      LookupAt(r.entries, 2);
      LookupAt(r.entries, 3);
      r
    case Raised(e) =>
      var r := VDict([Entry("success", VBool(false)), Entry("error", VStr(e))]);
      LookupAt(r.entries, 1);
      r
  }

  /** `generate_visualization`; `data` is `VNone` when the caller gives none.
      The result reports success exactly when drawing succeeded, and the type
      reported is the one asked for even when it was drawn as a line chart. */
  function Generate(userInput: string, vizType: string, data: Value, render: Renderer): (r: Value)
    ensures var outcome := render(KindOf(vizType), DataUsed(userInput, data));
            Get(r, "success") == Some(VBool(outcome.Returned?))
            && (outcome.Returned? ==>
                  Get(r, "visualization_type") == Some(VStr(vizType))
                  && Get(r, "data") == Some(DataUsed(userInput, data)))
            && (outcome.Raised? ==> Get(r, "error") == Some(VStr(outcome.fault)))
  {
    var used := DataUsed(userInput, data);
    Report(render(KindOf(vizType), used), vizType, used)
  }
}

=== FILE: web_search.dfy ===
/** The string shaping of `WebSearchTool` (tools/web_search.py): the query
    sent to the search service, the payload built from its answer or its
    failure, citation extraction, and the per-source comparison. The HTTP
    call itself is a parameter `Network` that either returns the answer text
    or raises. */
module WebSearch {
  import opened Wrappers
  import opened Text
  import opened Seqs
  import opened Values

  /** The chat-completions call for one query: the answer content, or the
      `str()` of whatever it raised (a transport error, a bad status, a
      missing key in the response). */
  type Network = string -> Call<string>

  /** The query actually sent: the user's query, then the focus clause when
      domains to include are given, then the exclusion clause. */
  function EnhanceQuery(query: string, inDomains: seq<string>, outDomains: seq<string>): (r: string)
    ensures StartsWith(r, query)
    ensures |inDomains| == 0 && |outDomains| == 0 ==> r == query
    ensures forall k :: 0 <= k < |inDomains| ==> Contains(r, inDomains[k])
    ensures forall k :: 0 <= k < |outDomains| ==> Contains(r, outDomains[k])
  {
    var focus := if |inDomains| > 0 then " (focus on sources: " + Join(", ", inDomains) + ")" else "";
    var skip := if |outDomains| > 0 then " (exclude sources: " + Join(", ", outDomains) + ")" else "";
    ClausesMentionDomains(query, inDomains, outDomains, focus, skip);
    query + focus + skip
  }

  /** The focus clause for domains to include. */
  function FocusClause(inDomains: seq<string>): string {
    " (focus on sources: " + Join(", ", inDomains) + ")"
  }

  /** The exclusion clause for domains to leave out. */
  function ExcludeClause(outDomains: seq<string>): string {
    " (exclude sources: " + Join(", ", outDomains) + ")"
  }

  /** Where the clauses go: the focus clause right after the query when
      there are domains to include, the exclusion clause at the very end when
      there are domains to leave out, and nothing else is added. */
  lemma EnhanceQueryClauses(query: string, inDomains: seq<string>, outDomains: seq<string>)
    ensures var r := EnhanceQuery(query, inDomains, outDomains);
            (|inDomains| > 0 ==> OccursAt(r, FocusClause(inDomains), |query|))
            && (|outDomains| > 0 ==> EndsWith(r, ExcludeClause(outDomains)))
            && |r| == |query| + (if |inDomains| > 0 then |FocusClause(inDomains)| else 0)
                              + (if |outDomains| > 0 then |ExcludeClause(outDomains)| else 0)
  {
    var focus := if |inDomains| > 0 then FocusClause(inDomains) else "";
    var skip := if |outDomains| > 0 then ExcludeClause(outDomains) else "";
    var r := EnhanceQuery(query, inDomains, outDomains);
    assert r == query + focus + skip;
    assert r[|query|..|query| + |focus|] == focus;
    assert r[|r| - |skip|..] == skip;
  }

  lemma ClausesMentionDomains(query: string, inDomains: seq<string>, outDomains: seq<string>, focus: string, skip: string)
    requires focus == if |inDomains| > 0 then " (focus on sources: " + Join(", ", inDomains) + ")" else ""
    requires skip == if |outDomains| > 0 then " (exclude sources: " + Join(", ", outDomains) + ")" else ""
    ensures StartsWith(query + focus + skip, query)
    ensures forall k :: 0 <= k < |inDomains| ==> Contains(query + focus + skip, inDomains[k])
    ensures forall k :: 0 <= k < |outDomains| ==> Contains(query + focus + skip, outDomains[k])
  {
    assert (query + focus + skip)[..|query|] == query;
    forall k | 0 <= k < |inDomains| ensures Contains(query + focus + skip, inDomains[k]) {
      JoinContainsParts(", ", inDomains, k);
      ContainsExtended(" (focus on sources: ", Join(", ", inDomains), ")", inDomains[k]);
      ContainsExtended(query, focus, skip, inDomains[k]);
    }
    forall k | 0 <= k < |outDomains| ensures Contains(query + focus + skip, outDomains[k]) {
      JoinContainsParts(", ", outDomains, k);
      ContainsExtended(" (exclude sources: ", Join(", ", outDomains), ")", outDomains[k]);
      ContainsExtended(query + focus, skip, "", outDomains[k]);
      assert query + focus + skip + "" == query + focus + skip;
    }
  }

  // ---------------------------------------------------------------- citations

  /** `[num]` occurs in `text` at index `i`, `num` being one or more digits:
      one match of the pattern `\[(\d+)\]`. */
  predicate CitationAt(text: string, i: int, num: string) {
    0 <= i && i + |num| + 2 <= |text| && |num| > 0
    && text[i] == '[' && text[i + 1..i + 1 + |num|] == num && text[i + 1 + |num|] == ']'
    && forall k :: 0 <= k < |num| ==> IsDigit(num[k])
  }

  /** `num` is cited somewhere in `text`. */
  ghost predicate Cited(text: string, num: string) {
    exists i :: CitationAt(text, i, num)
  }

  /** `re.findall(r'\[(\d+)\]', text)`: the captured numbers, left to right.
      Matches cannot overlap, since a match contains no `[` after its first
      character. */
  function CitationNumbers(text: string): seq<string>
    decreases |text|
  {
    if |text| == 0 then []
    else if text[0] == '[' && 1 + DigitRun(text[1..]) < |text| && DigitRun(text[1..]) > 0
            && text[1 + DigitRun(text[1..])] == ']' then
      [text[1..1 + DigitRun(text[1..])]] + CitationNumbers(text[2 + DigitRun(text[1..])..])
    else CitationNumbers(text[1..])
  }

  /** A match in a suffix is a match in the whole text. */
  lemma CitationShift(text: string, d: nat, i: int, num: string)
    requires d <= |text|
    requires CitationAt(text[d..], i, num)
    ensures CitationAt(text, i + d, num)
  {
    assert text[d..][i + 1..i + 1 + |num|] == text[i + d + 1..i + d + 1 + |num|];
  }

  /** Every number `findall` returns is cited in the text. */
  ghost predicate AllCited(text: string) {
    forall k :: 0 <= k < |CitationNumbers(text)| ==> Cited(text, CitationNumbers(text)[k])
  }

  lemma {:induction false} CitationNumbersSound(text: string)
    ensures forall k :: 0 <= k < |CitationNumbers(text)| ==> Cited(text, CitationNumbers(text)[k])
    decreases |text|
  {
    if |text| > 0 {
      var n := DigitRun(text[1..]);
      if text[0] == '[' && 1 + n < |text| && n > 0 && text[1 + n] == ']' {
        CitationNumbersSound(text[2 + n..]);
        assert AllCited(text[2 + n..]);
        MatchThenRest(text, n);
      } else {
        CitationNumbersSound(text[1..]);
        assert AllCited(text[1..]);
        SkipOne(text);
      }
    }
  }

  /** After a match at the start, the numbers are that match's and those of
      the rest, all cited. */
  lemma MatchThenRest(text: string, n: nat)
    requires 1 + n < |text| && n > 0 && n == DigitRun(text[1..])
    requires text[0] == '[' && text[1 + n] == ']'
    requires AllCited(text[2 + n..])
    ensures AllCited(text)
  {
    var rest := text[2 + n..];
    var r := CitationNumbers(text);
    assert r == [text[1..1 + n]] + CitationNumbers(rest);
    assert forall k :: 0 <= k < n ==> text[1..1 + n][k] == text[1..][k];
    assert CitationAt(text, 0, text[1..1 + n]);
    forall k | 0 <= k < |r| ensures Cited(text, r[k]) {
      if k > 0 {
        assert r[k] == CitationNumbers(rest)[k - 1];
        var i :| CitationAt(rest, i, r[k]);
        CitationShift(text, 2 + n, i, r[k]);
      }
    }
  }

  /** Without a match at the start, the numbers are those after the first
      character, all cited. */
  lemma SkipOne(text: string)
    requires |text| > 0
    requires !(text[0] == '[' && 1 + DigitRun(text[1..]) < |text| && DigitRun(text[1..]) > 0
               && text[1 + DigitRun(text[1..])] == ']')
    requires AllCited(text[1..])
    ensures AllCited(text)
  {
    var r := CitationNumbers(text);
    assert r == CitationNumbers(text[1..]);
    forall k | 0 <= k < |r| ensures Cited(text, r[k]) {
      assert Cited(text[1..], CitationNumbers(text[1..])[k]);
      var i :| CitationAt(text[1..], i, r[k]);
      CitationShift(text, 1, i, r[k]);
    }
  }

  /** A citation at the very start is the match `findall` takes there. */
  lemma MatchAtStart(text: string, num: string)
    requires CitationAt(text, 0, num)
    ensures DigitRun(text[1..]) == |num|
    ensures CitationNumbers(text) == [num] + CitationNumbers(text[2 + |num|..])
  {
    var tail := text[1..];
    assert forall k :: 0 <= k < |num| ==> tail[k] == num[k];
    assert forall k :: 0 <= k < |num| ==> IsDigit(tail[k]);
    assert !IsDigit(tail[|num|]);
    assert text[1..1 + |num|] == num;
  }

  /** How `findall` proceeds past the first character: after a match it
      resumes behind the closing bracket, otherwise one character later. */
  lemma NumbersStep(text: string)
    requires |text| > 0
    ensures var n := DigitRun(text[1..]);
            if text[0] == '[' && 1 + n < |text| && n > 0 && text[1 + n] == ']'
            then CitationNumbers(text) == [text[1..1 + n]] + CitationNumbers(text[2 + n..])
            else CitationNumbers(text) == CitationNumbers(text[1..])
  {
  }

  /** Every cited number is among those `findall` returns. */
  lemma {:induction false} CitationNumbersComplete(text: string, i: int, num: string)
    requires CitationAt(text, i, num)
    ensures num in CitationNumbers(text)
    decreases |text|
  {
    if i == 0 {
      MatchAtStart(text, num);
    } else {
      var d := SkipDistance(text, i, num);
      CitationNumbersComplete(text[d..], i - d, num);
      NumbersStep(text);
    }
  }

  /** How far `findall` advances from the start of `text` when the citation
      at `i > 0` lies ahead: past a match it skips the whole match, which
      ends before `i`, otherwise one character. */
  lemma SkipDistance(text: string, i: int, num: string) returns (d: nat)
    requires CitationAt(text, i, num) && i > 0
    ensures 0 < d <= i && CitationAt(text[d..], i - d, num)
    ensures var n := DigitRun(text[1..]);
            d == if text[0] == '[' && 1 + n < |text| && n > 0 && text[1 + n] == ']' then 2 + n else 1
  {
    var n := DigitRun(text[1..]);
    if text[0] == '[' && 1 + n < |text| && n > 0 && text[1 + n] == ']' {
      NoBracketInRun(text, n);
      assert text[i] == '[';
      d := 2 + n;
    } else {
      d := 1;
    }
    CitationUnshift(text, d, i, num);
  }

  /** The digits after an opening bracket and the closing bracket contain no
      opening bracket. */
  lemma NoBracketInRun(text: string, n: nat)
    requires 1 + n < |text| && n == DigitRun(text[1..]) && text[1 + n] == ']'
    ensures forall k :: 1 <= k <= 1 + n ==> text[k] != '['
  {
    var tail := text[1..];
    forall k | 1 <= k <= n ensures text[k] != '[' {
      assert text[k] == tail[k - 1];
    }
  }

  /** A match behind `d` is a match in the suffix from `d`. */
  lemma CitationUnshift(text: string, d: nat, i: int, num: string)
    requires d <= i
    requires CitationAt(text, i, num)
    ensures CitationAt(text[d..], i - d, num)
  {
    assert text[d..][i - d + 1..i - d + 1 + |num|] == text[i + 1..i + 1 + |num|];
  }

  /** One entry of the citation list. */
  datatype Citation = Citation(title: string, url: string, content: string) {
    function ToValue(): Value {
      VDict([Entry("title", VStr(title)), Entry("url", VStr(url)), Entry("content", VStr(content))])
    }
  }

  /** The entry for citation number `num`. */
  function CitationOf(num: string): Citation {
    Citation("Source " + num, "Cited in response [" + num + "]", "Citation embedded in response")
  }

  /** Different numbers give different entries. */
  lemma CitationOfInjective(a: string, b: string)
    requires CitationOf(a) == CitationOf(b)
    ensures a == b
  {
    assert ("Source " + a)[7..] == a;
    assert ("Source " + b)[7..] == b;
  }

  /** `_extract_citations`: one entry per distinct cited number. Python builds
      the list from a `set`, so its order is unspecified; the model lists the
      numbers in order of first occurrence, and the contract states only
      which entries there are. */
  function ExtractCitations(text: string): (r: seq<Citation>)
    ensures forall num :: Cited(text, num) <==> CitationOf(num) in r
    ensures forall a, b :: 0 <= a < b < |r| ==> r[a] != r[b]
    ensures forall c :: c in r ==> exists num :: c == CitationOf(num) && Cited(text, num)
  {
    var nums := Distinct(CitationNumbers(text));
    var r := seq(|nums|, k requires 0 <= k < |nums| => CitationOf(nums[k]));
    CitationNumbersSound(text);
    CitationsMatchNumbers(text, nums, r);
    r
  }

  lemma CitationsMatchNumbers(text: string, nums: seq<string>, r: seq<Citation>)
    requires forall x :: x in nums <==> x in CitationNumbers(text)
    requires forall a, b :: 0 <= a < b < |nums| ==> nums[a] != nums[b]
    requires forall k :: 0 <= k < |CitationNumbers(text)| ==> Cited(text, CitationNumbers(text)[k])
    requires |r| == |nums| && forall k :: 0 <= k < |r| ==> r[k] == CitationOf(nums[k])
    ensures forall num :: Cited(text, num) <==> CitationOf(num) in r
    ensures forall a, b :: 0 <= a < b < |r| ==> r[a] != r[b]
    ensures forall c :: c in r ==> exists num :: c == CitationOf(num) && Cited(text, num)
  {
    forall c | c in r ensures exists num :: c == CitationOf(num) && Cited(text, num) {
      var k :| 0 <= k < |r| && r[k] == c;
      assert nums[k] in nums;
      var j :| 0 <= j < |CitationNumbers(text)| && CitationNumbers(text)[j] == nums[k];
    }
    forall num ensures Cited(text, num) <==> CitationOf(num) in r {
      if Cited(text, num) {
        var i :| CitationAt(text, i, num);
        CitationNumbersComplete(text, i, num);
        var k :| 0 <= k < |nums| && nums[k] == num;
        assert r[k] == CitationOf(num);
      }
      if CitationOf(num) in r {
        var k :| 0 <= k < |r| && r[k] == CitationOf(num);
        CitationOfInjective(nums[k], num);
        assert nums[k] in nums;
        var j :| 0 <= j < |CitationNumbers(text)| && CitationNumbers(text)[j] == num;
      }
    }
    forall a, b | 0 <= a < b < |r| ensures r[a] != r[b] {
      if r[a] == r[b] {
        CitationOfInjective(nums[a], nums[b]);
      }
    }
  }

  /** Text without any `[digits]` yields no citations, and text with one
      yields at least one. */
  lemma NoCitationsIff(text: string)
    ensures |ExtractCitations(text)| == 0 <==> forall i, num :: !CitationAt(text, i, num)
  {
    var r := ExtractCitations(text);
    if |r| > 0 {
      assert r[0] in r;
      var num :| r[0] == CitationOf(num) && Cited(text, num);
    } else {
      forall i, num ensures !CitationAt(text, i, num) {
        if CitationAt(text, i, num) {
          assert Cited(text, num);
        }
      }
    }
  }

  // ---------------------------------------------------------------- search

  /** What `search` returns: the answer with its citations, or the failure
      payload. */
  datatype SearchResult =
    | Found(query: string, answer: string, results: seq<Citation>)
    | Failed(query: string, error: string)
  {
    /** `result.get("answer")`, which is present in both shapes. */
    function Answer(): string {
      match this
      case Found(_, answer, _) => answer
      case Failed(_, error) => "Search failed: " + error
    }

    /** `result.get("results", [])`. */
    function Results(): seq<Citation> {
      if Found? then results else []
    }

    /** The dictionary `search` returns, keys in source order; `model` is the
        configured model name. */
    function ToValue(model: string): Value {
      match this
      case Found(query, answer, results) =>
        VDict([Entry("query", VStr(query)), Entry("answer", VStr(answer)),
               Entry("results", VList(seq(|results|, k requires 0 <= k < |results| => results[k].ToValue()))),
               Entry("model", VStr(model))])
      case Failed(query, error) =>
        VDict([Entry("query", VStr(query)), Entry("results", VList([])),
               Entry("answer", VStr("Search failed: " + error)), Entry("error", VStr(error))])
    }
  }

  /** `search`: it never raises. The network sees the enhanced query; the
      payload carries the original one. */
  function Search(query: string, inDomains: seq<string>, outDomains: seq<string>, net: Network): (r: SearchResult)
    ensures r.query == query
    ensures r.Found? <==> net(EnhanceQuery(query, inDomains, outDomains)).Returned?
    ensures r.Found? ==> r.answer == net(EnhanceQuery(query, inDomains, outDomains)).value
                         && r.results == ExtractCitations(r.answer)
    ensures r.Failed? ==> r.error == net(EnhanceQuery(query, inDomains, outDomains)).fault
                          && r.Answer() == "Search failed: " + r.error && r.Results() == []
  {
    match net(EnhanceQuery(query, inDomains, outDomains))
    case Returned(answer) => Found(query, answer, ExtractCitations(answer))
    case Raised(e) => Failed(query, e)
  }

  /** The payload's `query`, `answer` and `results` fields agree with the
      accessors the callers use, whichever way the search went. */
  lemma SearchPayloadFields(r: SearchResult, model: string)
    ensures Get(r.ToValue(model), "query") == Some(VStr(r.query))
    ensures Get(r.ToValue(model), "answer") == Some(VStr(r.Answer()))
    ensures r.Failed? ==> Get(r.ToValue(model), "results") == Some(VList([]))
                          && Get(r.ToValue(model), "error") == Some(VStr(r.error))
    ensures !Falsy(r.ToValue(model))
  {
    var e := r.ToValue(model).entries;
    if r.Found? {
      LookupAt(e, 1);
    } else {
      LookupAt(e, 1);
      LookupAt(e, 2);
      assert "error"[0] != "query"[0];
      LookupAt(e, 3);
    }
  }

  /** `get_answer`: the answer of an advanced search for the query. */
  function GetAnswer(query: string, net: Network): (r: string)
    ensures net(query).Returned? ==> r == net(query).value
    ensures net(query).Raised? ==> StartsWith(r, "Search failed: ")
  {
    assert EnhanceQuery(query, [], []) == query;
    var r := Search(query, [], [], net).Answer();
    assert net(query).Raised? ==> r[..15] == "Search failed: ";
    r
  }

  /** `search_news`: the citations found for the query with " news" appended. */
  function SearchNews(query: string, net: Network): (r: seq<Citation>)
    ensures net(query + " news").Raised? ==> r == []
    ensures net(query + " news").Returned? ==>
              forall num :: Cited(net(query + " news").value, num) <==> CitationOf(num) in r
  {
    assert EnhanceQuery(query + " news", [], []) == query + " news";
    Search(query + " news", [], [], net).Results()
  }

  // ---------------------------------------------------------------- comparison

  /** One `source: answer` entry of the comparison dictionary. */
  datatype SourceAnswer = SourceAnswer(source: string, answer: string)

  /** `source in d`. */
  predicate HasSource(d: seq<SourceAnswer>, source: string) {
    exists k :: 0 <= k < |d| && d[k].source == source
  }

  /** The position of `source` in `d`, or -1 when it is not a key. */
  function SourceIndex(d: seq<SourceAnswer>, source: string): (k: int)
    ensures -1 <= k < |d|
    ensures k >= 0 ==> d[k].source == source
    ensures k < 0 <==> !HasSource(d, source)
  {
    if |d| == 0 then -1
    else if d[|d| - 1].source == source then |d| - 1
    else
      var k := SourceIndex(d[..|d| - 1], source);
      assert forall j :: 0 <= j < |d| - 1 ==> d[..|d| - 1][j] == d[j];
      k
  }

  /** A dictionary holds each key once. */
  predicate UniqueSources(d: seq<SourceAnswer>) {
    forall a, b :: 0 <= a < b < |d| ==> d[a].source != d[b].source
  }

  /** `d[source] = answer` on a dictionary kept in insertion order: an existing
      key keeps its position and takes the new value, a new key goes last. */
  function Assign(d: seq<SourceAnswer>, source: string, answer: string): (r: seq<SourceAnswer>)
    requires UniqueSources(d)
    ensures UniqueSources(r)
    ensures HasSource(d, source) ==> |r| == |d|
    ensures !HasSource(d, source) ==> r == d + [SourceAnswer(source, answer)]
    ensures forall k :: 0 <= k < |d| ==> r[k] == if d[k].source == source then SourceAnswer(source, answer) else d[k]
    ensures forall s :: HasSource(r, s) <==> HasSource(d, s) || s == source
  {
    var k := SourceIndex(d, source);
    if k < 0 then
      var r := d + [SourceAnswer(source, answer)];
      assert r[|d|].source == source;
      assert forall s :: HasSource(d, s) ==> HasSource(r, s) by {
        forall s | HasSource(d, s) ensures HasSource(r, s) {
          var j :| 0 <= j < |d| && d[j].source == s;
          assert r[j].source == s;
        }
      }
      r
    else
      var r := d[k := SourceAnswer(source, answer)];
      assert forall j :: 0 <= j < |d| ==> r[j].source == d[j].source;
      r
  }

  /** The answer searching one source gives. */
  function SourceResult(query: string, source: string, net: Network): string {
    Search(query, [source], [], net).Answer()
  }

  /** The dictionary `compare_sources` fills, one search per source in order. */
  function Collect(query: string, sources: seq<string>, net: Network): (r: seq<SourceAnswer>)
    ensures UniqueSources(r)
    ensures forall s :: HasSource(r, s) <==> s in sources
    ensures |r| <= |sources|
    ensures forall k :: 0 <= k < |r| ==> r[k].answer == SourceResult(query, r[k].source, net)
    decreases |sources|
  {
    if |sources| == 0 then []
    else
      var init := sources[..|sources| - 1];
      var prev := Collect(query, init, net);
      var s := sources[|sources| - 1];
      assert sources == init + [s];
      Assign(prev, s, SourceResult(query, s, net))
  }

  /** The position of the first `x` in `xs`, or `|xs|` when there is none. */
  function FirstAt(xs: seq<string>, x: string): (i: nat)
    ensures i <= |xs|
    ensures i < |xs| <==> x in xs
    ensures i < |xs| ==> xs[i] == x
  {
    if |xs| == 0 then 0
    else if xs[0] == x then 0
    else 1 + FirstAt(xs[1..], x)
  }

  /** Appending to a list moves no first occurrence, and a new element's
      first occurrence is the appended one. */
  lemma {:induction false} FirstAtAppend(xs: seq<string>, y: string, x: string)
    ensures x in xs ==> FirstAt(xs + [y], x) == FirstAt(xs, x)
    ensures x !in xs && x == y ==> FirstAt(xs + [y], x) == |xs|
  {
    if |xs| > 0 {
      assert (xs + [y])[1..] == xs[1..] + [y];
      FirstAtAppend(xs[1..], y, x);
    }
  }

  /** The keys of `d` come in the order of their first occurrence in `xs`. */
  predicate InFirstOrder(d: seq<SourceAnswer>, xs: seq<string>) {
    forall i, j :: 0 <= i < j < |d| ==> FirstAt(xs, d[i].source) < FirstAt(xs, d[j].source)
  }

  /** Assigning the next source keeps the keys in first-occurrence order. */
  lemma AssignInFirstOrder(d: seq<SourceAnswer>, xs: seq<string>, source: string, answer: string)
    requires UniqueSources(d)
    requires forall s :: HasSource(d, s) <==> s in xs
    requires InFirstOrder(d, xs)
    ensures InFirstOrder(Assign(d, source, answer), xs + [source])
  {
    var r := Assign(d, source, answer);
    forall k | 0 <= k < |d|
      ensures r[k].source == d[k].source
      ensures FirstAt(xs + [source], d[k].source) == FirstAt(xs, d[k].source)
    {
      assert HasSource(d, d[k].source);
      FirstAtAppend(xs, source, d[k].source);
    }
    if !HasSource(d, source) {
      FirstAtAppend(xs, source, source);
      assert r[|d|].source == source;
    }
  }

  /** The dictionary's keys come in the order of their first occurrence
      among the requested sources, as Python's insertion-ordered `dict`
      keeps them. */
  lemma {:induction false} CollectInOrder(query: string, sources: seq<string>, net: Network)
    ensures InFirstOrder(Collect(query, sources, net), sources)
  {
    if |sources| > 0 {
      var init := sources[..|sources| - 1];
      var s := sources[|sources| - 1];
      assert sources == init + [s];
      var prev := Collect(query, init, net);
      CollectInOrder(query, init, net);
      AssignInFirstOrder(prev, init, s, SourceResult(query, s, net));
    }
  }

  /** One line of `_generate_comparison`. */
  function SummaryLine(e: SourceAnswer): string {
    if |e.answer| > 0 && !StartsWith(e.answer, "Search failed") then e.source + ": Information found"
    else e.source + ": No results"
  }

  /** The line of each entry, in order. */
  function SummaryLines(d: seq<SourceAnswer>): (lines: seq<string>)
    ensures |lines| == |d|
  {
    seq(|d|, k requires 0 <= k < |d| => SummaryLine(d[k]))
  }

  /** `_generate_comparison`: the lines for each entry, joined by "; ". */
  function ComparisonSummary(d: seq<SourceAnswer>): (r: string)
    ensures forall k :: 0 <= k < |d| ==> Contains(r, SummaryLine(d[k]))
  {
    var lines := SummaryLines(d);
    forall k | 0 <= k < |d| ensures Contains(Join("; ", lines), SummaryLine(d[k])) {
      JoinContainsParts("; ", lines, k);
    }
    Join("; ", lines)
  }

  /** The summary is the entries' lines in the entries' order, "; " between
      neighbours, and nothing else. */
  lemma ComparisonSummaryLaid(d: seq<SourceAnswer>)
    ensures Laid(ComparisonSummary(d), "; ", SummaryLines(d))
    ensures forall k :: 0 <= k < |d| ==> SummaryLines(d)[k] == SummaryLine(d[k])
  {
    JoinLaid("; ", SummaryLines(d));
  }

  /** The outcome of one source's search decides its comparison line: a
      failed search is always "No results", and a successful one is
      "Information found" unless its answer is empty or itself begins with
      "Search failed". */
  lemma {:induction false} SummaryReflectsSearch(query: string, source: string, net: Network)
    ensures var line := SummaryLine(SourceAnswer(source, SourceResult(query, source, net)));
            var outcome := net(EnhanceQuery(query, [source], []));
            (outcome.Raised? ==> line == source + ": No results")
            && (outcome.Returned? && |outcome.value| > 0 && !StartsWith(outcome.value, "Search failed")
                ==> line == source + ": Information found")
  {
    var outcome := net(EnhanceQuery(query, [source], []));
    if outcome.Raised? {
      var a := SourceResult(query, source, net);
      assert a == "Search failed: " + outcome.fault;
      assert a[..13] == "Search failed";
    }
  }

  /** What `compare_sources` returns. */
  datatype Comparison = ComparisonResult(query: string, sources: seq<SourceAnswer>, summary: string)

  /** `compare_sources`: at most `maxSearches` of the sources are searched
      (Python's `sources[:max_searches]`, so a negative setting drops sources
      from the end), each distinct one appears once in the dictionary, and
      the summary has one line per entry. */
  function CompareSources(query: string, sources: seq<string>, maxSearches: int, net: Network): (r: Comparison)
    ensures r.query == query
    ensures forall s :: HasSource(r.sources, s) <==> s in SliceTo(sources, maxSearches)
    ensures maxSearches >= 0 ==> |r.sources| <= maxSearches
    ensures forall k :: 0 <= k < |r.sources| ==> r.sources[k].answer == SourceResult(query, r.sources[k].source, net)
    ensures UniqueSources(r.sources)
    ensures forall k :: 0 <= k < |r.sources| ==> Contains(r.summary, SummaryLine(r.sources[k]))
  {
    var d := Collect(query, SliceTo(sources, maxSearches), net);
    ComparisonResult(query, d, ComparisonSummary(d))
  }

  /** The comparison lists its sources in the order of their first
      occurrence among those searched. */
  lemma CompareSourcesInOrder(query: string, sources: seq<string>, maxSearches: int, net: Network)
    ensures InFirstOrder(CompareSources(query, sources, maxSearches, net).sources, SliceTo(sources, maxSearches))
  {
    CollectInOrder(query, SliceTo(sources, maxSearches), net);
  }
}

=== FILE: wrappers.dfy ===
/** Failure-carrying datatypes shared by every module of the model. */
module Wrappers {

  /** Python's `None` versus a present value. */
  datatype Option<+T> = None | Some(value: T) {

    /** The carried value, or `default` when there is none (`dict.get(k, default)`). */
    function GetOr(default: T): T {
      match this
      case Some(v) => v
      case None => default
    }
  }

  /** The outcome of calling code that may raise: it either returns a value or
      raises an exception whose `str()` is `fault`. */
  datatype Call<+T> = Returned(value: T) | Raised(fault: string)
}
